=== FILE: README.md ===
# OpenAPI documentation normalizer — a Dafny model

This project models the core of the event engine bundle's OpenAPI documentation
normalizer (`src/Serializer/DocumentationNormalizer.php`). The normalizer turns
the bundle's messages and their operation mapping into the `paths` section of an
OpenAPI 3 document. The model covers these parts:

- `convertSchema`: a JSON schema as the event engine writes it becomes an OpenAPI
  schema. It collapses a type union, converts the children and decamilizes the
  property names, rewrites `$ref` pointers from `definitions` to
  `components/schemas`, filters a string enum, turns `examples` into `example`,
  and drops an empty `required` list.
- `removeFromSchema` and `pathParameters`: path placeholders become parameter
  objects and are removed from the request body schema.
- `path`: a trailing `.{_format}` is stripped from the resolved path.
- `operation`: the operation object is assembled, with its `requestBody` and its
  merge-patch content type for PATCH.
- `responses`.
- `paths`:
  - the operation mapping is merged with the message's operation;
  - a message without a mapping fails;
  - each operation is placed under its path and its lower-case method;
  - the paths are sorted by key;
  - the methods of each path are sorted by `METHOD_SORT`.

PHP arrays are ordered maps. They are modelled as `Json.Arr(seq<Entry>)`:
- an entry has an integer or a string key;
- keys are kept unique as an invariant (`PhpArrays.UniqueKeys`);
- assignment overwrites a key in its place or appends a new one (`PhpArrays.Set`);
- `unset` drops the key.

PHP errors the source relies on all become one error, `IllTyped`: type errors,
and "undefined index" warnings that end in a type error. The source's two
exceptions are modelled as their own errors, `MoreThanOneNullType` and
`NoOperationFound(message)`.

The services the normalizer calls are parameters of the model (`Paths.Services`):
- resource metadata and reflection for the short name;
- the operation path resolver;
- the path's placeholder names;
- the message's request schema and response schemas;
- `StringUtil::camelize` and `StringUtil::decamilize`.

Modules, in dependency order:
- `Outcomes`: the `Result`/`Option` types and `Collect`, which evaluates in order and stops at the first failure.
- `PhpArrays`: PHP arrays, lookup, `isset`, assignment, `unset`, truthiness, `array_filter`, `array_map`, casts.
- `PhpNumeric`: PHP 8 numeric strings and the loose `==` between a string and a scalar.
- `PhpStrings`: `strtolower`/`strtoupper`, `lcfirst`/`ucfirst`, and byte-wise string order.
- `RefRewrite`: `str_replace('definitions', 'components/schemas', …)`.
- `Vocabulary`: the schema keys.
- `TypeUnion`: the type collapse (:401-416).
- `PropertyRename`: the property loop (:418-429).
- `SchemaStages`: the remaining stages (:431-468).
- `SchemaConversion`: `convertSchema`.
- `ConversionFixpoint`: a converted schema is a fixed point of `convertSchema`.
- `PathParams`: `removeFromSchema` and `pathParameters`.
- `Operations`: `path`'s suffix strip, `responses` and `operation`.
- `Sorting`: a stable insertion sort, proved equal to concatenating the rank buckets.
- `ArrayMerge`: `array_merge`.
- `MethodOrder`: `METHOD_SORT`, the `uksort` of the methods, and the `ksort` of the paths.
- `Paths`: `paths`.

All source cells below refer to `src/Serializer/DocumentationNormalizer.php`.

## Model

| member | source | states |
|---|---|---|
| TypeUnion.CollapseType | src/Serializer/DocumentationNormalizer.php:401-416 | only `type` and `nullable` can change; a schema whose `type` is not an array is returned unchanged; on success `type` is no longer an array, and on failure `type` was one |
| TypeUnion.CollapseTypeCorrect | src/Serializer/DocumentationNormalizer.php:401-416 | a list of type names fails with MoreThanOneNullType exactly when a truthy non-null name precedes another non-null name; otherwise `type` becomes the last non-null name (or null when there is none), and `nullable` becomes true exactly when the list holds "null" |
| TypeUnion.MoreThanOneNullTypeIff | src/Serializer/DocumentationNormalizer.php:403-408 | when every name is truthy, the collapse throws exactly when two names are not "null" |
| TypeUnion.NonStringTypeFails | src/Serializer/DocumentationNormalizer.php:403-413 | an entry of the type list that is not a string is a type error |
| PropertyRename.RenamePropertiesFails | src/Serializer/DocumentationNormalizer.php:418-429 | the property loop fails exactly when some property schema fails to convert |
| PropertyRename.RenamePropertiesEntries | src/Serializer/DocumentationNormalizer.php:418-429 | every resulting property is a converted property under its own name or its decamilized name, and the names stay unique |
| PropertyRename.RenamePropertiesShape | src/Serializer/DocumentationNormalizer.php:420-428 | without name collisions, a property whose name decamilize keeps stays in its place with its converted schema, and a renamed property moves to the end in loop order |
| PropertyRename.RenamePropertiesIdentityNames | src/Serializer/DocumentationNormalizer.php:420-428 | when decamilize keeps every name, the properties keep names, count and order and hold their converted schemas |
| SchemaStages.ConvertProperties | src/Serializer/DocumentationNormalizer.php:418-429 | only `properties` changes; a schema without a properties array is returned unchanged |
| SchemaStages.ConvertPropertiesCorrect | src/Serializer/DocumentationNormalizer.php:418-429 | the stage fails exactly when a property fails, and otherwise `properties` holds the renamed, converted properties |
| SchemaStages.ConvertOneOf | src/Serializer/DocumentationNormalizer.php:431-442 | only `oneOf` changes; a schema without a oneOf array is returned unchanged |
| SchemaStages.ConvertOneOfCorrect | src/Serializer/DocumentationNormalizer.php:431-442 | the stage fails exactly when an alternative fails, and otherwise every alternative is converted in place under its own key |
| SchemaStages.ConvertItems | src/Serializer/DocumentationNormalizer.php:444-446 | an `items` array is replaced by its conversion, which fails exactly when the conversion does; the other keys are kept |
| SchemaStages.RewriteRefValue | src/Serializer/DocumentationNormalizer.php:448-450 | `str_replace` accepts a string or an array subject; the result holds no "definitions"; a value that holds none is returned as it is |
| SchemaStages.ConvertRef | src/Serializer/DocumentationNormalizer.php:448-450 | a set `$ref` is rewritten so that it holds no "definitions"; an unset one leaves the schema unchanged; a `$ref` that is neither a string nor an array is a type error, since the file declares `strict_types` |
| SchemaStages.ConvertEnum | src/Serializer/DocumentationNormalizer.php:452-458 | the filter applies only to a string enum; the result contains no loosely-null value; every truthy value is kept; nothing new is added; an enum without a loosely-null value is unchanged |
| SchemaStages.ConvertExamples | src/Serializer/DocumentationNormalizer.php:460-464 | `examples` is removed and `example` becomes its first value (false for an empty list); the other keys are kept |
| SchemaStages.ConvertRequired | src/Serializer/DocumentationNormalizer.php:466-468 | an empty `required` list is dropped; every other schema is returned unchanged |
| SchemaConversion.Convert | src/Serializer/DocumentationNormalizer.php:399-471 | a converted schema is an array in normal form: no type union, rewritten `$ref`, a null-free string enum, no `examples`, no empty `required`; a non-array argument is a type error |
| SchemaConversion.ConvertChildren | src/Serializer/DocumentationNormalizer.php:418-446 | in a successful conversion, `properties` is the rename loop (:418-429) over the converted properties, so without name collisions each converted schema sits under its decamilized name (`RenamePropertiesShape`); every `oneOf` alternative is converted in its own place; `items` holds the converted `items` schema; a key that does not hold an array keeps its value |
| SchemaConversion.Finish | src/Serializer/DocumentationNormalizer.php:448-468 | the last four stages touch only `$ref`, `enum`, `examples`, `example` and `required`, and leave a schema in normal form |
| ConversionFixpoint.ConvertIdempotent | src/Serializer/DocumentationNormalizer.php:399-471 | when decamilize is idempotent, converting a converted schema gives it back unchanged |
| RefRewrite.RewriteSplitsAtOccurrence | src/Serializer/DocumentationNormalizer.php:449 | every occurrence of "definitions" is replaced by "components/schemas", and the text around it is rewritten independently |
| RefRewrite.RewriteIdentity | src/Serializer/DocumentationNormalizer.php:449 | a string without "definitions" is left as it is |
| RefRewrite.RewriteRemovesAll | src/Serializer/DocumentationNormalizer.php:449 | the result contains no "definitions" |
| RefRewrite.RewriteIdempotent | src/Serializer/DocumentationNormalizer.php:449 | rewriting twice is rewriting once |
| RefRewrite.RewriteDefinitionPointer | src/Serializer/DocumentationNormalizer.php:449 | `#/definitions/Name` becomes `#/components/schemas/Name` |
| PathParams.DropKeys | src/Serializer/DocumentationNormalizer.php:345 | `array_diff_key` keeps exactly the properties whose name is not a parameter |
| PathParams.DropValues | src/Serializer/DocumentationNormalizer.php:351 | `array_diff` keeps exactly the values whose string form is not a parameter |
| PathParams.RemoveFromSchemaCorrect | src/Serializer/DocumentationNormalizer.php:340-354 | the result is null exactly when no property is left (a missing `properties` counts as empty); otherwise `properties` loses the parameters, `required` loses them and is reindexed, and the other keys are kept; it fails exactly on a non-array `properties`, or on a missing `required` when some property is left |
| PathParams.RemoveFromSchemaIdempotent | src/Serializer/DocumentationNormalizer.php:340-354 | removing the same parameters again changes nothing |
| PathParams.PathParameter | src/Serializer/DocumentationNormalizer.php:298-305 | one parameter is `{name: decamilize(name), schema: the converted property schema, required: PHP 8 loose in_array against required, where a numeric name and a number or numeric string compare by value, in: path}`; it fails exactly when the conversion fails or `required` is not an array |
| PhpNumeric.ArrayKey | src/Serializer/DocumentationNormalizer.php:301 | the key a placeholder name indexes an array with has the name as its string form, and is an integer key only within the 64-bit range |
| PhpNumeric.ArrayKeyIff | src/Serializer/DocumentationNormalizer.php:301 | a name indexes under the integer i exactly when it is the decimal text of i and i is a 64-bit integer, so "1" reads key 1 while "01", "+1" and "-0" stay string keys (`PhpNumeric.ArrayKeyExamples`, on fixed inputs) |
| PathParams.PropertySchemaIntKey | src/Serializer/DocumentationNormalizer.php:301 | a property stored under the integer key i is the schema read for the placeholder spelled as i, the same property `removeFromSchema` drops |
| PhpNumeric.IntToStringParses | src/Serializer/DocumentationNormalizer.php:302 | the decimal text of every integer is a numeric string whose value is that integer |
| PhpNumeric.DigitsLooseEqual | src/Serializer/DocumentationNormalizer.php:302 | a placeholder of digits, leading zeros included, loosely equals the integer it spells and that integer's decimal text |
| PhpNumeric.NonNumericNeverEqualsInt | src/Serializer/DocumentationNormalizer.php:302 | a non-numeric name never loosely equals an integer, and every integer's decimal text equals it |
| PhpNumeric.LooseEqualsSymmetric | src/Serializer/DocumentationNormalizer.php:302 | loose equality of two strings is symmetric and reflexive |
| PhpNumeric.LooseEqualsExamples | src/Serializer/DocumentationNormalizer.php:302 | illustration on fixed inputs: "1" equals "01", "01" equals 1, and "abc" does not equal 0 |
| PathParams.ParametersCorrect | src/Serializer/DocumentationNormalizer.php:297-307 | the parameter list fails exactly when one parameter does, and otherwise holds one parameter per name, in order |
| PathParams.PathParametersList | src/Serializer/DocumentationNormalizer.php:293-307 | one parameter per placeholder, each built from the camelized placeholder name |
| PathParams.PathParametersBody | src/Serializer/DocumentationNormalizer.php:309 | the remaining schema is null exactly when every property is a camelized placeholder; otherwise a property remains exactly when it is not a placeholder |
| Operations.StripFormat | src/Serializer/DocumentationNormalizer.php:238-240 | a path ending in `.{_format}` loses exactly that suffix; any other path is unchanged |
| Operations.StripFormatAppended | src/Serializer/DocumentationNormalizer.php:238-240 | stripping undoes appending the suffix |
| Operations.StripFormatOnce | src/Serializer/DocumentationNormalizer.php:238-240 | the suffix is stripped once only |
| Operations.Responses | src/Serializer/DocumentationNormalizer.php:317-332 | each status code keeps its key and maps to `{description: "", content: {application/json: {schema: converted}}}`; the map fails exactly when one schema's conversion fails, with the first failure |
| Operations.Operation | src/Serializer/DocumentationNormalizer.php:256-270 | every field of a built operation is truthy (`array_filter`) |
| Operations.OperationFailure | src/Serializer/DocumentationNormalizer.php:252-286 | the operation fails exactly when its operation id, its parameters, its responses or its request body schema fails, and with the first of these in the literal's order |
| Operations.OperationKeyOrder | src/Serializer/DocumentationNormalizer.php:256-283 | the keys of a built operation appear in the order summary, description, tags, operationId, parameters, responses, requestBody, each at most once, with `requestBody` last |
| Operations.OperationFields | src/Serializer/DocumentationNormalizer.php:256-270 | summary and description come from `openapi_context`; tags default to the short name; parameters and responses are kept when truthy; there is no other key besides `requestBody` |
| Operations.OperationRequestBody | src/Serializer/DocumentationNormalizer.php:272-283 | `requestBody` is present exactly when the schema left after the path parameters is not null; it holds that converted schema; the content type is merge-patch exactly when the method is the string "PATCH" |
| Operations.LowerCasePatchIsPlainJson | src/Serializer/DocumentationNormalizer.php:276-278 | the comparison is case-sensitive: a method "patch" gets `application/json` |
| Operations.OperationIdFromParts | src/Serializer/DocumentationNormalizer.php:260-263 | a configured operation id is kept; otherwise the id is lcfirst(operationName), ucfirst(shortName) and ucfirst(operationType) concatenated, and it is a type error when one of the three is not a string |
| ArrayMerge.MergeUnique | src/Serializer/DocumentationNormalizer.php:185-188 | `array_merge` yields unique keys |
| ArrayMerge.MergeOverride | src/Serializer/DocumentationNormalizer.php:185-188 | a string key of the message's operation overrides the mapping's value, and the mapping's value is kept for any other key |
| MethodOrder.MethodRank | src/Serializer/DocumentationNormalizer.php:53-59 | a method listed in METHOD_SORT ranks by its place there, compared in upper case; an unlisted method ranks 0 |
| MethodOrder.SortMethodsSorted | src/Serializer/DocumentationNormalizer.php:213-219 | the methods come out in non-decreasing rank and are a permutation of the input |
| MethodOrder.SortMethodsIsBuckets | src/Serializer/DocumentationNormalizer.php:213-219 | the sorted methods are the rank-0 (POST and unlisted) methods, then DELETE, PUT, PATCH and GET, each group in its original order |
| MethodOrder.GetPostPutExample | src/Serializer/DocumentationNormalizer.php:213-219 | illustration of SortMethodsIsBuckets on fixed inputs: GET, POST, PUT comes out as POST, PUT, GET |
| MethodOrder.UnlistedFirstExample | src/Serializer/DocumentationNormalizer.php:216-217 | illustration of MethodRank on fixed inputs: an unlisted method (OPTIONS) ranks 0 and sorts before GET |
| MethodOrder.SortPathsSorted | src/Serializer/DocumentationNormalizer.php:209 | after `ksort` the path keys strictly increase and the paths are a permutation of the input |
| Sorting.SortStable | src/Serializer/DocumentationNormalizer.php:213-219 | the sort keeps the order of the methods within each rank |
| Paths.MergedOperation | src/Serializer/DocumentationNormalizer.php:185-196 | the merged operation has unique keys, and `resourceShortName` is the short name of its resource |
| Paths.MergedOperationOverride | src/Serializer/DocumentationNormalizer.php:185-188 | outside `resourceShortName`, the message's operation overrides the mapping's |
| Paths.PathOperation | src/Serializer/DocumentationNormalizer.php:180-200 | a message without a mapping fails with NoOperationFound for that message |
| Paths.PathOperationOk | src/Serializer/DocumentationNormalizer.php:185-200 | a placed operation is keyed by the lower-case method and by the resolved path with `.{_format}` stripped, and holds the operation built from the merged configuration |
| Paths.PathsFailure | src/Serializer/DocumentationNormalizer.php:180-207 | `paths` fails exactly when some message fails, and with the first failing message's error |
| Paths.UnmappedMessage | src/Serializer/DocumentationNormalizer.php:181-183 | the first message without a mapping makes `paths` fail with NoOperationFound for that message |
| Paths.PathsOk | src/Serializer/DocumentationNormalizer.php:180-224 | when every message succeeds, `paths` is the sorted table of their operations, in message order |
| Paths.TableLookup | src/Serializer/DocumentationNormalizer.php:199-224 | a path is present exactly when some message resolved to it; under it, a method holds the operation of the last message placed there and is absent when no message was |
| Paths.PathsOrdered | src/Serializer/DocumentationNormalizer.php:209-224 | the paths strictly increase by key, and the methods of each path have unique keys and come out in METHOD_SORT order |
| PhpArrays.ArrayFilterLookup | src/Serializer/DocumentationNormalizer.php:256-270 | `array_filter` keeps exactly the truthy values, each under its own key |
| PhpArrays.ArrayMap | src/Serializer/DocumentationNormalizer.php:319-331 | `array_map` maps every value under its own key, in order, and stops at the first failure |
| Outcomes.CollectCorrect | src/Serializer/DocumentationNormalizer.php:297-307 | evaluating a list of results in order fails exactly when one of them fails, with the first failure, and otherwise keeps every value in place |

## Left out

- `normalize`, `messages`, `resourceMessages`, `schemas`, `components` and
  `buildSchema` (the lines outside 53-59 and 174-471) are not part of this model.
  They gather and build the message schemas; the model takes those schemas as
  parameters.
- Resource metadata, reflection (`getShortName`, `implementsInterface`),
  `resolveOperationPath`, `Uri::toPathParameterNames`, `camelize` and
  `decamilize` are calls into code outside the normalizer. They are parameters of
  the model (`Paths.Services`). `Uri::fromString(...)->toString()` is taken as the
  identity on the path string.
- `ApiPlatformMappingException` is modelled only as the error value
  `NoOperationFound(message)`. Its message text is not part of this model.
- Numeric-string keys: PHP stores the key "12" as the integer 12. The model
  applies this conversion where a placeholder name indexes the properties
  (`PhpNumeric.ArrayKey`, :301). Elsewhere it keeps string keys as strings, and
  so it assumes that path keys and method keys are not numeric strings.
- Floats and objects inside schemas are not modelled. A JSON value is null, a
  bool, an integer, a string or an array.
- PHP warnings, notices and the PHP 7.4/8 difference between a warning and a
  `TypeError` all become the one error `IllTyped`, with two exceptions where
  PHP warns and continues, and the model continues the same way:
  - `$schema['properties'][$parameterName]` for a placeholder without a
    property (:301). PHP continues with null, and the model reads null
    (`PathParams.PropertySchema`).
  - `array_diff($schema['required'], $parameters)` (:351) over a `required`
    list holding an array. PHP casts that element to the text "Array" with an
    "Array to string conversion" warning (a notice in PHP 7.4). The model
    compares it as "Array" (`PhpArrays.StringCast`, used by
    `PathParams.DropValues`).
- `convertSchema` is a non-static method. The static closures at :298 and :320
  call it through `self::` (:301, :325). PHP 8 refuses such a call, and PHP 7.4
  allows it with a deprecation notice. The model treats these calls as
  succeeding. The call at :279 sits in the instance method `operation` and is
  an ordinary call.
- `ksort` and `uksort`: PHP 8's sort is stable, and the model sorts stably. PHP 7
  did not guarantee stability for equal ranks.
- `ksort` compares with PHP's default flags. On two numeric-looking path strings
  PHP compares them as numbers. The model compares paths byte by byte, which
  agrees for every path beginning with `/`.
- `Operations.Operation`: `responses` is present only when the message class
  implements `HasResponses`. Whether it does comes from reflection and is a
  parameter, `Option<seq<Entry>>`.
- PathParams.PathParameter: `required` compares numbers exactly, as
  `mantissa * 10^exponent` (`PhpNumeric.LooseEqualsString`). PHP compares as
  `int` when both sides fit and as `double` otherwise. The two differ only for
  numbers beyond double precision or range.
- PropertyRename.RenameLoop: an integer property key is a type error. This
  assumes `StringUtil::decamilize` declares a `string` parameter, which the
  file's `strict_types` then enforces. StringUtil is not part of this model.
- `ConversionFixpoint.ConvertIdempotent`: proved only for inputs without
  duplicate keys (`WellFormed`) and for a `decamilize` that is idempotent. Neither
  is visible in the source.

## Notes on the code

- `if ($type)` in the type loop tests PHP truthiness. A type list `["0", "string"]`
  therefore does not throw, because "0" is falsy. The model follows the code: it
  fails exactly when a truthy non-null name is followed by another non-null name.
- `str_replace` replaces every occurrence of "definitions", not only the leading
  pointer segment.
- `in_array(null, $enum)` and `in_array($name, $required)` compare loosely. Null
  matches false, 0, "" and the empty array. A numeric name matches an integer or
  a numeric string of the same value, so "01" matches 1 and "1.0". Among
  strings and integers, a non-numeric name matches only its own text. Against a
  boolean, any truthy name matches true, so "id" matches a `true` entry.
- `reset([])` is false, so an empty `examples` list yields `example: false`.
- The request body's content type compares the operation's raw `method` with
  `=== 'PATCH'`, case-sensitively. The path table keys the operation by
  `strtolower($method)`.
- `requestBody` is assigned after `array_filter`, so it is appended after the
  filtered fields.

=== FILE: array_merge.dfy ===
/** PHP's `array_merge($a, $b)`.

  The entries of `$a` and then of `$b` are copied in order. A string key is
  written with `$r[$k] = $v`: a later array overrides an earlier value in the
  earlier value's place. An integer key is not kept: the value is appended under
  the next integer key, starting from 0.
 */
module ArrayMerge {
  import opened Outcomes
  import opened PhpArrays

  /** Copy `es` into `acc`; `next` is the next integer key to hand out. */
  function MergeLoop(acc: seq<Entry>, es: seq<Entry>, next: nat): (r: (seq<Entry>, nat))
    ensures next <= r.1
    decreases |es|
  {
    if es == [] then (acc, next)
    else match es[0].key
      case IntKey(_) => MergeLoop(acc + [Entry(IntKey(next), es[0].value)], es[1..], next + 1)
      case StrKey(_) => MergeLoop(Set(acc, es[0].key, es[0].value), es[1..], next)
  }

  /** `array_merge($a, $b)`. */
  function Merge(a: seq<Entry>, b: seq<Entry>): seq<Entry> {
    var first := MergeLoop([], a, 0);
    MergeLoop(first.0, b, first.1).0
  }

  /** Every integer key handed out so far is below `next`. */
  predicate IntKeysBelow(acc: seq<Entry>, next: nat) {
    forall i :: 0 <= i < |acc| && acc[i].key.IntKey? ==> acc[i].key.n < next
  }

  /** The merge keeps keys unique: string keys are overwritten, integer keys are fresh. */
  lemma {:induction false} MergeLoopUnique(acc: seq<Entry>, es: seq<Entry>, next: nat)
    requires UniqueKeys(acc) && IntKeysBelow(acc, next)
    ensures UniqueKeys(MergeLoop(acc, es, next).0) && IntKeysBelow(MergeLoop(acc, es, next).0, MergeLoop(acc, es, next).1)
    decreases |es|
  {
    if es != [] {
      match es[0].key
      case IntKey(_) =>
        var acc' := acc + [Entry(IntKey(next), es[0].value)];
        assert UniqueKeys(acc') by {
          forall i | 0 <= i < |acc| ensures acc'[i].key != IntKey(next) {
            assert acc'[i] == acc[i];
          }
        }
        MergeLoopUnique(acc', es[1..], next + 1);
      case StrKey(_) =>
        var acc' := Set(acc, es[0].key, es[0].value);
        assert IntKeysBelow(acc', next) by {
          SetEntries(acc, es[0].key, es[0].value);
          forall i | 0 <= i < |acc'| && acc'[i].key.IntKey? ensures acc'[i].key.n < next {
            assert acc'[i] in acc';
          }
        }
        MergeLoopUnique(acc', es[1..], next);
    }
  }

  /** The result of `array_merge` is a PHP array: no key occurs twice. */
  lemma MergeUnique(a: seq<Entry>, b: seq<Entry>)
    ensures UniqueKeys(Merge(a, b))
  {
    MergeLoopUnique([], a, 0);
    var first := MergeLoop([], a, 0);
    MergeLoopUnique(first.0, b, first.1);
  }

  /** Copying an array of unique keys: a string key reads the copied value when the
      copied array has it, and the earlier value otherwise. */
  lemma {:induction false} MergeLoopLookup(acc: seq<Entry>, es: seq<Entry>, next: nat, s: string)
    requires UniqueKeys(es)
    ensures Lookup(MergeLoop(acc, es, next).0, StrKey(s)) ==
      if HasKey(es, StrKey(s)) then Lookup(es, StrKey(s)) else Lookup(acc, StrKey(s))
    decreases |es|
  {
    if es != [] {
      var rest := es[1..];
      TailUnique(es);
      LookupCons(es[0], rest, StrKey(s));
      assert es == [es[0]] + rest;
      match es[0].key
      case IntKey(_) =>
        var acc' := acc + [Entry(IntKey(next), es[0].value)];
        MergeLoopLookup(acc', rest, next + 1, s);
        FindAppend(acc, Entry(IntKey(next), es[0].value), StrKey(s));
      case StrKey(_) =>
        var acc' := Set(acc, es[0].key, es[0].value);
        MergeLoopLookup(acc', rest, next, s);
        if es[0].key == StrKey(s) {
          TailLacksHead(es);
        }
    }
  }

  /** `array_merge` overrides: a string key of the second array wins, and the first
      array's value is kept for a string key the second does not have. */
  lemma MergeOverride(a: seq<Entry>, b: seq<Entry>, s: string)
    requires UniqueKeys(a) && UniqueKeys(b)
    ensures Lookup(Merge(a, b), StrKey(s)) ==
      if HasKey(b, StrKey(s)) then Lookup(b, StrKey(s)) else Lookup(a, StrKey(s))
  {
    var first := MergeLoop([], a, 0);
    MergeLoopLookup([], a, 0, s);
    MergeLoopLookup(first.0, b, first.1, s);
  }
}

=== FILE: convert.dfy ===
/** convertSchema (DocumentationNormalizer.php:399-471): a JSON schema as the
    event engine writes it becomes an OpenAPI 3 schema.

  The stages run in the source's order on one schema array. The three that
  recurse read their child schemas from the schema as it was passed in; this
  is the same as reading them at their turn, because every earlier stage
  leaves those keys alone (each stage's contract says so).
 */
module SchemaConversion {
  import opened Outcomes
  import opened PhpArrays
  import opened RefRewrite
  import opened Vocabulary
  import opened TypeUnion
  import opened PropertyRename
  import opened SchemaStages

  /** The shape of every converted schema at its top level: a single type, `$ref`
      pointers free of `definitions`, a string enum without a null-like value, no
      `examples` list and no empty `required` list. */
  predicate Normalized(es: seq<Entry>) {
    && !HoldsArray(es, TypeKey)
    && (IsSet(es, RefKey) ==> RefRewritten(GetOrNull(es, RefKey)))
    && (EnumApplies(es) ==> GetOrNull(es, EnumKey).Arr? && !HasLooseNull(GetOrNull(es, EnumKey).entries))
    && !IsSet(es, ExamplesKey)
    && (IsSet(es, RequiredKey) ==> GetOrNull(es, RequiredKey).Arr?)
    && Lookup(es, RequiredKey) != Some(Arr([]))
  }

  /** `convertSchema(array $jsonSchema)`; a non-array argument is a type error.
      `dec` is StringUtil::decamilize. */
  function Convert(node: Json, dec: string -> string): (r: Result<Json>)
    ensures r.Ok? ==> r.value.Arr? && Normalized(r.value.entries)
    ensures !node.Arr? ==> r == Err(IllTyped)
    decreases node, 1
  {
    match node
    case Arr(es) =>
      ChildrenSmaller(node, PropertiesKey);
      ChildrenSmaller(node, OneOfKey);
      var out :- Stages(es, ConvertAll(node, Children(es, PropertiesKey), dec), ConvertAll(node, Children(es, OneOfKey), dec),
                        ItemKid(node, dec), dec);
      Ok(Arr(out))
    case _ => Err(IllTyped)
  }

  /** The conversions of the child schemas `cs` of `parent`, in order. */
  function ConvertAll(parent: Json, cs: seq<Entry>, dec: string -> string): (r: seq<Result<Json>>)
    requires forall i :: 0 <= i < |cs| ==> cs[i].value < parent
    ensures |r| == |cs|
    ensures forall i :: 0 <= i < |cs| ==> r[i] == Convert(cs[i].value, dec)
    decreases parent, 0
  {
    seq(|cs|, i requires 0 <= i < |cs| => Convert(cs[i].value, dec))
  }

  /** The conversion of `items` when it holds an array; unused otherwise. */
  function ItemKid(node: Json, dec: string -> string): (r: Result<Json>)
    requires node.Arr?
    ensures HoldsArray(node.entries, ItemsKey) ==> r == Convert(Lookup(node.entries, ItemsKey).value, dec)
    decreases node, 0
  {
    if HoldsArray(node.entries, ItemsKey) then
      ItemSmaller(node);
      Convert(Lookup(node.entries, ItemsKey).value, dec)
    else Err(IllTyped)
  }

  /** The stages of convertSchema in order, given the conversions of the children. */
  function Stages(es: seq<Entry>, propKids: seq<Result<Json>>, altKids: seq<Result<Json>>, itemKid: Result<Json>,
                  dec: string -> string): (r: Result<seq<Entry>>)
    requires |propKids| == |Children(es, PropertiesKey)| && |altKids| == |Children(es, OneOfKey)|
    ensures r.Ok? ==> Normalized(r.value)
  {
    var es1 :- CollapseType(es);
    CollapseFrame(es, es1);
    var es2 :- ConvertProperties(es1, propKids, dec);
    PropertiesFrame(es1, propKids, dec, es2);
    var es3 :- ConvertOneOf(es2, altKids);
    var es4 :- ConvertItems(es3, itemKid);
    ChildStagesKeepType(es2, altKids, itemKid, es3, es4);
    var es8 :- Finish(es4);
    Ok(es8)
  }

  /** The type collapse leaves the child schemas where they are. */
  lemma CollapseFrame(es: seq<Entry>, es1: seq<Entry>)
    requires CollapseType(es) == Ok(es1)
    ensures Children(es1, PropertiesKey) == Children(es, PropertiesKey)
    ensures Children(es1, OneOfKey) == Children(es, OneOfKey)
    ensures Lookup(es1, ItemsKey) == Lookup(es, ItemsKey)
    ensures !HoldsArray(es1, TypeKey)
  {
    assert Lookup(es1, PropertiesKey) == Lookup(es, PropertiesKey);
    assert Lookup(es1, OneOfKey) == Lookup(es, OneOfKey);
  }

  /** Converting the properties leaves `oneOf`, `items` and `type` alone. */
  lemma PropertiesFrame(es1: seq<Entry>, kids: seq<Result<Json>>, dec: string -> string, es2: seq<Entry>)
    requires |kids| == |Children(es1, PropertiesKey)| && ConvertProperties(es1, kids, dec) == Ok(es2)
    ensures Children(es2, OneOfKey) == Children(es1, OneOfKey)
    ensures Lookup(es2, ItemsKey) == Lookup(es1, ItemsKey)
    ensures Lookup(es2, TypeKey) == Lookup(es1, TypeKey)
  {
  }

  /** Converting `oneOf` and `items` leaves `type` alone. */
  lemma ChildStagesKeepType(es2: seq<Entry>, kids: seq<Result<Json>>, kid: Result<Json>, es3: seq<Entry>, es4: seq<Entry>)
    requires |kids| == |Children(es2, OneOfKey)| && ConvertOneOf(es2, kids) == Ok(es3) && ConvertItems(es3, kid) == Ok(es4)
    ensures Lookup(es4, TypeKey) == Lookup(es2, TypeKey)
    ensures Lookup(es3, ItemsKey) == Lookup(es2, ItemsKey)
  {
  }

  /** The conversion of each child schema in `cs`, in order. */
  function ConvertEach(cs: seq<Entry>, dec: string -> string): (r: seq<Result<Json>>)
    ensures |r| == |cs|
    ensures forall i :: 0 <= i < |cs| ==> r[i] == Convert(cs[i].value, dec)
  {
    seq(|cs|, i requires 0 <= i < |cs| => Convert(cs[i].value, dec))
  }

  /** A successful conversion holds the converted child schemas: `properties` is
      the rename loop (:418-429) over the converted properties, so without name
      collisions each sits under its decamilized name (`RenamePropertiesShape`);
      every `oneOf` alternative is converted in its place (:431-441), and `items`
      holds the converted `items` schema (:443-445). A key that does not hold an
      array keeps its value. */
  lemma ConvertChildren(es: seq<Entry>, dec: string -> string)
    ensures Convert(Arr(es), dec).Ok? ==>
      var out := Convert(Arr(es), dec).value.entries;
      var ps := Children(es, PropertiesKey);
      && (HoldsArray(es, PropertiesKey) ==>
            && RenameProperties(ps, ConvertEach(ps, dec), dec).Ok?
            && Lookup(out, PropertiesKey) == Some(Arr(RenameProperties(ps, ConvertEach(ps, dec), dec).value)))
      && (!HoldsArray(es, PropertiesKey) ==> Lookup(out, PropertiesKey) == Lookup(es, PropertiesKey))
      && (!HoldsArray(es, OneOfKey) ==> Lookup(out, OneOfKey) == Lookup(es, OneOfKey))
      && (HoldsArray(es, ItemsKey) ==>
            && Convert(Lookup(es, ItemsKey).value, dec).Ok?
            && Lookup(out, ItemsKey) == Some(Convert(Lookup(es, ItemsKey).value, dec).value))
      && (!HoldsArray(es, ItemsKey) ==> Lookup(out, ItemsKey) == Lookup(es, ItemsKey))
    ensures Convert(Arr(es), dec).Ok? && HoldsArray(es, OneOfKey) && UniqueKeys(Children(es, OneOfKey)) ==>
      var os := Children(es, OneOfKey);
      var alts := Lookup(Convert(Arr(es), dec).value.entries, OneOfKey);
      && alts.Some? && alts.value.Arr? && |alts.value.entries| == |os|
      && forall j :: 0 <= j < |os| ==>
           Convert(os[j].value, dec).Ok? && alts.value.entries[j] == Entry(os[j].key, Convert(os[j].value, dec).value)
  {
    var node := Arr(es);
    if Convert(node, dec).Ok? {
      ChildrenSmaller(node, PropertiesKey);
      ChildrenSmaller(node, OneOfKey);
      var ps, os := Children(es, PropertiesKey), Children(es, OneOfKey);
      var pk, ak, ik := ConvertAll(node, ps, dec), ConvertAll(node, os, dec), ItemKid(node, dec);
      assert Convert(node, dec) == Ok(Arr(Stages(es, pk, ak, ik, dec).value));
      assert pk == ConvertEach(ps, dec);
      StagesProperties(es, pk, ak, ik, dec);
      StagesOneOf(es, pk, ak, ik, dec);
      StagesItems(es, pk, ak, ik, dec);
    }
  }

  /** The first four intermediate schemas of a successful run of the stages. */
  lemma StagesSteps(es: seq<Entry>, pk: seq<Result<Json>>, ak: seq<Result<Json>>, ik: Result<Json>, dec: string -> string)
      returns (es1: seq<Entry>, es2: seq<Entry>, es3: seq<Entry>, es4: seq<Entry>)
    requires |pk| == |Children(es, PropertiesKey)| && |ak| == |Children(es, OneOfKey)|
    requires Stages(es, pk, ak, ik, dec).Ok?
    ensures CollapseType(es) == Ok(es1)
    ensures |pk| == |Children(es1, PropertiesKey)| && Lookup(es1, PropertiesKey) == Lookup(es, PropertiesKey)
    ensures ConvertProperties(es1, pk, dec) == Ok(es2)
    ensures |ak| == |Children(es2, OneOfKey)| && Lookup(es2, OneOfKey) == Lookup(es, OneOfKey)
    ensures ConvertOneOf(es2, ak) == Ok(es3)
    ensures Lookup(es3, ItemsKey) == Lookup(es, ItemsKey)
    ensures ConvertItems(es3, ik) == Ok(es4)
    ensures Finish(es4).Ok? && Stages(es, pk, ak, ik, dec) == Finish(es4)
  {
    es1 := CollapseType(es).value;
    CollapseFrame(es, es1);
    es2 := ConvertProperties(es1, pk, dec).value;
    PropertiesFrame(es1, pk, dec, es2);
    es3 := ConvertOneOf(es2, ak).value;
    es4 := ConvertItems(es3, ik).value;
    ChildStagesKeepType(es2, ak, ik, es3, es4);
  }

  /** The stages after `properties` leave it alone, and those after `oneOf` and
      `items` leave those alone. */
  lemma LaterStagesFrame(es2: seq<Entry>, es3: seq<Entry>, es4: seq<Entry>, out: seq<Entry>,
                         ak: seq<Result<Json>>, ik: Result<Json>)
    requires |ak| == |Children(es2, OneOfKey)| && ConvertOneOf(es2, ak) == Ok(es3)
    requires ConvertItems(es3, ik) == Ok(es4) && Finish(es4) == Ok(out)
    ensures Lookup(out, PropertiesKey) == Lookup(es2, PropertiesKey)
    ensures Lookup(out, OneOfKey) == Lookup(es3, OneOfKey)
    ensures Lookup(out, ItemsKey) == Lookup(es4, ItemsKey)
  {
    assert Lookup(out, PropertiesKey) == Lookup(es4, PropertiesKey) == Lookup(es3, PropertiesKey);
    assert Lookup(out, OneOfKey) == Lookup(es4, OneOfKey);
  }

  /** What a successful run of the stages wrote under `properties`. */
  lemma StagesProperties(es: seq<Entry>, pk: seq<Result<Json>>, ak: seq<Result<Json>>, ik: Result<Json>, dec: string -> string)
    requires |pk| == |Children(es, PropertiesKey)| && |ak| == |Children(es, OneOfKey)|
    requires Stages(es, pk, ak, ik, dec).Ok?
    ensures var out := Stages(es, pk, ak, ik, dec).value;
      var ps := Children(es, PropertiesKey);
      && (HoldsArray(es, PropertiesKey) ==>
            RenameProperties(ps, pk, dec).Ok? && Lookup(out, PropertiesKey) == Some(Arr(RenameProperties(ps, pk, dec).value)))
      && (!HoldsArray(es, PropertiesKey) ==> Lookup(out, PropertiesKey) == Lookup(es, PropertiesKey))
  {
    var es1, es2, es3, es4 := StagesSteps(es, pk, ak, ik, dec);
    var out := Stages(es, pk, ak, ik, dec).value;
    LaterStagesFrame(es2, es3, es4, out, ak, ik);
    if HoldsArray(es, PropertiesKey) {
      ConvertPropertiesCorrect(es1, pk, dec);
      assert Lookup(out, PropertiesKey) == Some(Arr(RenameProperties(Children(es, PropertiesKey), pk, dec).value));
    } else {
      assert es2 == es1;
    }
  }

  /** What a successful run of the stages wrote under `oneOf`. */
  lemma StagesOneOf(es: seq<Entry>, pk: seq<Result<Json>>, ak: seq<Result<Json>>, ik: Result<Json>, dec: string -> string)
    requires |pk| == |Children(es, PropertiesKey)| && |ak| == |Children(es, OneOfKey)|
    requires Stages(es, pk, ak, ik, dec).Ok?
    ensures var out := Stages(es, pk, ak, ik, dec).value;
      var os := Children(es, OneOfKey);
      && (HoldsArray(es, OneOfKey) && UniqueKeys(os) ==>
            AllOk(ak, 0) && Lookup(out, OneOfKey) == Some(Arr(ConvertedPrefix(os, ak, |os|))))
      && (!HoldsArray(es, OneOfKey) ==> Lookup(out, OneOfKey) == Lookup(es, OneOfKey))
  {
    var es1, es2, es3, es4 := StagesSteps(es, pk, ak, ik, dec);
    var out := Stages(es, pk, ak, ik, dec).value;
    LaterStagesFrame(es2, es3, es4, out, ak, ik);
    if HoldsArray(es, OneOfKey) && UniqueKeys(Children(es, OneOfKey)) {
      ConvertOneOfCorrect(es2, ak);
    } else if !HoldsArray(es, OneOfKey) {
      assert es3 == es2;
    }
  }

  /** What a successful run of the stages wrote under `items`. */
  lemma StagesItems(es: seq<Entry>, pk: seq<Result<Json>>, ak: seq<Result<Json>>, ik: Result<Json>, dec: string -> string)
    requires |pk| == |Children(es, PropertiesKey)| && |ak| == |Children(es, OneOfKey)|
    requires Stages(es, pk, ak, ik, dec).Ok?
    ensures var out := Stages(es, pk, ak, ik, dec).value;
      && (HoldsArray(es, ItemsKey) ==> ik.Ok? && Lookup(out, ItemsKey) == Some(ik.value))
      && (!HoldsArray(es, ItemsKey) ==> Lookup(out, ItemsKey) == Lookup(es, ItemsKey))
  {
    var es1, es2, es3, es4 := StagesSteps(es, pk, ak, ik, dec);
    var out := Stages(es, pk, ak, ik, dec).value;
    LaterStagesFrame(es2, es3, es4, out, ak, ik);
  }

  /** The stages that do not recurse (:447-468), in order. */
  function Finish(es: seq<Entry>): (r: Result<seq<Entry>>)
    ensures r.Ok? ==> forall k :: k != RefKey && k != EnumKey && k != ExamplesKey && k != ExampleKey && k != RequiredKey
                                 ==> Lookup(r.value, k) == Lookup(es, k)
    ensures r.Ok? && !HoldsArray(es, TypeKey) ==> Normalized(r.value)
  {
    var es5 :- ConvertRef(es);
    var es6 :- ConvertEnum(es5);
    var es7 :- ConvertExamples(es6);
    var es8 :- ConvertRequired(es7);
    FinishFrame(es, es5, es6, es7, es8);
    FinishNormalized(es, es5, es6, es7, es8);
    Ok(es8)
  }

  lemma FinishFrame(es: seq<Entry>, es5: seq<Entry>, es6: seq<Entry>, es7: seq<Entry>, es8: seq<Entry>)
    requires ConvertRef(es) == Ok(es5) && ConvertEnum(es5) == Ok(es6)
    requires ConvertExamples(es6) == Ok(es7) && ConvertRequired(es7) == Ok(es8)
    ensures forall k :: k != RefKey && k != EnumKey && k != ExamplesKey && k != ExampleKey && k != RequiredKey
                        ==> Lookup(es8, k) == Lookup(es, k)
  {
  }

  /** The four stages of `Finish` ran and produced these arrays. */
  predicate FinishChain(es: seq<Entry>, es5: seq<Entry>, es6: seq<Entry>, es7: seq<Entry>, es8: seq<Entry>) {
    && ConvertRef(es) == Ok(es5) && ConvertEnum(es5) == Ok(es6)
    && ConvertExamples(es6) == Ok(es7) && ConvertRequired(es7) == Ok(es8)
  }

  lemma FinishNormalized(es: seq<Entry>, es5: seq<Entry>, es6: seq<Entry>, es7: seq<Entry>, es8: seq<Entry>)
    requires FinishChain(es, es5, es6, es7, es8)
    ensures !HoldsArray(es, TypeKey) ==> Normalized(es8)
  {
    FinishRefEnum(es, es5, es6, es7, es8);
    assert !IsSet(es8, ExamplesKey) by {
      assert Lookup(es8, ExamplesKey) == Lookup(es7, ExamplesKey);
    }
  }

  lemma FinishRefEnum(es: seq<Entry>, es5: seq<Entry>, es6: seq<Entry>, es7: seq<Entry>, es8: seq<Entry>)
    requires FinishChain(es, es5, es6, es7, es8)
    ensures Lookup(es8, TypeKey) == Lookup(es, TypeKey)
    ensures IsSet(es8, RefKey) ==> RefRewritten(GetOrNull(es8, RefKey))
    ensures EnumApplies(es8) ==> GetOrNull(es8, EnumKey).Arr? && !HasLooseNull(GetOrNull(es8, EnumKey).entries)
  {
    assert Lookup(es8, TypeKey) == Lookup(es7, TypeKey) == Lookup(es6, TypeKey) == Lookup(es5, TypeKey) == Lookup(es, TypeKey);
    assert Lookup(es8, RefKey) == Lookup(es7, RefKey) == Lookup(es6, RefKey) == Lookup(es5, RefKey);
    FinishEnum(es5, es6, es7, es8);
  }

  lemma FinishEnum(es5: seq<Entry>, es6: seq<Entry>, es7: seq<Entry>, es8: seq<Entry>)
    requires ConvertEnum(es5) == Ok(es6) && ConvertExamples(es6) == Ok(es7) && ConvertRequired(es7) == Ok(es8)
    ensures EnumApplies(es8) ==> GetOrNull(es8, EnumKey).Arr? && !HasLooseNull(GetOrNull(es8, EnumKey).entries)
  {
    if EnumApplies(es8) {
      assert Lookup(es8, EnumKey) == Lookup(es7, EnumKey) == Lookup(es6, EnumKey);
      assert Lookup(es8, TypeKey) == Lookup(es7, TypeKey) == Lookup(es6, TypeKey);
      assert EnumApplies(es6);
    }
  }

  lemma ChildrenSmaller(node: Json, k: Key)
    requires node.Arr?
    ensures forall i :: 0 <= i < |Children(node.entries, k)| ==> Children(node.entries, k)[i].value < node
  {
    var cs := Children(node.entries, k);
    if cs != [] {
      var j :| 0 <= j < |node.entries| && node.entries[j] == Entry(k, Arr(cs));
      assert node.entries[j] in node.entries;
      forall i | 0 <= i < |cs| ensures cs[i].value < node {
        assert cs[i] in cs;
      }
    }
  }

  lemma ItemSmaller(node: Json)
    requires node.Arr? && HoldsArray(node.entries, ItemsKey)
    ensures Lookup(node.entries, ItemsKey).value < node
  {
    var j :| 0 <= j < |node.entries| && node.entries[j] == Entry(ItemsKey, Lookup(node.entries, ItemsKey).value);
    assert node.entries[j] in node.entries;
  }
}

=== FILE: fixpoint.dfy ===
/** Converting a converted schema changes nothing, provided decamilize is itself
    idempotent (a name already in snake case stays as it is).

  This is the property that lets the normalizer run convertSchema over schemas
  that may already have been converted: every stage leaves its own output alone.
 */
module ConversionFixpoint {
  import opened Outcomes
  import opened PhpArrays
  import opened RefRewrite
  import opened Vocabulary
  import opened TypeUnion
  import opened PropertyRename
  import opened SchemaStages
  import opened SchemaConversion

  /** decamilize maps its own results to themselves. */
  ghost predicate DecIdempotent(dec: string -> string) {
    forall s :: dec(dec(s)) == dec(s)
  }

  /** The non-recursive stages leave a normalized schema alone. */
  lemma FinishFixed(es: seq<Entry>)
    requires Normalized(es)
    ensures Finish(es) == Ok(es)
  {
    if IsSet(es, RefKey) {
      SetSame(es, RefKey, GetOrNull(es, RefKey));
    }
    assert ConvertRef(es) == Ok(es);
  }

  /** All stages leave a normalized schema alone once its children are fixed points. */
  lemma StagesFixed(out: seq<Entry>, pk: seq<Result<Json>>, ak: seq<Result<Json>>, ik: Result<Json>, dec: string -> string)
    requires |pk| == |Children(out, PropertiesKey)| && |ak| == |Children(out, OneOfKey)|
    requires Normalized(out)
    requires HoldsArray(out, PropertiesKey) ==>
      RenameProperties(Children(out, PropertiesKey), pk, dec) == Ok(Children(out, PropertiesKey))
    requires HoldsArray(out, OneOfKey) ==>
      OneOfLoop(Children(out, OneOfKey), ak, 0, Children(out, OneOfKey)) == Ok(Children(out, OneOfKey))
    requires HoldsArray(out, ItemsKey) ==> ik == Ok(Lookup(out, ItemsKey).value)
    ensures Stages(out, pk, ak, ik, dec) == Ok(out)
  {
    assert CollapseType(out) == Ok(out);
    PropertiesStageFixed(out, pk, dec);
    OneOfStageFixed(out, ak);
    ItemsStageFixed(out, ik);
    FinishFixed(out);
    StagesAllFixed(out, pk, ak, ik, dec);
  }

  lemma PropertiesStageFixed(out: seq<Entry>, pk: seq<Result<Json>>, dec: string -> string)
    requires |pk| == |Children(out, PropertiesKey)|
    requires HoldsArray(out, PropertiesKey) ==>
      RenameProperties(Children(out, PropertiesKey), pk, dec) == Ok(Children(out, PropertiesKey))
    ensures ConvertProperties(out, pk, dec) == Ok(out)
  {
    if HoldsArray(out, PropertiesKey) {
      SetSame(out, PropertiesKey, Arr(Children(out, PropertiesKey)));
    }
  }

  lemma OneOfStageFixed(out: seq<Entry>, ak: seq<Result<Json>>)
    requires |ak| == |Children(out, OneOfKey)|
    requires HoldsArray(out, OneOfKey) ==>
      OneOfLoop(Children(out, OneOfKey), ak, 0, Children(out, OneOfKey)) == Ok(Children(out, OneOfKey))
    ensures ConvertOneOf(out, ak) == Ok(out)
  {
    if HoldsArray(out, OneOfKey) {
      SetSame(out, OneOfKey, Arr(Children(out, OneOfKey)));
    }
  }

  lemma ItemsStageFixed(out: seq<Entry>, ik: Result<Json>)
    requires HoldsArray(out, ItemsKey) ==> ik == Ok(Lookup(out, ItemsKey).value)
    ensures ConvertItems(out, ik) == Ok(out)
  {
    if HoldsArray(out, ItemsKey) {
      SetSame(out, ItemsKey, Lookup(out, ItemsKey).value);
    }
  }

  /** A schema every stage gives back is given back by the stages in sequence. */
  lemma StagesAllFixed(out: seq<Entry>, pk: seq<Result<Json>>, ak: seq<Result<Json>>, ik: Result<Json>, dec: string -> string)
    requires |pk| == |Children(out, PropertiesKey)| && |ak| == |Children(out, OneOfKey)|
    requires CollapseType(out) == Ok(out) && ConvertProperties(out, pk, dec) == Ok(out)
    requires ConvertOneOf(out, ak) == Ok(out) && ConvertItems(out, ik) == Ok(out) && Finish(out) == Ok(out)
    ensures Stages(out, pk, ak, ik, dec) == Ok(out)
  {
  }

  /** Renamed properties whose schemas are fixed points come through a second rename unchanged. */
  lemma PropertiesFixed(ps: seq<Entry>, pk: seq<Result<Json>>, dec: string -> string, pk2: seq<Result<Json>>)
    requires |pk| == |ps| && UniqueKeys(ps) && DecIdempotent(dec)
    requires RenameProperties(ps, pk, dec).Ok?
    requires forall m :: 0 <= m < |pk| && pk[m].Ok? ==> pk[m].value.Arr? && Convert(pk[m].value, dec) == pk[m]
    requires var ps' := RenameProperties(ps, pk, dec).value;
      |pk2| == |ps'| && forall j :: 0 <= j < |ps'| ==> pk2[j] == Convert(ps'[j].value, dec)
    ensures var ps' := RenameProperties(ps, pk, dec).value;
      RenameProperties(ps', pk2, dec) == Ok(ps')
  {
    var ps' := RenameProperties(ps, pk, dec).value;
    RenamePropertiesEntries(ps, pk, dec);
    forall j | 0 <= j < |ps'|
      ensures ps'[j].key.StrKey? && pk2[j] == Ok(ps'[j].value) && Unchanged(ps', dec, j)
    {
      assert ps'[j] in ps';
      var m :| FromProperty(ps, pk, dec, ps'[j], m);
    }
    RenamePropertiesIdentityNames(ps', pk2, dec);
    var r := RenameProperties(ps', pk2, dec).value;
    assert r == ps';
  }

  /** Converted alternatives that are fixed points come through a second pass unchanged. */
  lemma OneOfFixed(os: seq<Entry>, ak: seq<Result<Json>>, dec: string -> string, ak2: seq<Result<Json>>)
    requires |ak| == |os| && UniqueKeys(os) && AllOk(ak, 0)
    requires forall m :: 0 <= m < |ak| ==> Convert(ak[m].value, dec) == ak[m]
    requires var os' := ConvertedPrefix(os, ak, |os|);
      |ak2| == |os'| && forall j :: 0 <= j < |os'| ==> ak2[j] == Convert(os'[j].value, dec)
    ensures var os' := ConvertedPrefix(os, ak, |os|);
      OneOfLoop(os', ak2, 0, os') == Ok(os')
  {
    var os' := ConvertedPrefix(os, ak, |os|);
    PrefixUnique(os, ak);
    forall j | 0 <= j < |os'| ensures ak2[j] == Ok(os'[j].value) {
      assert os'[j].value == ak[j].value;
    }
    OneOfLoopInPlace(os', ak2, 0);
    assert ConvertedPrefix(os', ak2, 0) + os'[0..] == os';
    assert ConvertedPrefix(os', ak2, |os'|) == os';
  }

  lemma PrefixUnique(os: seq<Entry>, ak: seq<Result<Json>>)
    requires |ak| == |os| && UniqueKeys(os) && AllOk(ak, 0)
    ensures UniqueKeys(ConvertedPrefix(os, ak, |os|))
  {
    var os' := ConvertedPrefix(os, ak, |os|);
    forall x, y | 0 <= x < y < |os'| ensures os'[x].key != os'[y].key {
      assert os'[x].key == os[x].key && os'[y].key == os[y].key;
    }
  }

  /** The children of a well-formed array are well-formed. */
  lemma ChildrenWellFormed(node: Json, k: Key)
    requires node.Arr? && WellFormed(node)
    ensures UniqueKeys(Children(node.entries, k))
    ensures forall i :: 0 <= i < |Children(node.entries, k)| ==> WellFormed(Children(node.entries, k)[i].value)
  {
    var cs := Children(node.entries, k);
    if cs != [] {
      var j :| 0 <= j < |node.entries| && node.entries[j] == Entry(k, Arr(cs));
      assert WellFormed(node.entries[j].value);
    }
  }

  /** A conversion that succeeded is its own fixed point. */
  ghost predicate FixedKid(kid: Result<Json>, dec: string -> string) {
    kid.Ok? ==> kid.value.Arr? && Convert(kid.value, dec) == kid
  }

  /** The premise of `StagesFixed` about `properties`, for the output of a first pass. */
  lemma PropertiesPremise(es: seq<Entry>, pk: seq<Result<Json>>, ak: seq<Result<Json>>, ik: Result<Json>,
                          dec: string -> string, pk2: seq<Result<Json>>)
    requires |pk| == |Children(es, PropertiesKey)| && |ak| == |Children(es, OneOfKey)|
    requires Stages(es, pk, ak, ik, dec).Ok? && UniqueKeys(Children(es, PropertiesKey)) && DecIdempotent(dec)
    requires forall m :: 0 <= m < |pk| ==> FixedKid(pk[m], dec)
    requires var ps' := Children(Stages(es, pk, ak, ik, dec).value, PropertiesKey);
      |pk2| == |ps'| && forall j :: 0 <= j < |ps'| ==> pk2[j] == Convert(ps'[j].value, dec)
    ensures var out := Stages(es, pk, ak, ik, dec).value;
      HoldsArray(out, PropertiesKey) ==>
        RenameProperties(Children(out, PropertiesKey), pk2, dec) == Ok(Children(out, PropertiesKey))
  {
    StagesProperties(es, pk, ak, ik, dec);
    if HoldsArray(es, PropertiesKey) {
      PropertiesFixed(Children(es, PropertiesKey), pk, dec, pk2);
    }
  }

  /** The premise of `StagesFixed` about `oneOf`, for the output of a first pass. */
  lemma OneOfPremise(es: seq<Entry>, pk: seq<Result<Json>>, ak: seq<Result<Json>>, ik: Result<Json>,
                     dec: string -> string, ak2: seq<Result<Json>>)
    requires |pk| == |Children(es, PropertiesKey)| && |ak| == |Children(es, OneOfKey)|
    requires Stages(es, pk, ak, ik, dec).Ok? && UniqueKeys(Children(es, OneOfKey))
    requires forall m :: 0 <= m < |ak| ==> FixedKid(ak[m], dec)
    requires var os' := Children(Stages(es, pk, ak, ik, dec).value, OneOfKey);
      |ak2| == |os'| && forall j :: 0 <= j < |os'| ==> ak2[j] == Convert(os'[j].value, dec)
    ensures var out := Stages(es, pk, ak, ik, dec).value;
      HoldsArray(out, OneOfKey) ==>
        OneOfLoop(Children(out, OneOfKey), ak2, 0, Children(out, OneOfKey)) == Ok(Children(out, OneOfKey))
  {
    StagesOneOf(es, pk, ak, ik, dec);
    if HoldsArray(es, OneOfKey) {
      OneOfFixed(Children(es, OneOfKey), ak, dec, ak2);
    }
  }

  /** The premise of `StagesFixed` about `items`, for the output of a first pass. */
  lemma ItemsPremise(es: seq<Entry>, pk: seq<Result<Json>>, ak: seq<Result<Json>>, ik: Result<Json>,
                     dec: string -> string, ik2: Result<Json>)
    requires |pk| == |Children(es, PropertiesKey)| && |ak| == |Children(es, OneOfKey)|
    requires Stages(es, pk, ak, ik, dec).Ok? && FixedKid(ik, dec)
    requires var out := Stages(es, pk, ak, ik, dec).value;
      HoldsArray(out, ItemsKey) ==> ik2 == Convert(Lookup(out, ItemsKey).value, dec)
    ensures var out := Stages(es, pk, ak, ik, dec).value;
      HoldsArray(out, ItemsKey) ==> ik2 == Ok(Lookup(out, ItemsKey).value)
  {
    StagesItems(es, pk, ak, ik, dec);
  }

  /** The second pass over a first pass's output, given that the children are fixed points. */
  lemma SecondPass(node: Json, dec: string -> string)
    requires node.Arr? && WellFormed(node) && DecIdempotent(dec) && Convert(node, dec).Ok?
    requires forall c :: c in Children(node.entries, PropertiesKey) ==> FixedKid(Convert(c.value, dec), dec)
    requires forall c :: c in Children(node.entries, OneOfKey) ==> FixedKid(Convert(c.value, dec), dec)
    requires HoldsArray(node.entries, ItemsKey) ==> FixedKid(ItemKid(node, dec), dec)
    ensures Convert(Convert(node, dec).value, dec) == Convert(node, dec)
  {
    var es := node.entries;
    var ps := Children(es, PropertiesKey);
    var os := Children(es, OneOfKey);
    ChildrenSmaller(node, PropertiesKey);
    ChildrenSmaller(node, OneOfKey);
    ChildrenWellFormed(node, PropertiesKey);
    ChildrenWellFormed(node, OneOfKey);
    var pk := ConvertAll(node, ps, dec);
    var ak := ConvertAll(node, os, dec);
    var ik := ItemKid(node, dec);
    assert forall m :: 0 <= m < |pk| ==> FixedKid(pk[m], dec) by {
      forall m | 0 <= m < |pk| ensures FixedKid(pk[m], dec) {
        assert ps[m] in ps;
      }
    }
    assert forall m :: 0 <= m < |ak| ==> FixedKid(ak[m], dec) by {
      forall m | 0 <= m < |ak| ensures FixedKid(ak[m], dec) {
        assert os[m] in os;
      }
    }
    var out := Stages(es, pk, ak, ik, dec).value;
    assert Convert(node, dec) == Ok(Arr(out));
    var second := Arr(out);
    ChildrenSmaller(second, PropertiesKey);
    ChildrenSmaller(second, OneOfKey);
    var pk2 := ConvertAll(second, Children(out, PropertiesKey), dec);
    var ak2 := ConvertAll(second, Children(out, OneOfKey), dec);
    var ik2 := ItemKid(second, dec);
    PropertiesPremise(es, pk, ak, ik, dec, pk2);
    OneOfPremise(es, pk, ak, ik, dec, ak2);
    ItemsPremise(es, pk, ak, ik, dec, ik2);
    StagesFixed(out, pk2, ak2, ik2, dec);
    ConvertByStages(second, dec, pk2, ak2, ik2);
  }

  /** A schema whose stages, fed its children's conversions, give it back converts to itself. */
  lemma ConvertByStages(node: Json, dec: string -> string, pk: seq<Result<Json>>, ak: seq<Result<Json>>, ik: Result<Json>)
    requires node.Arr?
    requires forall i :: 0 <= i < |Children(node.entries, PropertiesKey)| ==> Children(node.entries, PropertiesKey)[i].value < node
    requires forall i :: 0 <= i < |Children(node.entries, OneOfKey)| ==> Children(node.entries, OneOfKey)[i].value < node
    requires pk == ConvertAll(node, Children(node.entries, PropertiesKey), dec)
    requires ak == ConvertAll(node, Children(node.entries, OneOfKey), dec)
    requires ik == ItemKid(node, dec)
    requires Stages(node.entries, pk, ak, ik, dec) == Ok(node.entries)
    ensures Convert(node, dec) == Ok(node)
  {
  }

  /** convertSchema is idempotent when decamilize is: its output is its own fixed point. */
  lemma ConvertIdempotent(node: Json, dec: string -> string)
    requires WellFormed(node) && DecIdempotent(dec)
    ensures Convert(node, dec).Ok? ==> Convert(Convert(node, dec).value, dec) == Convert(node, dec)
    decreases node
  {
    if node.Arr? && Convert(node, dec).Ok? {
      var es := node.entries;
      ChildrenSmaller(node, PropertiesKey);
      ChildrenSmaller(node, OneOfKey);
      ChildrenWellFormed(node, PropertiesKey);
      ChildrenWellFormed(node, OneOfKey);
      forall c | c in Children(es, PropertiesKey) ensures FixedKid(Convert(c.value, dec), dec) {
        var m :| 0 <= m < |Children(es, PropertiesKey)| && Children(es, PropertiesKey)[m] == c;
        ConvertIdempotent(c.value, dec);
      }
      forall c | c in Children(es, OneOfKey) ensures FixedKid(Convert(c.value, dec), dec) {
        var m :| 0 <= m < |Children(es, OneOfKey)| && Children(es, OneOfKey)[m] == c;
        ConvertIdempotent(c.value, dec);
      }
      if HoldsArray(es, ItemsKey) {
        ItemSmaller(node);
        var j :| 0 <= j < |es| && es[j] == Entry(ItemsKey, Lookup(es, ItemsKey).value);
        assert WellFormed(es[j].value);
        ConvertIdempotent(Lookup(es, ItemsKey).value, dec);
      }
      SecondPass(node, dec);
    }
  }
}

=== FILE: method_order.dfy ===
/** The order of the operations of one path, and the order of the paths
    (DocumentationNormalizer.php:53-59 and 206-222).

  Methods are ranked by their place in [POST, DELETE, PUT, PATCH, GET]; a method
  that is not listed ranks 0, like POST, because `array_search` returns false
  and `(int) false` is 0. Equal ranks keep their order. Paths are sorted by key,
  comparing the path strings byte by byte.
 */
module MethodOrder {
  import opened PhpArrays
  import opened PhpStrings
  import opened Sorting

  const MethodSort: seq<string> := ["POST", "DELETE", "PUT", "PATCH", "GET"]

  /** The first position of `x` in `s`, or 0 when it is absent. */
  function SearchOrZero(x: string, s: seq<string>): (r: nat)
    ensures x in s ==> r < |s| && s[r] == x && forall j :: 0 <= j < r ==> s[j] != x
    ensures x !in s ==> r == 0
  {
    if s == [] then 0
    else if s[0] == x then 0
    else if x in s[1..] then 1 + SearchOrZero(x, s[1..])
    else 0
  }

  /** `(int) array_search(strtoupper($method), self::METHOD_SORT)`. */
  function MethodRank(verb: string): (r: nat)
    ensures r < |MethodSort|
    ensures Upper(verb) in MethodSort ==> MethodSort[r] == Upper(verb)
    ensures Upper(verb) !in MethodSort ==> r == 0
  {
    SearchOrZero(Upper(verb), MethodSort)
  }

  /** The rank of a method entry of a path, by its key. */
  function Rank(e: Entry): (r: nat)
    ensures r < |MethodSort|
  {
    MethodRank(KeyString(e.key))
  }

  /** The methods of one path after `uksort`: by rank, equal ranks in their order. */
  function SortMethods(ms: seq<Entry>): seq<Entry> {
    Sort(ms, ByRank(Rank))
  }

  /** The methods come out by rank, and are the same methods. */
  lemma SortMethodsSorted(ms: seq<Entry>)
    ensures forall i, j :: 0 <= i < j < |ms| ==> Rank(SortMethods(ms)[i]) <= Rank(SortMethods(ms)[j])
    ensures multiset(SortMethods(ms)) == multiset(ms)
  {
    ByRankOrder(Rank);
    SortSorted(ms, ByRank(Rank));
  }

  /** The methods of a path end up grouped by rank, POST and unlisted methods first,
      then DELETE, PUT, PATCH and GET, each group in its original order. */
  lemma SortMethodsIsBuckets(ms: seq<Entry>)
    ensures SortMethods(ms) == RankFilter(ms, Rank, 0) + RankFilter(ms, Rank, 1) + RankFilter(ms, Rank, 2)
                               + RankFilter(ms, Rank, 3) + RankFilter(ms, Rank, 4)
  {
    SortIsBuckets(ms, Rank, 5);
    var f := RankFilter(ms, Rank, 4);
    assert Buckets(ms, Rank, 4, 5) == f by {
      assert Buckets(ms, Rank, 5, 5) == [];
      assert f + [] == f;
    }
    assert Buckets(ms, Rank, 3, 5) == RankFilter(ms, Rank, 3) + f;
    assert Buckets(ms, Rank, 2, 5) == RankFilter(ms, Rank, 2) + (RankFilter(ms, Rank, 3) + f);
    assert Buckets(ms, Rank, 1, 5) == RankFilter(ms, Rank, 1) + (RankFilter(ms, Rank, 2) + (RankFilter(ms, Rank, 3) + f));
    Reassociate(RankFilter(ms, Rank, 0), RankFilter(ms, Rank, 1), RankFilter(ms, Rank, 2), RankFilter(ms, Rank, 3), f);
  }

  lemma Reassociate<T>(a: seq<T>, b: seq<T>, c: seq<T>, d: seq<T>, e: seq<T>)
    ensures a + (b + (c + (d + e))) == a + b + c + d + e
  {
  }

  /** A listed method ranks by its place in the list. */
  lemma RankOf(verb: string, i: nat)
    requires i < |MethodSort| && Upper(verb) == MethodSort[i]
    ensures MethodRank(verb) == i
  {
    assert MethodSort[i] in MethodSort;
  }

  /** GET, POST and PUT come out as POST, PUT and GET. */
  lemma GetPostPutExample(g: Json, p: Json, u: Json)
    ensures SortMethods([Entry(StrKey("get"), g), Entry(StrKey("post"), p), Entry(StrKey("put"), u)])
         == [Entry(StrKey("post"), p), Entry(StrKey("put"), u), Entry(StrKey("get"), g)]
  {
    ListedRanks();
    RankEntry("get", g);
    RankEntry("post", p);
    RankEntry("put", u);
    SortThree(Entry(StrKey("get"), g), Entry(StrKey("post"), p), Entry(StrKey("put"), u));
  }

  /** A method entry ranks by its key. */
  lemma RankEntry(verb: string, v: Json)
    ensures Rank(Entry(StrKey(verb), v)) == MethodRank(verb)
  {
  }

  lemma ListedRanks()
    ensures MethodRank("get") == 4 && MethodRank("post") == 0 && MethodRank("put") == 2
  {
    RankGet();
    RankPost();
    RankPut();
  }

  lemma RankGet()
    ensures MethodRank("get") == 4
  {
    assert Upper("get") == MethodSort[4];
    RankOf("get", 4);
  }

  lemma RankPost()
    ensures MethodRank("post") == 0
  {
    assert Upper("post") == MethodSort[0];
    RankOf("post", 0);
  }

  lemma RankPut()
    ensures MethodRank("put") == 2
  {
    assert Upper("put") == MethodSort[2];
    RankOf("put", 2);
  }

  lemma RankOptions()
    ensures MethodRank("options") == 0
  {
    var u := Upper("options");
    assert u[0] == 'O';
    forall m | m in MethodSort ensures m != u {
      assert m[0] != 'O';
    }
  }

  /** Three methods ranked 4, 0 and 2 come out as the second, the third, the first. */
  lemma SortThree(a: Entry, b: Entry, c: Entry)
    requires Rank(a) == 4 && Rank(b) == 0 && Rank(c) == 2
    ensures SortMethods([a, b, c]) == [b, c, a]
  {
    var before := ByRank(Rank);
    assert before(b, a) && before(c, a) && !before(c, b);
    SortThreeBy(a, b, c, before);
  }

  lemma SortThreeBy<T>(a: T, b: T, c: T, before: (T, T) -> bool)
    requires before(b, a) && before(c, a) && !before(c, b)
    ensures Sort([a, b, c], before) == [b, c, a]
  {
    assert [a, b, c] == [a] + [b, c] && [b, c] == [b] + [c] && [c] == [c] + [];
    SortCons(c, [], before);
    InsertFront(c, [], before);
    SortCons(b, [c], before);
    InsertFront(b, [c], before);
    SortCons(a, [b, c], before);
    InsertPast(a, [b, c], before);
    assert [b, c][1..] == [c];
    InsertPast(a, [c], before);
    assert [c][1..] == [];
    InsertFront(a, [], before);
  }

  lemma SortCons<T>(x: T, t: seq<T>, before: (T, T) -> bool)
    ensures Sort([x] + t, before) == Insert(x, Sort(t, before), before)
  {
    assert ([x] + t)[1..] == t;
  }

  lemma InsertFront<T>(x: T, t: seq<T>, before: (T, T) -> bool)
    requires t == [] || !before(t[0], x)
    ensures Insert(x, t, before) == [x] + t
  {
  }

  lemma InsertPast<T>(x: T, t: seq<T>, before: (T, T) -> bool)
    requires t != [] && before(t[0], x)
    ensures Insert(x, t, before) == [t[0]] + Insert(x, t[1..], before)
  {
  }

  /** An unlisted method ranks with POST, in front of GET. */
  lemma UnlistedFirstExample(g: Json, o: Json)
    ensures SortMethods([Entry(StrKey("get"), g), Entry(StrKey("options"), o)])
         == [Entry(StrKey("options"), o), Entry(StrKey("get"), g)]
  {
    RankGet();
    RankOptions();
    RankEntry("get", g);
    RankEntry("options", o);
    SortTwo(Entry(StrKey("get"), g), Entry(StrKey("options"), o));
  }

  /** A method ranked 4 and one ranked 0 come out swapped. */
  lemma SortTwo(a: Entry, b: Entry)
    requires Rank(a) == 4 && Rank(b) == 0
    ensures SortMethods([a, b]) == [b, a]
  {
    var before := ByRank(Rank);
    assert before(b, a);
    SortTwoBy(a, b, before);
  }

  lemma SortTwoBy<T>(a: T, b: T, before: (T, T) -> bool)
    requires before(b, a)
    ensures Sort([a, b], before) == [b, a]
  {
    assert [a, b] == [a] + [b] && [b] == [b] + [];
    SortCons(b, [], before);
    InsertFront(b, [], before);
    SortCons(a, [b], before);
    InsertPast(a, [b], before);
    assert [b][1..] == [];
    InsertFront(a, [], before);
  }

  // ------------------------------------------------------------------ paths

  /** `ksort` on the paths: byte-wise order of the path strings. */
  predicate PathBefore(a: Entry, b: Entry) {
    LexLess(KeyString(a.key), KeyString(b.key))
  }

  function SortPaths(ps: seq<Entry>): seq<Entry> {
    Sort(ps, PathBefore)
  }

  lemma PathBeforeOrder()
    ensures NotBeforeTransitive(PathBefore) && Asymmetric(PathBefore)
  {
    forall a: Entry, b: Entry | PathBefore(a, b) ensures !PathBefore(b, a) {
      LexLessAsymmetric(KeyString(a.key), KeyString(b.key));
    }
    forall a: Entry, b: Entry, c: Entry | !PathBefore(b, a) && !PathBefore(c, b) ensures !PathBefore(c, a) {
      var x, y, z := KeyString(a.key), KeyString(b.key), KeyString(c.key);
      LexLessTotal(x, y);
      LexLessTotal(y, z);
      if x != y && y != z {
        LexLessTransitive(x, y, z);
        LexLessAsymmetric(x, z);
      }
    }
  }

  /** After `ksort`, path keys strictly increase and the paths are the same entries. */
  lemma SortPathsSorted(ps: seq<Entry>)
    requires UniqueKeys(ps) && forall i :: 0 <= i < |ps| ==> ps[i].key.StrKey?
    ensures multiset(SortPaths(ps)) == multiset(ps)
    ensures forall i, j :: 0 <= i < j < |ps| ==>
      LexLess(KeyString(SortPaths(ps)[i].key), KeyString(SortPaths(ps)[j].key))
  {
    var r := SortPaths(ps);
    PathBeforeOrder();
    SortSorted(ps, PathBefore);
    forall i, j | 0 <= i < j < |ps| ensures LexLess(KeyString(r[i].key), KeyString(r[j].key)) {
      assert r[i] in multiset(ps) && r[j] in multiset(ps);
      var i', j' :| 0 <= i' < |ps| && 0 <= j' < |ps| && ps[i'] == r[i] && ps[j'] == r[j];
      LexLessTotal(KeyString(r[i].key), KeyString(r[j].key));
      if r[i].key == r[j].key {
        assert i' == j';
        MultisetTwice(r, i, j);
        assert multiset(r)[r[i]] >= 2;
        SingleOccurrence(ps, i');
      }
    }
  }

  lemma MultisetTwice<T>(s: seq<T>, i: nat, j: nat)
    requires i < j < |s| && s[i] == s[j]
    ensures multiset(s)[s[i]] >= 2
  {
    assert s == s[..i] + [s[i]] + s[i + 1..j] + [s[j]] + s[j + 1..];
  }

  lemma SingleOccurrence(ps: seq<Entry>, i: nat)
    requires UniqueKeys(ps) && i < |ps|
    ensures multiset(ps)[ps[i]] == 1
  {
    assert ps == ps[..i] + [ps[i]] + ps[i + 1..];
    assert ps[i] !in ps[..i] by {
      forall j | 0 <= j < i ensures ps[..i][j] != ps[i] {
        assert ps[..i][j] == ps[j];
      }
    }
    assert ps[i] !in ps[i + 1..] by {
      forall j | i + 1 <= j < |ps| ensures ps[j] != ps[i] {
      }
    }
  }
}

=== FILE: operation.dfy ===
/** One OpenAPI operation object (DocumentationNormalizer.php:228-286 and 318-333).

  `path` resolves the route of an operation and strips a trailing `.{_format}`.
  `operation` builds the operation's fields, drops the falsy ones, and adds a
  request body when the request schema keeps a property after the path
  placeholders have been taken out of it. `responses` converts one schema per
  status code. Throughout, `conv` is convertSchema.
 */
module Operations {
  import opened Outcomes
  import opened PhpArrays
  import opened PhpStrings
  import opened PathParams

  // ------------------------------------------------------------------- path

  const FormatSuffix: string := ".{_format}"

  /** `substr($path, -10) === '.{_format}'`. */
  predicate EndsWithFormat(p: string) {
    |p| >= |FormatSuffix| && p[|p| - |FormatSuffix|..] == FormatSuffix
  }

  /** The suffix strip of `path()`: a trailing `.{_format}` is removed, once. */
  function StripFormat(p: string): (r: string)
    ensures EndsWithFormat(p) ==> r + FormatSuffix == p
    ensures !EndsWithFormat(p) ==> r == p
  {
    if EndsWithFormat(p) then p[..|p| - |FormatSuffix|] else p
  }

  /** A route written with the format placeholder loses exactly that placeholder. */
  lemma StripFormatAppended(q: string)
    ensures StripFormat(q + FormatSuffix) == q
  {
    assert (q + FormatSuffix)[|q|..] == FormatSuffix;
  }

  /** Only one suffix goes: a doubled placeholder keeps its first copy. */
  lemma StripFormatOnce(q: string)
    ensures StripFormat(q + FormatSuffix + FormatSuffix) == q + FormatSuffix
  {
    StripFormatAppended(q + FormatSuffix);
  }

  // -------------------------------------------------------------- responses

  /** The response object for one status code around a converted schema. */
  function ResponseObject(schema: Json): Json {
    Arr([Entry(StrKey("description"), Str("")),
         Entry(StrKey("content"), Arr([Entry(StrKey("application/json"), Arr([Entry(StrKey("schema"), schema)]))]))])
  }

  /** The closure of `responses` for one response schema. */
  function Response(schema: Json, conv: Json -> Result<Json>): (r: Result<Json>)
  {
    var converted :- conv(schema);
    Ok(ResponseObject(converted))
  }

  /** `responses($messageClass)` given the schemas per status code that the message
      declares: every status code keeps its place and gets the response object
      around its converted schema; the first schema that fails to convert fails it. */
  function Responses(schemas: seq<Entry>, conv: Json -> Result<Json>): (r: Result<seq<Entry>>)
    ensures r.Ok? <==> forall i :: 0 <= i < |schemas| ==> conv(schemas[i].value).Ok?
    ensures r.Ok? ==> |r.value| == |schemas| &&
                      forall i :: 0 <= i < |schemas| ==>
                        r.value[i] == Entry(schemas[i].key, ResponseObject(conv(schemas[i].value).value))
    ensures r.Err? ==> exists i :: (0 <= i < |schemas| && conv(schemas[i].value) == Err(r.error) &&
                                    forall j :: 0 <= j < i ==> conv(schemas[j].value).Ok?)
  {
    ArrayMap(schemas, s => Response(s, conv))
  }

  // -------------------------------------------------------------- operation

  const SummaryKey := StrKey("summary")
  const DescriptionKey := StrKey("description")
  const TagsKey := StrKey("tags")
  const OperationIdKey := StrKey("operationId")
  const ParametersKey := StrKey("parameters")
  const ResponsesKey := StrKey("responses")
  const RequestBodyKey := StrKey("requestBody")
  const MethodKey := StrKey("method")
  const ResourceShortNameKey := StrKey("resourceShortName")

  const Json: string := "application/json"
  const MergePatchJson: string := "application/merge-patch+json"

  /** `$operation['openapi_context'][$name] ?? null`. */
  function ContextField(op: seq<Entry>, name: string): Json {
    match GetOrNull(op, StrKey("openapi_context"))
    case Arr(context) => GetOrNull(context, StrKey(name))
    case _ => Null
  }

  /** `$operation['tags'] ?? [$operation['resourceShortName']]`. */
  function Tags(op: seq<Entry>): Json {
    if IsSet(op, TagsKey) then GetOrNull(op, TagsKey)
    else Arr(List([GetOrNull(op, ResourceShortNameKey)]))
  }

  /** The operation id: the configured one, or lcfirst(name) . ucfirst(short name) .
      ucfirst(type). The three parts must be strings. */
  function OperationId(op: seq<Entry>): (r: Result<Json>)
  {
    if IsSet(op, OperationIdKey) then Ok(GetOrNull(op, OperationIdKey))
    else
      match (GetOrNull(op, StrKey("operationName")), GetOrNull(op, ResourceShortNameKey),
             GetOrNull(op, StrKey("operationType")))
      case (Str(name), Str(short), Str(kind)) => Ok(Str(LcFirst(name) + UcFirst(short) + UcFirst(kind)))
      case _ => Err(IllTyped)
  }

  /** The request body's content type: merge-patch for a method written exactly `PATCH`. */
  function ContentType(op: seq<Entry>): string {
    if GetOrNull(op, MethodKey) == Str("PATCH") then MergePatchJson else Json
  }

  function RequestBody(contentType: string, schema: Json): Json {
    Arr([Entry(StrKey("required"), Bool(true)),
         Entry(StrKey("content"), Arr([Entry(StrKey(contentType), Arr([Entry(StrKey("schema"), schema)]))]))])
  }

  /** The `responses` field: the responses when the message declares them, null otherwise. */
  function ResponsesField(responses: Option<seq<Entry>>, conv: Json -> Result<Json>): Result<Json> {
    match responses
    case None => Ok(Null)
    case Some(schemas) =>
      var rs :- Responses(schemas, conv);
      Ok(Arr(rs))
  }

  /** The literal the operation starts from, before `array_filter`. */
  function Fields(op: seq<Entry>, id: Json, params: seq<Json>, responses: Json): seq<Entry> {
    [Entry(SummaryKey, ContextField(op, "summary")),
     Entry(DescriptionKey, ContextField(op, "description")),
     Entry(TagsKey, Tags(op)),
     Entry(OperationIdKey, id),
     Entry(ParametersKey, Arr(List(params))),
     Entry(ResponsesKey, responses)]
  }

  /** `operation($path, $schema, $operation, $messageClass)`. `names` are the path's
      placeholders, `responses` the response schemas per status code when the message
      declares them (`HasResponses`), `None` otherwise. The fields are evaluated in the
      literal's order, so the first failure among operation id, parameters, responses
      and request body is the one reported. */
  function Operation(names: seq<string>, schema: seq<Entry>, op: seq<Entry>, responses: Option<seq<Entry>>,
                     cam: string -> string, conv: Json -> Result<Json>, dec: string -> string): (r: Result<seq<Entry>>)
    ensures r.Ok? ==> forall e :: e in r.value ==> Truthy(e.value)
  {
    var id :- OperationId(op);
    var pp :- PathParameters(names, schema, cam, conv, dec);
    var resp :- ResponsesField(responses, conv);
    var fields := ArrayFilter(Fields(op, id, pp.0, resp));
    match pp.1
    case None => Ok(fields)
    case Some(body) =>
      var converted :- conv(Arr(body));
      // `$operation['requestBody'] = ...` appends: the filtered literal has no such
      // key (FieldsLackRequestBody).
      Ok(fields + [Entry(RequestBodyKey, RequestBody(ContentType(op), converted))])
  }

  lemma FieldsLackRequestBody(op: seq<Entry>, id: Json, params: seq<Json>, responses: Json)
    ensures !HasKey(ArrayFilter(Fields(op, id, params, responses)), RequestBodyKey)
  {
    var fs := ArrayFilter(Fields(op, id, params, responses));
    forall i | 0 <= i < |fs| ensures fs[i].key != RequestBodyKey {
      assert fs[i] in fs;
    }
  }

  /** `array_filter`'s verdict on one field: present with its value exactly when truthy. */
  function Kept(v: Json): Option<Json> {
    if Truthy(v) then Some(v) else None
  }

  /** The operation fails exactly when one of its fields fails, and with the first
      failure in the literal's order. */
  lemma OperationFailure(names: seq<string>, schema: seq<Entry>, op: seq<Entry>, responses: Option<seq<Entry>>,
                         cam: string -> string, conv: Json -> Result<Json>, dec: string -> string)
    ensures var id := OperationId(op);
            var pp := PathParameters(names, schema, cam, conv, dec);
            var rf := ResponsesField(responses, conv);
            var r := Operation(names, schema, op, responses, cam, conv, dec);
            && (r.Err? <==> id.Err? || pp.Err? || rf.Err? || (pp.value.1.Some? && conv(Arr(pp.value.1.value)).Err?))
            && (r.Err? ==> r.error == if id.Err? then id.error else if pp.Err? then pp.error
                                      else if rf.Err? then rf.error else conv(Arr(pp.value.1.value)).error)
  {
  }

  /** A built operation is the filtered literal, followed by the request body when
      the request schema keeps a property. */
  lemma OperationShape(names: seq<string>, schema: seq<Entry>, op: seq<Entry>, responses: Option<seq<Entry>>,
                       cam: string -> string, conv: Json -> Result<Json>, dec: string -> string)
    requires Operation(names, schema, op, responses, cam, conv, dec).Ok?
    ensures OperationId(op).Ok? && PathParameters(names, schema, cam, conv, dec).Ok? && ResponsesField(responses, conv).Ok?
    ensures var r := Operation(names, schema, op, responses, cam, conv, dec).value;
            var pp := PathParameters(names, schema, cam, conv, dec).value;
            var fields := ArrayFilter(Fields(op, OperationId(op).value, pp.0, ResponsesField(responses, conv).value));
            && (pp.1.None? ==> r == fields)
            && (pp.1.Some? ==> conv(Arr(pp.1.value)).Ok? &&
                               r == fields + [Entry(RequestBodyKey, RequestBody(ContentType(op), conv(Arr(pp.1.value)).value))])
  {
    OperationFailure(names, schema, op, responses, cam, conv, dec);
    var pp := PathParameters(names, schema, cam, conv, dec).value;
    FieldsLackRequestBody(op, OperationId(op).value, pp.0, ResponsesField(responses, conv).value);
  }

  // -------------------------------------------------------------- key order

  /** The keys of an array, in order. */
  function KeysOf(es: seq<Entry>): (ks: seq<Key>)
    ensures |ks| == |es| && forall i :: 0 <= i < |es| ==> ks[i] == es[i].key
  {
    seq(|es|, i requires 0 <= i < |es| => es[i].key)
  }

  /** `a` is `b` with some elements left out and the others in their order. */
  predicate Subsequence(a: seq<Key>, b: seq<Key>)
    decreases |b|
  {
    if a == [] then true
    else if b == [] then false
    else (a[0] == b[0] && Subsequence(a[1..], b[1..])) || Subsequence(a, b[1..])
  }

  /** The order of the fields of an operation object: the literal's, then `requestBody`. */
  const FieldOrder: seq<Key> := [SummaryKey, DescriptionKey, TagsKey, OperationIdKey, ParametersKey, ResponsesKey,
                                 RequestBodyKey]

  /** The fields of a built operation appear in the literal's order, and `requestBody`,
      when present, comes last. The keys are distinct, so this fixes the order. */
  lemma OperationKeyOrder(names: seq<string>, schema: seq<Entry>, op: seq<Entry>, responses: Option<seq<Entry>>,
                          cam: string -> string, conv: Json -> Result<Json>, dec: string -> string)
    ensures Operation(names, schema, op, responses, cam, conv, dec).Ok? ==>
            Subsequence(KeysOf(Operation(names, schema, op, responses, cam, conv, dec).value), FieldOrder)
  {
    if Operation(names, schema, op, responses, cam, conv, dec).Ok? {
      OperationShape(names, schema, op, responses, cam, conv, dec);
      var pp := PathParameters(names, schema, cam, conv, dec).value;
      var fs := Fields(op, OperationId(op).value, pp.0, ResponsesField(responses, conv).value);
      FieldKeys(op, OperationId(op).value, pp.0, ResponsesField(responses, conv).value);
      if pp.1.None? {
        AppendedKeyOrder(fs, []);
        assert ArrayFilter(fs) + [] == ArrayFilter(fs);
      } else {
        AppendedKeyOrder(fs, [Entry(RequestBodyKey, RequestBody(ContentType(op), conv(Arr(pp.1.value)).value))]);
      }
    }
  }

  lemma FieldKeys(op: seq<Entry>, id: Json, params: seq<Json>, responses: Json)
    ensures KeysOf(Fields(op, id, params, responses)) == FieldOrder[..6]
  {
  }

  /** The filtered literal, followed by nothing or by `requestBody`, keeps the field order. */
  lemma AppendedKeyOrder(fs: seq<Entry>, tail: seq<Entry>)
    requires KeysOf(fs) == FieldOrder[..6]
    requires tail == [] || (|tail| == 1 && tail[0].key == RequestBodyKey)
    ensures Subsequence(KeysOf(ArrayFilter(fs) + tail), FieldOrder)
  {
    var kept := KeysOf(ArrayFilter(fs));
    FilterSubsequence(fs);
    assert FieldOrder == FieldOrder[..6] + [RequestBodyKey];
    if tail == [] {
      assert ArrayFilter(fs) + tail == ArrayFilter(fs);
      SubsequenceExtend(kept, FieldOrder[..6], RequestBodyKey);
    } else {
      assert KeysOf(ArrayFilter(fs) + tail) == kept + [RequestBodyKey];
      SubsequenceSnoc(kept, FieldOrder[..6], RequestBodyKey);
    }
  }

  /** `array_filter` keeps the surviving keys in their order. */
  lemma {:induction false} FilterSubsequence(es: seq<Entry>)
    ensures Subsequence(KeysOf(ArrayFilter(es)), KeysOf(es))
  {
    if es != [] {
      FilterSubsequence(es[1..]);
      KeysCons(es[0], es[1..]);
      assert es == [es[0]] + es[1..];
      if Truthy(es[0].value) {
        assert ArrayFilter(es) == [es[0]] + ArrayFilter(es[1..]);
        KeysCons(es[0], ArrayFilter(es[1..]));
        SubsequenceCons(es[0].key, KeysOf(ArrayFilter(es[1..])), KeysOf(es[1..]));
      } else {
        assert ArrayFilter(es) == ArrayFilter(es[1..]);
        SubsequenceSkip(es[0].key, KeysOf(ArrayFilter(es[1..])), KeysOf(es[1..]));
      }
    }
  }

  lemma KeysCons(e: Entry, t: seq<Entry>)
    ensures KeysOf([e] + t) == [e.key] + KeysOf(t)
  {
  }

  lemma SubsequenceCons(x: Key, a: seq<Key>, b: seq<Key>)
    requires Subsequence(a, b)
    ensures Subsequence([x] + a, [x] + b)
  {
    assert ([x] + a)[1..] == a && ([x] + b)[1..] == b;
  }

  lemma SubsequenceSkip(x: Key, a: seq<Key>, b: seq<Key>)
    requires Subsequence(a, b)
    ensures Subsequence(a, [x] + b)
  {
    assert ([x] + b)[1..] == b;
  }

  /** A subsequence stays one when both sequences grow by the same last element. */
  lemma {:induction false} SubsequenceSnoc(a: seq<Key>, b: seq<Key>, x: Key)
    requires Subsequence(a, b)
    ensures Subsequence(a + [x], b + [x])
    decreases |b|
  {
    if a == [] {
      SubsequenceLast(b, x);
      assert a + [x] == [x];
    } else {
      assert (a + [x])[0] == a[0] && (a + [x])[1..] == a[1..] + [x];
      assert (b + [x])[0] == b[0] && (b + [x])[1..] == b[1..] + [x];
      if a[0] == b[0] && Subsequence(a[1..], b[1..]) {
        SubsequenceSnoc(a[1..], b[1..], x);
      } else {
        SubsequenceSnoc(a, b[1..], x);
      }
    }
  }

  /** The last element alone is a subsequence. */
  lemma {:induction false} SubsequenceLast(b: seq<Key>, x: Key)
    ensures Subsequence([x], b + [x])
    decreases |b|
  {
    if b == [] {
      assert [x][1..] == [];
    } else {
      assert (b + [x])[1..] == b[1..] + [x];
      SubsequenceLast(b[1..], x);
    }
  }

  /** A subsequence of `b` is one of `b` extended. */
  lemma {:induction false} SubsequenceExtend(a: seq<Key>, b: seq<Key>, x: Key)
    requires Subsequence(a, b)
    ensures Subsequence(a, b + [x])
    decreases |b|
  {
    if a != [] {
      assert (b + [x])[0] == b[0] && (b + [x])[1..] == b[1..] + [x];
      if a[0] == b[0] && Subsequence(a[1..], b[1..]) {
        SubsequenceExtend(a[1..], b[1..], x);
      } else {
        SubsequenceExtend(a, b[1..], x);
      }
    }
  }

  /** The filtered literal holds each field exactly when it is truthy, and nothing else. */
  lemma FilteredFields(op: seq<Entry>, id: Json, params: seq<Json>, responses: Json)
    ensures var fields := ArrayFilter(Fields(op, id, params, responses));
            && Lookup(fields, SummaryKey) == Kept(ContextField(op, "summary"))
            && Lookup(fields, DescriptionKey) == Kept(ContextField(op, "description"))
            && Lookup(fields, TagsKey) == Kept(Tags(op))
            && Lookup(fields, OperationIdKey) == Kept(id)
            && Lookup(fields, ParametersKey) == Kept(Arr(List(params)))
            && Lookup(fields, ResponsesKey) == Kept(responses)
            && forall e :: e in fields ==> e.key in {SummaryKey, DescriptionKey, TagsKey, OperationIdKey, ParametersKey,
                                                     ResponsesKey}
  {
    var fs := Fields(op, id, params, responses);
    FieldsUnique(op, id, params, responses);
    FieldLookup(fs, 0, SummaryKey);
    FieldLookup(fs, 1, DescriptionKey);
    FieldLookup(fs, 2, TagsKey);
    FieldLookup(fs, 3, OperationIdKey);
    FieldLookup(fs, 4, ParametersKey);
    FieldLookup(fs, 5, ResponsesKey);
    FilteredKeys(fs);
  }

  lemma FilteredKeys(fs: seq<Entry>)
    requires |fs| == 6 && fs[0].key == SummaryKey && fs[1].key == DescriptionKey && fs[2].key == TagsKey
    requires fs[3].key == OperationIdKey && fs[4].key == ParametersKey && fs[5].key == ResponsesKey
    ensures forall e :: e in ArrayFilter(fs) ==> e.key in {SummaryKey, DescriptionKey, TagsKey, OperationIdKey,
                                                           ParametersKey, ResponsesKey}
  {
    forall e | e in ArrayFilter(fs)
      ensures e.key in {SummaryKey, DescriptionKey, TagsKey, OperationIdKey, ParametersKey, ResponsesKey}
    {
      var j :| 0 <= j < 6 && fs[j] == e;
    }
  }

  /** Each field of a built operation is the source's expression for it, kept exactly
      when it is truthy, and no other key appears but `requestBody`. */
  lemma OperationFields(names: seq<string>, schema: seq<Entry>, op: seq<Entry>, responses: Option<seq<Entry>>,
                        cam: string -> string, conv: Json -> Result<Json>, dec: string -> string)
    requires Operation(names, schema, op, responses, cam, conv, dec).Ok?
    ensures OperationId(op).Ok? && PathParameters(names, schema, cam, conv, dec).Ok? && ResponsesField(responses, conv).Ok?
    ensures var r := Operation(names, schema, op, responses, cam, conv, dec).value;
            && Lookup(r, SummaryKey) == Kept(ContextField(op, "summary"))
            && Lookup(r, DescriptionKey) == Kept(ContextField(op, "description"))
            && Lookup(r, TagsKey) == Kept(Tags(op))
            && Lookup(r, OperationIdKey) == Kept(OperationId(op).value)
            && Lookup(r, ParametersKey) == Kept(Arr(List(PathParameters(names, schema, cam, conv, dec).value.0)))
            && Lookup(r, ResponsesKey) == Kept(ResponsesField(responses, conv).value)
            && forall e :: e in r ==> e.key in {SummaryKey, DescriptionKey, TagsKey, OperationIdKey, ParametersKey,
                                                ResponsesKey, RequestBodyKey}
  {
    OperationShape(names, schema, op, responses, cam, conv, dec);
    var pp := PathParameters(names, schema, cam, conv, dec).value;
    var id := OperationId(op).value;
    var resp := ResponsesField(responses, conv).value;
    var fields := ArrayFilter(Fields(op, id, pp.0, resp));
    FilteredFields(op, id, pp.0, resp);
    if pp.1.Some? {
      var e := Entry(RequestBodyKey, RequestBody(ContentType(op), conv(Arr(pp.1.value)).value));
      FindAppend(fields, e, SummaryKey);
      FindAppend(fields, e, DescriptionKey);
      FindAppend(fields, e, TagsKey);
      FindAppend(fields, e, OperationIdKey);
      FindAppend(fields, e, ParametersKey);
      FindAppend(fields, e, ResponsesKey);
    }
  }

  /** Reading one field of the filtered literal. */
  lemma FieldLookup(fs: seq<Entry>, i: nat, k: Key)
    requires UniqueKeys(fs) && i < |fs| && fs[i].key == k
    ensures Lookup(ArrayFilter(fs), k) == Kept(fs[i].value)
  {
    ArrayFilterLookup(fs, k);
    FindFirst(fs, k, i);
  }

  /** A request body is added exactly when the request schema keeps a property; it
      holds the converted schema under merge-patch when the method is written exactly
      `PATCH`, and under plain JSON otherwise. */
  lemma OperationRequestBody(names: seq<string>, schema: seq<Entry>, op: seq<Entry>, responses: Option<seq<Entry>>,
                             cam: string -> string, conv: Json -> Result<Json>, dec: string -> string)
    requires Operation(names, schema, op, responses, cam, conv, dec).Ok?
    ensures var r := Operation(names, schema, op, responses, cam, conv, dec).value;
            var rest := PathParameters(names, schema, cam, conv, dec).value.1;
            && (HasKey(r, RequestBodyKey) <==> rest.Some?)
            && (rest.Some? ==>
                  && conv(Arr(rest.value)).Ok?
                  && Lookup(r, RequestBodyKey) == Some(RequestBody(ContentType(op), conv(Arr(rest.value)).value)))
    ensures ContentType(op) == MergePatchJson <==> GetOrNull(op, MethodKey) == Str("PATCH")
  {
    OperationShape(names, schema, op, responses, cam, conv, dec);
    var pp := PathParameters(names, schema, cam, conv, dec).value;
    var fields := ArrayFilter(Fields(op, OperationId(op).value, pp.0, ResponsesField(responses, conv).value));
    FieldsLackRequestBody(op, OperationId(op).value, pp.0, ResponsesField(responses, conv).value);
    if pp.1.Some? {
      AppendNew(fields, Entry(RequestBodyKey, RequestBody(ContentType(op), conv(Arr(pp.1.value)).value)));
    }
  }

  /** The method is compared case-sensitively: a lower-case `patch` gets plain JSON. */
  lemma LowerCasePatchIsPlainJson(op: seq<Entry>)
    requires GetOrNull(op, MethodKey) == Str("patch")
    ensures ContentType(op) == Json
  {
  }

  /** Without a configured id, the id is built from the operation name, the resource's
      short name and the operation type; with one, that id is used. Any part of the
      built id that is not a string makes the operation fail. */
  lemma OperationIdFromParts(names: seq<string>, schema: seq<Entry>, op: seq<Entry>, responses: Option<seq<Entry>>,
                             cam: string -> string, conv: Json -> Result<Json>, dec: string -> string)
    ensures var r := Operation(names, schema, op, responses, cam, conv, dec);
            var name := GetOrNull(op, StrKey("operationName"));
            var short := GetOrNull(op, ResourceShortNameKey);
            var kind := GetOrNull(op, StrKey("operationType"));
            && (!IsSet(op, OperationIdKey) && !(name.Str? && short.Str? && kind.Str?) ==> r == Err(IllTyped))
            && (r.Ok? && !IsSet(op, OperationIdKey) ==>
                  Lookup(r.value, OperationIdKey) == Kept(Str(LcFirst(name.s) + UcFirst(short.s) + UcFirst(kind.s))))
            && (r.Ok? && IsSet(op, OperationIdKey) ==> Lookup(r.value, OperationIdKey) == Kept(GetOrNull(op, OperationIdKey)))
  {
    OperationFailure(names, schema, op, responses, cam, conv, dec);
    if Operation(names, schema, op, responses, cam, conv, dec).Ok? {
      OperationFields(names, schema, op, responses, cam, conv, dec);
    }
  }

  lemma FieldsUnique(op: seq<Entry>, id: Json, params: seq<Json>, responses: Json)
    ensures UniqueKeys(Fields(op, id, params, responses))
  {
  }
}

=== FILE: outcomes.dfy ===
/** Failure-compatible wrappers used throughout the model.

  The normalizer has two exceptions of its own (a union of several non-null
  types, and a message without an operation mapping). Everything else that can
  go wrong is PHP rejecting a value of the wrong type (an array parameter given
  a string, `count` of a scalar, ...); those paths are collapsed into `IllTyped`.
 */
module Outcomes {

  datatype Option<+T> = None | Some(value: T)

  datatype Error =
    | MoreThanOneNullType      // DocumentationException::moreThanOneNullType
    | NoOperationFound(message: string)  // ApiPlatformMappingException::noOperationFound
    | IllTyped                 // a value of the wrong PHP type reached a typed parameter

  datatype Result<+T> = Ok(value: T) | Err(error: Error) {

    predicate IsFailure() {
      Err?
    }

    function PropagateFailure<U>(): Result<U>
      requires Err?
    {
      Err(error)
    }

    function Extract(): T
      requires Ok?
    {
      value
    }
  }

  /** Evaluate the results in order and stop at the first failure, as a PHP
      `array_map` does when its callback throws. */
  function Collect<T>(rs: seq<Result<T>>): Result<seq<T>> {
    if rs == [] then Ok([])
    else match rs[0]
      case Err(e) => Err(e)
      case Ok(v) =>
        match Collect(rs[1..])
        case Err(e) => Err(e)
        case Ok(vs) => Ok([v] + vs)
  }

  /** `Collect` fails exactly when some result does, with the first failure, and
      otherwise keeps every value in place. */
  lemma {:induction false} CollectCorrect<T>(rs: seq<Result<T>>)
    ensures Collect(rs).Ok? <==> forall i :: 0 <= i < |rs| ==> rs[i].Ok?
    ensures Collect(rs).Ok? ==> |Collect(rs).value| == |rs| && forall i :: 0 <= i < |rs| ==> Collect(rs).value[i] == rs[i].value
    ensures Collect(rs).Err? ==> exists i :: 0 <= i < |rs| && rs[i] == Err(Collect(rs).error) && forall j :: 0 <= j < i ==> rs[j].Ok?
  {
    if rs != [] {
      CollectCorrect(rs[1..]);
      if rs[0].Ok? && Collect(rs[1..]).Ok? {
        var vs := Collect(rs[1..]).value;
        assert Collect(rs).value == [rs[0].value] + vs;
        forall i | 1 <= i < |rs| ensures rs[i].Ok? && Collect(rs).value[i] == rs[i].value {
          assert rs[i] == rs[1..][i - 1];
        }
      } else if rs[0].Ok? {
        var i :| 0 <= i < |rs[1..]| && rs[1..][i] == Err(Collect(rs[1..]).error) && forall j :: 0 <= j < i ==> rs[1..][j].Ok?;
        assert rs[i + 1] == Err(Collect(rs).error);
        forall j | 0 <= j < i + 1 ensures rs[j].Ok? {
          if j > 0 {
            assert rs[j] == rs[1..][j - 1];
          }
        }
      } else {
        assert rs[0] == Err(Collect(rs).error);
      }
    }
  }
}

=== FILE: path_params.dfy ===
/** Path parameters and the request body left after them
    (DocumentationNormalizer.php:293-311 and 340-354).

  Every placeholder of the path (camelized) becomes one `in: path` parameter
  built from the request schema; the placeholders are then removed from the
  schema's `properties` and `required`, and a schema with no property left is
  replaced by null.
 */
module PathParams {
  import opened Outcomes
  import opened PhpArrays
  import opened PhpNumeric
  import opened Vocabulary
  import opened SchemaStages
  import opened SchemaConversion

  // ---------------------------------------------------------- removeFromSchema

  /** `array_diff_key($props, array_flip($params))`: the properties whose key is not
      a parameter name, in order. Keys compare as strings. */
  function DropKeys(es: seq<Entry>, params: seq<string>): (r: seq<Entry>)
    ensures forall e :: e in r <==> e in es && KeyString(e.key) !in params
    ensures |r| <= |es|
  {
    if es == [] then []
    else (if KeyString(es[0].key) in params then [] else [es[0]]) + DropKeys(es[1..], params)
  }

  /** `array_diff($values, $params)`: the values whose string cast is not a parameter
      name, in order. */
  function DropValues(vs: seq<Json>, params: seq<string>): (r: seq<Json>)
    ensures forall v :: v in r <==> v in vs && StringCast(v) !in params
    ensures |r| <= |vs|
  {
    if vs == [] then []
    else (if StringCast(vs[0]) in params then [] else [vs[0]]) + DropValues(vs[1..], params)
  }

  /** An array inside `required` compares as the text "Array", as PHP's cast does
      with its "Array to string conversion" warning, and it is not an error. */
  lemma DropValuesArrayElement(vs: seq<Json>, params: seq<string>, e: seq<Entry>)
    requires Arr(e) in vs
    ensures Arr(e) in DropValues(vs, params) <==> "Array" !in params
  {
  }

  /** `$schema['properties'] ??= []`: the properties, defaulting to an empty array. */
  function PropertiesOrEmpty(schema: seq<Entry>): Json {
    if IsSet(schema, PropertiesKey) then GetOrNull(schema, PropertiesKey) else Arr([])
  }

  /** `removeFromSchema($schema, $parameters)`. `None` is the null it returns when no
      property is left. */
  function RemoveFromSchema(schema: seq<Entry>, params: seq<string>): (r: Result<Option<seq<Entry>>>)
    ensures r.Err? ==> r.error == IllTyped
  {
    var schema1 := if IsSet(schema, PropertiesKey) then schema else Set(schema, PropertiesKey, Arr([]));
    match PropertiesOrEmpty(schema)
    case Arr(props) =>
      var kept := DropKeys(props, params);
      if kept == [] then Ok(None)
      else
        (match GetOrNull(schema, RequiredKey)
         case Arr(req) =>
           var required := List(DropValues(Values(req), params));
           Ok(Some(Set(Set(schema1, PropertiesKey, Arr(kept)), RequiredKey, Arr(required))))
         case _ => Err(IllTyped))   // array_diff on a non-array
    case _ => Err(IllTyped)         // array_diff_key on a non-array
  }

  /** `removeFromSchema` returns null exactly when no property is left, fails exactly
      when `array_diff_key` or `array_diff` is given a non-array, and otherwise
      rewrites `properties` and `required` and leaves every other key alone. */
  lemma RemoveFromSchemaCorrect(schema: seq<Entry>, params: seq<string>)
    ensures RemoveFromSchema(schema, params) == Ok(None) <==>
      PropertiesOrEmpty(schema).Arr? && DropKeys(PropertiesOrEmpty(schema).entries, params) == []
    ensures RemoveFromSchema(schema, params).Err? <==>
      || !PropertiesOrEmpty(schema).Arr?
      || (DropKeys(PropertiesOrEmpty(schema).entries, params) != [] && !GetOrNull(schema, RequiredKey).Arr?)
    ensures RemoveFromSchema(schema, params).Ok? && RemoveFromSchema(schema, params).value.Some? ==>
      var out := RemoveFromSchema(schema, params).value.value;
      && (forall k :: k != PropertiesKey && k != RequiredKey ==> Lookup(out, k) == Lookup(schema, k))
      && Lookup(out, PropertiesKey) == Some(Arr(DropKeys(PropertiesOrEmpty(schema).entries, params)))
      && Lookup(out, RequiredKey) == Some(Arr(List(DropValues(Values(GetOrNull(schema, RequiredKey).entries), params))))
  {
    var r := RemoveFromSchema(schema, params);
    if r.Ok? && r.value.Some? {
      var props := PropertiesOrEmpty(schema).entries;
      var req := GetOrNull(schema, RequiredKey).entries;
      var kept := DropKeys(props, params);
      var required := List(DropValues(Values(req), params));
      var schema1 := if IsSet(schema, PropertiesKey) then schema else Set(schema, PropertiesKey, Arr([]));
      var mid := Set(schema1, PropertiesKey, Arr(kept));
      assert r.value.value == Set(mid, RequiredKey, Arr(required));
      forall k | k != PropertiesKey && k != RequiredKey ensures Lookup(r.value.value, k) == Lookup(schema, k) {
        assert Lookup(mid, k) == Lookup(schema1, k);
      }
    }
  }

  /** Removing the same parameters again changes nothing: none of them is left. */
  lemma RemoveFromSchemaIdempotent(schema: seq<Entry>, params: seq<string>)
    requires RemoveFromSchema(schema, params).Ok? && RemoveFromSchema(schema, params).value.Some?
    ensures var out := RemoveFromSchema(schema, params).value.value;
      RemoveFromSchema(out, params) == Ok(Some(out))
  {
    var out := RemoveFromSchema(schema, params).value.value;
    var kept := DropKeys(PropertiesOrEmpty(schema).entries, params);
    var dv := DropValues(Values(GetOrNull(schema, RequiredKey).entries), params);
    var required := List(dv);
    assert PropertiesOrEmpty(out) == Arr(kept);
    assert GetOrNull(out, RequiredKey) == Arr(required);
    DropKeysFixed(kept, params);
    DropValuesFixed(dv, params);
    assert Values(required) == dv;
    RemoveFromSchemaSome(out, params, kept, required);
    SetSame(out, PropertiesKey, Arr(kept));
    SetSame(out, RequiredKey, Arr(required));
  }

  /** The successful path of `removeFromSchema` on a schema that has its properties. */
  lemma RemoveFromSchemaSome(schema: seq<Entry>, params: seq<string>, props: seq<Entry>, req: seq<Entry>)
    requires IsSet(schema, PropertiesKey) && PropertiesOrEmpty(schema) == Arr(props) && DropKeys(props, params) != []
    requires GetOrNull(schema, RequiredKey) == Arr(req)
    ensures RemoveFromSchema(schema, params) ==
      Ok(Some(Set(Set(schema, PropertiesKey, Arr(DropKeys(props, params))), RequiredKey, Arr(List(DropValues(Values(req), params))))))
  {
  }

  lemma {:induction false} DropKeysFixed(es: seq<Entry>, params: seq<string>)
    requires forall e :: e in es ==> KeyString(e.key) !in params
    ensures DropKeys(es, params) == es
  {
    if es != [] {
      assert es[0] in es;
      DropKeysFixed(es[1..], params);
      assert es == [es[0]] + es[1..];
    }
  }

  lemma {:induction false} DropValuesFixed(vs: seq<Json>, params: seq<string>)
    requires forall v :: v in vs ==> StringCast(v) !in params
    ensures DropValues(vs, params) == vs
  {
    if vs != [] {
      assert vs[0] in vs;
      DropValuesFixed(vs[1..], params);
      assert vs == [vs[0]] + vs[1..];
    }
  }

  // ------------------------------------------------------------ pathParameters

  /** `in_array($name, $haystack)` with PHP 8 loose comparison. */
  predicate InArray(name: string, vs: seq<Entry>) {
    exists i :: 0 <= i < |vs| && LooseEqualsString(name, vs[i].value)
  }

  /** `$schema['properties'][$name]`, or null where PHP reads null with a warning.
      The name indexes the array as PHP converts it: "1" reads the key 1. */
  function PropertySchema(schema: seq<Entry>, name: string): Json {
    match GetOrNull(schema, PropertiesKey)
    case Arr(props) => GetOrNull(props, ArrayKey(name))
    case _ => Null
  }

  /** A property stored under the integer key `i` is the schema of the placeholder
      spelled as `i`, the same property `removeFromSchema` drops for it. */
  lemma PropertySchemaIntKey(schema: seq<Entry>, props: seq<Entry>, i: int)
    requires GetOrNull(schema, PropertiesKey) == Arr(props) && MinLong <= i <= MaxLong
    ensures PropertySchema(schema, IntToString(i)) == GetOrNull(props, IntKey(i))
    ensures KeyString(IntKey(i)) == IntToString(i)
  {
    ArrayKeyOfInt(i);
  }

  /** The parameter object `{name, schema, required, in}` for one camelized placeholder. */
  function ParameterObject(name: string, schema: Json, required: bool): Json {
    Arr([Entry(StrKey("name"), Str(name)), Entry(StrKey("schema"), schema),
         Entry(StrKey("required"), Bool(required)), Entry(StrKey("in"), Str("path"))])
  }

  /** The closure at :299-306 for one camelized placeholder; `conv` is convertSchema. */
  function PathParameter(name: string, schema: seq<Entry>, conv: Json -> Result<Json>, dec: string -> string): (r: Result<Json>)
    ensures r.Ok? <==> conv(PropertySchema(schema, name)).Ok? && GetOrNull(schema, RequiredKey).Arr?
    ensures r.Ok? ==> r.value == ParameterObject(dec(name), conv(PropertySchema(schema, name)).value,
                                                 InArray(name, GetOrNull(schema, RequiredKey).entries))
  {
    var converted :- conv(PropertySchema(schema, name));
    match GetOrNull(schema, RequiredKey)
    case Arr(req) => Ok(ParameterObject(dec(name), converted, InArray(name, req)))
    case _ => Err(IllTyped)   // in_array on a non-array
  }

  /** The closure applied to every placeholder, before any failure stops the map. */
  function ParameterResults(names: seq<string>, schema: seq<Entry>, conv: Json -> Result<Json>, dec: string -> string): (r: seq<Result<Json>>)
    ensures |r| == |names| && forall i :: 0 <= i < |names| ==> r[i] == PathParameter(names[i], schema, conv, dec)
  {
    seq(|names|, i requires 0 <= i < |names| => PathParameter(names[i], schema, conv, dec))
  }

  /** The parameters for the placeholders, in path order; the first failure wins. */
  function Parameters(names: seq<string>, schema: seq<Entry>, conv: Json -> Result<Json>, dec: string -> string): (r: Result<seq<Json>>)
  {
    Collect(ParameterResults(names, schema, conv, dec))
  }

  /** One parameter per placeholder, in order, each built from that placeholder alone. */
  lemma ParametersCorrect(names: seq<string>, schema: seq<Entry>, conv: Json -> Result<Json>, dec: string -> string)
    ensures Parameters(names, schema, conv, dec).Ok? <==>
      forall j :: 0 <= j < |names| ==> PathParameter(names[j], schema, conv, dec).Ok?
    ensures Parameters(names, schema, conv, dec).Ok? ==>
      var ps := Parameters(names, schema, conv, dec).value;
      |ps| == |names| && forall j :: 0 <= j < |names| ==> ps[j] == PathParameter(names[j], schema, conv, dec).value
  {
    var rs := ParameterResults(names, schema, conv, dec);
    CollectCorrect(rs);
  }

  /** Map a function over a list of names. */
  function MapNames(f: string -> string, names: seq<string>): (r: seq<string>)
    ensures |r| == |names| && forall i :: 0 <= i < |names| ==> r[i] == f(names[i])
  {
    seq(|names|, i requires 0 <= i < |names| => f(names[i]))
  }

  /** `pathParameters($path, &$schema)`: the parameters, and the request schema that
      remains (`None` for null). `names` are the placeholders of the path as
      `Uri::toPathParameterNames` lists them; `cam` is StringUtil::camelize. */
  function PathParameters(names: seq<string>, schema: seq<Entry>, cam: string -> string, conv: Json -> Result<Json>, dec: string -> string)
    : (r: Result<(seq<Json>, Option<seq<Entry>>)>)
  {
    var camelized := MapNames(cam, names);
    var params :- Parameters(camelized, schema, conv, dec);
    var rest :- RemoveFromSchema(schema, camelized);
    Ok((params, rest))
  }

  /** `pathParameters` fails exactly when building a parameter or trimming the body
      fails, parameters first; otherwise it returns both. */
  lemma PathParametersSteps(names: seq<string>, schema: seq<Entry>, cam: string -> string, conv: Json -> Result<Json>, dec: string -> string)
    ensures var camelized := MapNames(cam, names);
      PathParameters(names, schema, cam, conv, dec) ==
        if Parameters(camelized, schema, conv, dec).Err? then Err(Parameters(camelized, schema, conv, dec).error)
        else if RemoveFromSchema(schema, camelized).Err? then Err(RemoveFromSchema(schema, camelized).error)
        else Ok((Parameters(camelized, schema, conv, dec).value, RemoveFromSchema(schema, camelized).value))
  {
  }

  /** One `in: path` parameter per placeholder, in path order, named by the decamilized
      placeholder and required exactly when the placeholder is listed in `required`. */
  lemma PathParametersList(names: seq<string>, schema: seq<Entry>, cam: string -> string, conv: Json -> Result<Json>, dec: string -> string)
    requires PathParameters(names, schema, cam, conv, dec).Ok?
    ensures var params := PathParameters(names, schema, cam, conv, dec).value.0;
      && |params| == |names|
      && forall i :: 0 <= i < |names| ==>
           var n := cam(names[i]);
           && conv(PropertySchema(schema, n)).Ok?
           && params[i] == ParameterObject(dec(n), conv(PropertySchema(schema, n)).value,
                                        InArray(n, GetOrNull(schema, RequiredKey).entries))
  {
    var camelized := MapNames(cam, names);
    PathParametersSteps(names, schema, cam, conv, dec);
    ParametersCorrect(camelized, schema, conv, dec);
    var ps := Parameters(camelized, schema, conv, dec).value;
    forall i | 0 <= i < |names|
      ensures var n := cam(names[i]);
        conv(PropertySchema(schema, n)).Ok? && ps[i] == ParameterObject(dec(n), conv(PropertySchema(schema, n)).value,
                                 InArray(n, GetOrNull(schema, RequiredKey).entries))
    {
      assert PathParameter(camelized[i], schema, conv, dec).Ok?;
    }
  }

  /** Every property is either still in the body or was taken out as a placeholder,
      and the body is null exactly when nothing is left. */
  lemma PathParametersBody(names: seq<string>, schema: seq<Entry>, cam: string -> string, conv: Json -> Result<Json>, dec: string -> string)
    requires PathParameters(names, schema, cam, conv, dec).Ok?
    ensures var rest := PathParameters(names, schema, cam, conv, dec).value.1;
      var props := PropertiesOrEmpty(schema).entries;
      && (rest.None? <==> forall e :: e in props ==> KeyString(e.key) in MapNames(cam, names))
      && (rest.Some? ==> forall e :: e in props ==>
            (KeyString(e.key) in MapNames(cam, names) <==> e !in Lookup(rest.value, PropertiesKey).value.entries))
  {
    var camelized := MapNames(cam, names);
    PathParametersSteps(names, schema, cam, conv, dec);
    var props := PropertiesOrEmpty(schema).entries;
    if DropKeys(props, camelized) != [] {
      var e := DropKeys(props, camelized)[0];
      assert e in DropKeys(props, camelized);
    }
  }
}

=== FILE: paths.dfy ===
/** `paths($messages)` (DocumentationNormalizer.php:174-224): every message
    becomes one operation under its path and lower-cased method; the paths are
    then sorted by key and the methods of each path by METHOD_SORT.

  The collaborators the normalizer calls are given as functions in `Services`:
  the resource metadata factory (or the reflection fallback) that names a
  resource, the operation path resolver, `Uri::toPathParameterNames`, the
  reflection that finds a message's schema and its response schemas, and
  StringUtil's camelize and decamilize. `Uri` itself is the identity on the
  path string.
 */
module Paths {
  import opened Outcomes
  import opened PhpArrays
  import opened PhpStrings
  import opened SchemaConversion
  import opened Operations
  import opened ArrayMerge
  import opened Sorting
  import opened MethodOrder

  const ResourceKey := StrKey("resource")

  datatype Services = Services(
    shortName: Json -> string,            // short name of `$operation['resource']`
    resolvePath: seq<Entry> -> string,    // operationPathResolver on the merged operation
    placeholders: string -> seq<string>,  // Uri::toPathParameterNames
    schema: Key -> Option<seq<Entry>>,    // `schemas($messages)[$messageClass]`, None when not schema aware
    responses: Key -> Option<seq<Entry>>, // response schemas per status code, None without HasResponses
    camelize: string -> string,
    decamilize: string -> string)

  /** One message's contribution: its path, its lower-cased method and the operation. */
  datatype PathOp = PathOp(path: string, verb: string, op: seq<Entry>)

  /** The mapping's defaults overridden by the message's own configuration, with the
      resource's short name written in (:185-197). */
  function MergedOperation(configured: seq<Entry>, given: seq<Entry>, svc: Services): (r: seq<Entry>)
    ensures UniqueKeys(r)
    ensures Lookup(r, ResourceShortNameKey) == Some(Str(svc.shortName(GetOrNull(r, ResourceKey))))
  {
    var merged := Merge(configured, given);
    MergeUnique(configured, given);
    var r := Set(merged, ResourceShortNameKey, Str(svc.shortName(GetOrNull(merged, ResourceKey))));
    assert Lookup(r, ResourceKey) == Lookup(merged, ResourceKey);
    r
  }

  /** Every string key other than `resourceShortName` reads the message's value when
      the message sets the key, and the mapping's default otherwise. */
  lemma MergedOperationOverride(configured: seq<Entry>, given: seq<Entry>, svc: Services, s: string)
    requires UniqueKeys(configured) && UniqueKeys(given)
    requires StrKey(s) != ResourceShortNameKey
    ensures Lookup(MergedOperation(configured, given, svc), StrKey(s)) ==
      if HasKey(given, StrKey(s)) then Lookup(given, StrKey(s)) else Lookup(configured, StrKey(s))
  {
    MergeOverride(configured, given, s);
  }

  /** The body of the loop in `paths` for one message (:180-201). `strtolower`,
      `operation` and the path resolver need a string method, array operations and
      an array schema; anything else is a type error. */
  function PathOperation(msg: Entry, mapping: seq<Entry>, svc: Services): (r: Result<PathOp>)
    ensures !IsSet(mapping, msg.key) ==> r == Err(NoOperationFound(KeyString(msg.key)))
    ensures r.Ok? ==> IsSet(mapping, msg.key) && GetOrNull(mapping, msg.key).Arr? && msg.value.Arr?
                      && svc.schema(msg.key).Some?
  {
    if !IsSet(mapping, msg.key) then Err(NoOperationFound(KeyString(msg.key)))
    else match (GetOrNull(mapping, msg.key), msg.value)
      case (Arr(configured), Arr(given)) =>
        var op := MergedOperation(configured, given, svc);
        (match GetOrNull(op, MethodKey)
         case Str(m) =>
           var path := StripFormat(svc.resolvePath(op));
           (match svc.schema(msg.key)
            case Some(schema) =>
              var built :- Operation(svc.placeholders(path), schema, op, svc.responses(msg.key), svc.camelize,
                                     x => Convert(x, svc.decamilize), svc.decamilize);
              Ok(PathOp(path, Lower(m), built))
            case None => Err(IllTyped))
         case _ => Err(IllTyped))
      case _ => Err(IllTyped)
  }

  /** A placed message sits under the resolved path without `.{_format}`, under its
      method in lower case, and its operation is the one `operation` builds from the
      merged configuration. */
  lemma PathOperationOk(msg: Entry, mapping: seq<Entry>, svc: Services)
    requires PathOperation(msg, mapping, svc).Ok?
    ensures var op := MergedOperation(GetOrNull(mapping, msg.key).entries, msg.value.entries, svc);
            var r := PathOperation(msg, mapping, svc).value;
            && GetOrNull(op, MethodKey).Str?
            && r.verb == Lower(GetOrNull(op, MethodKey).s)
            && r.path == StripFormat(svc.resolvePath(op))
            && Operation(svc.placeholders(r.path), svc.schema(msg.key).value, op, svc.responses(msg.key), svc.camelize,
                         x => Convert(x, svc.decamilize), svc.decamilize) == Ok(r.op)
  {
  }

  /** The message results, in the messages' order. */
  function PathOps(messages: seq<Entry>, mapping: seq<Entry>, svc: Services): (r: seq<Result<PathOp>>)
    ensures |r| == |messages|
    ensures forall i :: 0 <= i < |messages| ==> r[i] == PathOperation(messages[i], mapping, svc)
  {
    seq(|messages|, i requires 0 <= i < |messages| => PathOperation(messages[i], mapping, svc))
  }

  // ------------------------------------------------------------------ placing

  /** The methods array stored under a path so far; `[]` when the path is not set
      (only arrays are ever stored). */
  function MethodsAt(paths: seq<Entry>, p: string): seq<Entry> {
    match Lookup(paths, StrKey(p))
    case Some(Arr(ms)) => ms
    case _ => []
  }

  /** Every path maps to an array of methods with unique keys. */
  predicate PathTable(paths: seq<Entry>) {
    && UniqueKeys(paths)
    && forall i :: 0 <= i < |paths| ==> paths[i].key.StrKey? && paths[i].value.Arr? && UniqueKeys(paths[i].value.entries)
  }

  /** `$paths[$path][$method] = $operation`, creating `$paths[$path]` first (:199-205). */
  function Place(paths: seq<Entry>, b: PathOp): (r: seq<Entry>)
    requires PathTable(paths)
    ensures PathTable(r)
  {
    var ms := Set(MethodsAt(paths, b.path), StrKey(b.verb), Arr(b.op));
    MethodsAtUnique(paths, b.path);
    SetTable(paths, StrKey(b.path), ms);
    Set(paths, StrKey(b.path), Arr(ms))
  }

  /** Placing writes one method of one path; every other path is untouched. */
  lemma PlaceAt(paths: seq<Entry>, b: PathOp, p: string)
    requires PathTable(paths)
    ensures MethodsAt(Place(paths, b), p) ==
            if p == b.path then Set(MethodsAt(paths, b.path), StrKey(b.verb), Arr(b.op)) else MethodsAt(paths, p)
    ensures HasKey(Place(paths, b), StrKey(p)) <==> HasKey(paths, StrKey(p)) || p == b.path
  {
    var ms := Set(MethodsAt(paths, b.path), StrKey(b.verb), Arr(b.op));
    var r := Set(paths, StrKey(b.path), Arr(ms));
    assert Lookup(r, StrKey(p)) == if p == b.path then Some(Arr(ms)) else Lookup(paths, StrKey(p));
  }

  lemma MethodsAtUnique(paths: seq<Entry>, p: string)
    requires PathTable(paths)
    ensures UniqueKeys(MethodsAt(paths, p))
  {
    if HasKey(paths, StrKey(p)) {
      var i := Find(paths, StrKey(p));
      assert paths[i].value.Arr?;
    }
  }

  lemma SetTable(paths: seq<Entry>, k: Key, ms: seq<Entry>)
    requires PathTable(paths) && k.StrKey? && UniqueKeys(ms)
    ensures PathTable(Set(paths, k, Arr(ms)))
  {
    var r := Set(paths, k, Arr(ms));
    SetEntries(paths, k, Arr(ms));
    forall i | 0 <= i < |r| ensures r[i].key.StrKey? && r[i].value.Arr? && UniqueKeys(r[i].value.entries) {
      assert r[i] in r;
      if r[i] != Entry(k, Arr(ms)) {
        var j :| 0 <= j < |paths| && paths[j] == r[i];
      }
    }
  }

  /** The messages placed one after the other, in order. */
  function PlaceAll(bs: seq<PathOp>): (r: seq<Entry>)
    ensures PathTable(r)
  {
    if bs == [] then [] else Place(PlaceAll(bs[..|bs| - 1]), bs[|bs| - 1])
  }

  /** Message `i` is the last one placed under path `p` and method `v`. */
  predicate IsLastWrite(bs: seq<PathOp>, p: string, v: string, i: int) {
    && 0 <= i < |bs| && bs[i].path == p && bs[i].verb == v
    && forall j :: i < j < |bs| ==> !(bs[j].path == p && bs[j].verb == v)
  }

  /** A path is present exactly when some message resolved to it; under it, a method
      holds the operation of the last message placed there, and is absent when no
      message was. */
  lemma PlaceAllLookup(bs: seq<PathOp>, p: string, v: string)
    ensures HasKey(PlaceAll(bs), StrKey(p)) <==> Resolves(bs, p)
    ensures forall i :: IsLastWrite(bs, p, v, i) ==> Lookup(MethodsAt(PlaceAll(bs), p), StrKey(v)) == Some(Arr(bs[i].op))
    ensures (forall i :: 0 <= i < |bs| ==> !(bs[i].path == p && bs[i].verb == v)) ==>
            Lookup(MethodsAt(PlaceAll(bs), p), StrKey(v)) == None
  {
    PlaceAllPaths(bs, p);
    forall i | IsLastWrite(bs, p, v, i) ensures Lookup(MethodsAt(PlaceAll(bs), p), StrKey(v)) == Some(Arr(bs[i].op)) {
      PlaceAllLast(bs, p, v, i);
    }
    if forall i :: 0 <= i < |bs| ==> !(bs[i].path == p && bs[i].verb == v) {
      PlaceAllAbsent(bs, p, v);
    }
  }

  lemma {:induction false} PlaceAllPaths(bs: seq<PathOp>, p: string)
    ensures HasKey(PlaceAll(bs), StrKey(p)) <==> Resolves(bs, p)
  {
    if bs != [] {
      PlaceAllPaths(bs[..|bs| - 1], p);
      PlaceLast(bs, p);
      ResolvesLast(bs, p);
    }
  }

  /** Some message resolved to path `p`. */
  predicate Resolves(bs: seq<PathOp>, p: string) {
    exists i :: 0 <= i < |bs| && bs[i].path == p
  }

  lemma ResolvesLast(bs: seq<PathOp>, p: string)
    requires bs != []
    ensures Resolves(bs, p) <==> Resolves(bs[..|bs| - 1], p) || bs[|bs| - 1].path == p
  {
    var n := |bs| - 1;
    var pre := bs[..n];
    if Resolves(pre, p) {
      var i :| 0 <= i < n && pre[i].path == p;
      assert bs[i].path == p;
    }
    if Resolves(bs, p) {
      var i :| 0 <= i < |bs| && bs[i].path == p;
      if i < n {
        assert pre[i].path == p;
      }
    }
  }

  lemma {:induction false} PlaceAllLast(bs: seq<PathOp>, p: string, v: string, i: int)
    requires IsLastWrite(bs, p, v, i)
    ensures Lookup(MethodsAt(PlaceAll(bs), p), StrKey(v)) == Some(Arr(bs[i].op))
  {
    var n := |bs| - 1;
    if i == n {
      PlaceLastWrite(bs, p, v);
    } else {
      var pre := bs[..n];
      assert !(bs[n].path == p && bs[n].verb == v);
      assert IsLastWrite(pre, p, v, i) by {
        forall j | i < j < n ensures !(pre[j].path == p && pre[j].verb == v) {
          assert pre[j] == bs[j];
        }
      }
      PlaceAllLast(pre, p, v, i);
      PlaceLast(bs, p);
      var m := MethodsAt(PlaceAll(pre), p);
      if p == bs[n].path {
        assert StrKey(bs[n].verb) != StrKey(v);
        assert Lookup(Set(m, StrKey(bs[n].verb), Arr(bs[n].op)), StrKey(v)) == Lookup(m, StrKey(v));
      }
    }
  }

  lemma PlaceLastWrite(bs: seq<PathOp>, p: string, v: string)
    requires bs != [] && bs[|bs| - 1].path == p && bs[|bs| - 1].verb == v
    ensures Lookup(MethodsAt(PlaceAll(bs), p), StrKey(v)) == Some(Arr(bs[|bs| - 1].op))
  {
    PlaceLast(bs, p);
  }

  /** The table after the last message is the table before it with that message placed. */
  lemma PlaceLast(bs: seq<PathOp>, p: string)
    requires bs != []
    ensures MethodsAt(PlaceAll(bs), p) ==
            if p == bs[|bs| - 1].path then Set(MethodsAt(PlaceAll(bs[..|bs| - 1]), p), StrKey(bs[|bs| - 1].verb), Arr(bs[|bs| - 1].op))
            else MethodsAt(PlaceAll(bs[..|bs| - 1]), p)
    ensures HasKey(PlaceAll(bs), StrKey(p)) <==> HasKey(PlaceAll(bs[..|bs| - 1]), StrKey(p)) || p == bs[|bs| - 1].path
  {
    PlaceAt(PlaceAll(bs[..|bs| - 1]), bs[|bs| - 1], p);
  }

  lemma {:induction false} PlaceAllAbsent(bs: seq<PathOp>, p: string, v: string)
    requires forall i :: 0 <= i < |bs| ==> !(bs[i].path == p && bs[i].verb == v)
    ensures Lookup(MethodsAt(PlaceAll(bs), p), StrKey(v)) == None
  {
    if bs != [] {
      var n := |bs| - 1;
      var pre := bs[..n];
      assert forall i :: 0 <= i < n ==> pre[i] == bs[i];
      PlaceAllAbsent(pre, p, v);
      PlaceLast(bs, p);
    }
  }

  // ------------------------------------------------------------------ sorting

  /** `uksort` of one path's methods, by METHOD_SORT (:211-220). Only arrays are
      stored under a path. */
  function SortedMethods(v: Json): Json {
    match v
    case Arr(ms) => Arr(SortMethods(ms))
    case _ => v
  }

  /** `array_map` of the method sort over the paths: keys and order are kept (:209-223). */
  function SortEachPath(ps: seq<Entry>): (r: seq<Entry>)
    ensures |r| == |ps|
    ensures forall i :: 0 <= i < |ps| ==> r[i] == Entry(ps[i].key, SortedMethods(ps[i].value))
  {
    seq(|ps|, i requires 0 <= i < |ps| => Entry(ps[i].key, SortedMethods(ps[i].value)))
  }

  /** `paths($messages)`. Placing cannot fail, so the first message that fails
      decides the error, as in the source's loop. */
  function Paths(messages: seq<Entry>, mapping: seq<Entry>, svc: Services): (r: Result<seq<Entry>>)
  {
    Assemble(PathOps(messages, mapping, svc))
  }

  /** The loop over the message results, then the two sorts: the first failure, or
      the sorted table of all placements. */
  function Assemble(rs: seq<Result<PathOp>>): Result<seq<Entry>> {
    var bs :- Collect(rs);
    Ok(Table(bs))
  }

  /** The placed operations, sorted by path and then by method. */
  function Table(bs: seq<PathOp>): seq<Entry> {
    SortEachPath(SortPaths(PlaceAll(bs)))
  }

  /** The operations of all messages, when every message succeeds. */
  function Placements(messages: seq<Entry>, mapping: seq<Entry>, svc: Services): (bs: seq<PathOp>)
    requires forall i :: 0 <= i < |messages| ==> PathOperation(messages[i], mapping, svc).Ok?
    ensures |bs| == |messages|
    ensures forall i :: 0 <= i < |messages| ==> bs[i] == PathOperation(messages[i], mapping, svc).value
  {
    seq(|messages|, i requires 0 <= i < |messages| => PathOperation(messages[i], mapping, svc).value)
  }

  /** The assembly fails exactly when some result is a failure, and with the first one. */
  lemma AssembleFailure(rs: seq<Result<PathOp>>)
    ensures Assemble(rs).Err? <==> exists i :: 0 <= i < |rs| && rs[i].Err?
    ensures Assemble(rs).Err? ==>
            exists i :: 0 <= i < |rs| && rs[i] == Err(Assemble(rs).error) && forall j :: 0 <= j < i ==> rs[j].Ok?
  {
    CollectCorrect(rs);
  }

  /** `paths` fails exactly when some message fails, and with the first failure. */
  lemma PathsFailure(messages: seq<Entry>, mapping: seq<Entry>, svc: Services)
    ensures Paths(messages, mapping, svc).Err? <==>
            exists i :: 0 <= i < |messages| && PathOperation(messages[i], mapping, svc).Err?
    ensures Paths(messages, mapping, svc).Err? ==>
            exists i :: (0 <= i < |messages| && PathOperation(messages[i], mapping, svc) == Err(Paths(messages, mapping, svc).error)
                         && forall j :: 0 <= j < i ==> PathOperation(messages[j], mapping, svc).Ok?)
  {
    AssembleFailure(PathOps(messages, mapping, svc));
  }

  /** The first failing message that has no operation mapping raises
      NoOperationFound naming that message (:181-182). */
  lemma UnmappedMessage(messages: seq<Entry>, mapping: seq<Entry>, svc: Services, i: nat)
    requires i < |messages| && !IsSet(mapping, messages[i].key)
    requires forall j :: 0 <= j < i ==> PathOperation(messages[j], mapping, svc).Ok?
    ensures Paths(messages, mapping, svc) == Err(NoOperationFound(KeyString(messages[i].key)))
  {
    var rs := PathOps(messages, mapping, svc);
    AssembleFirstFailure(rs, i);
  }

  /** The assembly stops at the first failure, whatever comes after it. */
  lemma AssembleFirstFailure(rs: seq<Result<PathOp>>, i: nat)
    requires i < |rs| && rs[i].Err? && forall j :: 0 <= j < i ==> rs[j].Ok?
    ensures Assemble(rs) == Err(rs[i].error)
  {
    CollectCorrect(rs);
    var k :| 0 <= k < |rs| && rs[k] == Err(Collect(rs).error) && forall j :: 0 <= j < k ==> rs[j].Ok?;
    assert k == i;
  }

  /** When every message succeeds, `paths` is the sorted table of their placements. */
  lemma PathsOk(messages: seq<Entry>, mapping: seq<Entry>, svc: Services)
    requires forall i :: 0 <= i < |messages| ==> PathOperation(messages[i], mapping, svc).Ok?
    ensures Paths(messages, mapping, svc) == Ok(Table(Placements(messages, mapping, svc)))
  {
    var rs := PathOps(messages, mapping, svc);
    CollectCorrect(rs);
    assert Collect(rs).value == Placements(messages, mapping, svc);
  }

  /** A sorted table: paths in strictly increasing byte order, each holding methods
      with unique keys in METHOD_SORT rank order. */
  predicate OrderedTable(out: seq<Entry>) {
    && (forall i, j :: 0 <= i < j < |out| ==> LexLess(KeyString(out[i].key), KeyString(out[j].key)))
    && (forall i :: 0 <= i < |out| ==> out[i].value.Arr? && UniqueKeys(out[i].value.entries))
    && (forall i, a, b :: 0 <= i < |out| && 0 <= a < b < |out[i].value.entries| ==>
          Rank(out[i].value.entries[a]) <= Rank(out[i].value.entries[b]))
  }

  /** The sorted table of any placements is ordered. */
  lemma TableOrdered(bs: seq<PathOp>)
    ensures OrderedTable(Table(bs))
  {
    var placed := PlaceAll(bs);
    var sorted := SortPaths(placed);
    SortPathsSorted(placed);
    var out := SortEachPath(sorted);
    forall i | 0 <= i < |out|
      ensures out[i].value.Arr? && UniqueKeys(out[i].value.entries)
      ensures forall a, b :: 0 <= a < b < |out[i].value.entries| ==> Rank(out[i].value.entries[a]) <= Rank(out[i].value.entries[b])
    {
      assert sorted[i] in multiset(placed);
      var ms := sorted[i].value.entries;
      SortMethodsSorted(ms);
      PermutationUnique(ms, SortMethods(ms));
    }
  }

  /** The paths come out in strictly increasing byte order, and the methods of each
      path by METHOD_SORT rank, with unique method keys. */
  lemma PathsOrdered(messages: seq<Entry>, mapping: seq<Entry>, svc: Services)
    requires Paths(messages, mapping, svc).Ok?
    ensures OrderedTable(Paths(messages, mapping, svc).value)
  {
    var rs := PathOps(messages, mapping, svc);
    CollectCorrect(rs);
    TableOrdered(Collect(rs).value);
  }

  /** The table has a path exactly when some message resolved to it; each method of
      a path holds the operation of the last message placed under that path and
      method, and no other method is present. */
  lemma TableLookup(bs: seq<PathOp>, p: string, v: string)
    ensures HasKey(Table(bs), StrKey(p)) <==> Resolves(bs, p)
    ensures forall i :: IsLastWrite(bs, p, v, i) ==> Lookup(MethodsAt(Table(bs), p), StrKey(v)) == Some(Arr(bs[i].op))
    ensures (forall i :: 0 <= i < |bs| ==> !(bs[i].path == p && bs[i].verb == v)) ==>
            Lookup(MethodsAt(Table(bs), p), StrKey(v)) == None
  {
    var placed := PlaceAll(bs);
    PlaceAllLookup(bs, p, v);
    TableMethods(placed, p);
    MethodsAtUnique(placed, p);
    SortedMethodLookup(MethodsAt(placed, p), v);
  }

  /** Sorting the paths and their methods keeps the set of paths, and each path's
      methods are its placed methods in METHOD_SORT order. */
  lemma TableMethods(placed: seq<Entry>, p: string)
    requires PathTable(placed)
    ensures HasKey(SortEachPath(SortPaths(placed)), StrKey(p)) <==> HasKey(placed, StrKey(p))
    ensures MethodsAt(SortEachPath(SortPaths(placed)), p) == SortMethods(MethodsAt(placed, p))
  {
    var sorted := SortPaths(placed);
    SortPathsSorted(placed);
    PermutationLookup(placed, sorted, StrKey(p));
    SortEachPathLookup(sorted, StrKey(p));
    if HasKey(placed, StrKey(p)) {
      var i := Find(placed, StrKey(p));
      assert placed[i].value.Arr?;
    }
  }

  /** Sorting the methods keeps what every method key reads. */
  lemma SortedMethodLookup(ms: seq<Entry>, v: string)
    requires UniqueKeys(ms)
    ensures Lookup(SortMethods(ms), StrKey(v)) == Lookup(ms, StrKey(v))
  {
    SortMethodsSorted(ms);
    PermutationLookup(ms, SortMethods(ms), StrKey(v));
  }

  // ------------------------------------------------------------------ helpers

  /** Reordering an array with unique keys keeps what every key reads. */
  lemma PermutationLookup(s: seq<Entry>, t: seq<Entry>, k: Key)
    requires UniqueKeys(s) && multiset(s) == multiset(t)
    ensures Lookup(t, k) == Lookup(s, k)
  {
    if HasKey(s, k) {
      var i :| 0 <= i < |s| && s[i] == Entry(k, Lookup(s, k).value);
      assert s[i] in multiset(t);
      var j :| 0 <= j < |t| && t[j] == s[i];
      assert HasKey(t, k);
      var j' :| 0 <= j' < |t| && t[j'] == Entry(k, Lookup(t, k).value);
      assert t[j'] in multiset(s);
      var i' :| 0 <= i' < |s| && s[i'] == t[j'];
      assert i == i';
    } else {
      forall j | 0 <= j < |t| ensures t[j].key != k {
        assert t[j] in multiset(s);
      }
    }
  }

  /** Reordering keeps keys unique. */
  lemma PermutationUnique(s: seq<Entry>, t: seq<Entry>)
    requires UniqueKeys(s) && multiset(s) == multiset(t)
    ensures UniqueKeys(t)
  {
    forall i, j | 0 <= i < j < |t| ensures t[i].key != t[j].key {
      if t[i].key == t[j].key {
        PermutationLookup(s, t, t[i].key);
        assert t[i] in multiset(s) && t[j] in multiset(s);
        var a :| 0 <= a < |s| && s[a] == t[i];
        var b :| 0 <= b < |s| && s[b] == t[j];
        assert a == b;
        MultisetTwice(t, i, j);
        SingleOccurrence(s, a);
      }
    }
  }

  /** Mapping the values keeps every key where it was. */
  lemma SortEachPathLookup(ps: seq<Entry>, k: Key)
    ensures Lookup(SortEachPath(ps), k) == if Lookup(ps, k).Some? then Some(SortedMethods(Lookup(ps, k).value)) else None
  {
    var r := SortEachPath(ps);
    if HasKey(ps, k) {
      var i := Find(ps, k);
      FindFirst(r, k, i);
    } else {
      assert !HasKey(r, k) by {
        forall i | 0 <= i < |r| ensures r[i].key != k {
          assert r[i].key == ps[i].key;
        }
      }
    }
  }
}

=== FILE: php_arrays.dfy ===
/** PHP values as the normalizer sees them.

  A PHP array is an ordered map whose keys are integers or strings; it is
  modelled as a sequence of entries in insertion order. Writing a key that is
  present overwrites it in place, writing a new key appends it, and `unset`
  removes it. Floats and objects do not occur in the schemas handled here.
 */
module PhpArrays {
  import opened Outcomes

  datatype Key = IntKey(n: int) | StrKey(s: string)

  datatype Json =
    | Null
    | Bool(b: bool)
    | Int(i: int)
    | Str(s: string)
    | Arr(entries: seq<Entry>)

  datatype Entry = Entry(key: Key, value: Json)

  /** The key is present in the array. */
  predicate HasKey(es: seq<Entry>, k: Key) {
    exists i :: 0 <= i < |es| && es[i].key == k
  }

  /** No key occurs twice: true of every PHP array. */
  predicate UniqueKeys(es: seq<Entry>) {
    forall i, j :: 0 <= i < j < |es| ==> es[i].key != es[j].key
  }

  /** Position of the key, or |es| when it is absent. */
  function Find(es: seq<Entry>, k: Key): (i: nat)
    ensures i <= |es|
    ensures i < |es| <==> HasKey(es, k)
    ensures i < |es| ==> es[i].key == k
    ensures forall j :: 0 <= j < i ==> es[j].key != k
  {
    if es == [] then 0
    else if es[0].key == k then 0
    else 1 + Find(es[1..], k)
  }

  /** `$a[$k]` when the key exists. */
  function Lookup(es: seq<Entry>, k: Key): (r: Option<Json>)
    ensures r.Some? <==> HasKey(es, k)
    ensures r.Some? ==> exists i :: 0 <= i < |es| && es[i] == Entry(k, r.value)
  {
    var i := Find(es, k);
    if i < |es| then Some(es[i].value) else None
  }

  /** PHP's `isset($a[$k])`: present and not null. */
  predicate IsSet(es: seq<Entry>, k: Key) {
    Lookup(es, k).Some? && Lookup(es, k).value != Null
  }

  /** `$a[$k] ?? null`. */
  function GetOrNull(es: seq<Entry>, k: Key): Json {
    match Lookup(es, k)
    case Some(v) => v
    case None => Null
  }

  /** `$a[$k] = $v`: overwrite in place, or append a new last entry. */
  function Set(es: seq<Entry>, k: Key, v: Json): (r: seq<Entry>)
    ensures Lookup(r, k) == Some(v)
    ensures forall k' :: k' != k ==> Lookup(r, k') == Lookup(es, k')
    ensures HasKey(es, k) ==> |r| == |es| && forall i :: 0 <= i < |es| ==> r[i].key == es[i].key
    ensures !HasKey(es, k) ==> r == es + [Entry(k, v)]
    ensures UniqueKeys(es) ==> UniqueKeys(r)
  {
    var i := Find(es, k);
    if i < |es| then
      var r := es[..i] + [Entry(k, v)] + es[i + 1..];
      assert forall j :: 0 <= j < |r| && j != i ==> r[j] == es[j];
      assert r[i] == Entry(k, v);
      FindFirst(r, k, i);
      forall k' | k' != k
        ensures Lookup(r, k') == Lookup(es, k')
      {
        SameFind(es, r, k');
      }
      r
    else
      var r := es + [Entry(k, v)];
      FindFirst(r, k, |es|);
      forall k' | k' != k
        ensures Lookup(r, k') == Lookup(es, k')
      {
        FindAppend(es, Entry(k, v), k');
      }
      r
  }

  /** Every entry after `Set` is the new one or an untouched entry under another key. */
  lemma SetEntries(es: seq<Entry>, k: Key, v: Json)
    requires UniqueKeys(es)
    ensures forall e :: e in Set(es, k, v) ==> e == Entry(k, v) || (e in es && e.key != k)
  {
    var i := Find(es, k);
    if i < |es| {
      SetEntriesAt(es, k, v, i);
    } else {
      assert Set(es, k, v) == es + [Entry(k, v)];
      forall e | e in es + [Entry(k, v)] ensures e == Entry(k, v) || (e in es && e.key != k) {
      }
    }
  }

  lemma SetEntriesAt(es: seq<Entry>, k: Key, v: Json, i: nat)
    requires UniqueKeys(es) && i < |es| && es[i].key == k
    ensures forall e :: e in es[..i] + [Entry(k, v)] + es[i + 1..] ==> e == Entry(k, v) || (e in es && e.key != k)
  {
    var r := es[..i] + [Entry(k, v)] + es[i + 1..];
    forall e | e in r ensures e == Entry(k, v) || (e in es && e.key != k) {
      var j :| 0 <= j < |r| && r[j] == e;
      if j != i {
        assert r[j] == es[j];
      }
    }
  }

  /** Writing back the value a key already holds changes nothing. */
  lemma SetSame(es: seq<Entry>, k: Key, v: Json)
    requires Lookup(es, k) == Some(v)
    ensures Set(es, k, v) == es
  {
    var i := Find(es, k);
    assert es[i] == Entry(k, v);
    assert es[..i] + [es[i]] + es[i + 1..] == es;
  }

  /** `unset($a[$k])`: every other entry stays, in order. */
  function Unset(es: seq<Entry>, k: Key): (r: seq<Entry>)
    ensures UnsetSpec(es, k, r)
  {
    if es == [] then []
    else
      var rest := Unset(es[1..], k);
      if es[0].key == k then
        UnsetDrop(es, k, rest);
        rest
      else
        UnsetKeep(es, k, rest);
        [es[0]] + rest
  }

  /** What `unset` promises: the key is gone, every other key reads as before, an
      absent key changes nothing, keys stay unique and no entry is made up. */
  ghost predicate UnsetSpec(es: seq<Entry>, k: Key, r: seq<Entry>) {
    && !HasKey(r, k)
    && (forall k' :: k' != k ==> Lookup(r, k') == Lookup(es, k'))
    && (!HasKey(es, k) ==> r == es)
    && (UniqueKeys(es) ==> UniqueKeys(r))
    && (forall e :: e in r ==> e in es)
  }

  lemma UnsetDrop(es: seq<Entry>, k: Key, rest: seq<Entry>)
    requires es != [] && es[0].key == k && UnsetSpec(es[1..], k, rest)
    ensures UnsetSpec(es, k, rest)
  {
    forall k' | k' != k ensures Lookup(es, k') == Lookup(es[1..], k') {
      assert Find(es, k') == 1 + Find(es[1..], k');
    }
    assert HasKey(es, k);
    if UniqueKeys(es) {
      TailUnique(es);
    }
  }

  /** Arrays with the same first entry whose tails read alike at `k` read alike at `k`. */
  lemma ConsLookup(es: seq<Entry>, rest: seq<Entry>, k: Key)
    requires es != [] && Lookup(rest, k) == Lookup(es[1..], k)
    ensures Lookup([es[0]] + rest, k) == Lookup(es, k)
  {
    LookupCons(es[0], rest, k);
    LookupCons(es[0], es[1..], k);
    assert [es[0]] + es[1..] == es;
  }

  lemma UnsetKeep(es: seq<Entry>, k: Key, rest: seq<Entry>)
    requires es != [] && es[0].key != k && UnsetSpec(es[1..], k, rest)
    ensures UnsetSpec(es, k, [es[0]] + rest)
  {
    var r := [es[0]] + rest;
    forall k' | k' != k
      ensures Lookup(r, k') == Lookup(es, k')
    {
      ConsLookup(es, rest, k');
    }
    if !HasKey(es, k) {
      assert !HasKey(es[1..], k) by {
        forall j | 0 <= j < |es[1..]| ensures es[1..][j].key != k {
          assert es[1..][j] == es[j + 1];
        }
      }
      assert es == [es[0]] + es[1..];
    }
    if UniqueKeys(es) {
      TailUnique(es);
      forall e | e in rest ensures e.key != es[0].key {
        var j :| 1 <= j < |es| && es[j] == e;
      }
    }
    assert !HasKey(r, k) by {
      forall j | 0 <= j < |r| ensures r[j].key != k {
        if j > 0 {
          assert r[j] == rest[j - 1];
        }
      }
    }
  }

  lemma FindFirst(es: seq<Entry>, k: Key, i: nat)
    requires i < |es| && es[i].key == k
    requires forall j :: 0 <= j < i ==> es[j].key != k
    ensures Find(es, k) == i
  {
    if i > 0 {
      FindFirst(es[1..], k, i - 1);
    }
  }

  lemma {:induction false} SameFind(a: seq<Entry>, b: seq<Entry>, k: Key)
    requires |a| == |b|
    requires forall j :: 0 <= j < |a| ==> a[j].key == b[j].key
    requires forall j :: 0 <= j < |a| && a[j].key == k ==> a[j] == b[j]
    ensures Find(a, k) == Find(b, k)
    ensures Lookup(a, k) == Lookup(b, k)
  {
    if a != [] && a[0].key != k {
      forall j | 0 <= j < |a| - 1
        ensures a[1..][j].key == b[1..][j].key && (a[1..][j].key == k ==> a[1..][j] == b[1..][j])
      {
        assert a[1..][j] == a[j + 1] && b[1..][j] == b[j + 1];
      }
      SameFind(a[1..], b[1..], k);
      assert Find(a, k) == 1 + Find(a[1..], k) && Find(b, k) == 1 + Find(b[1..], k);
    }
  }

  /** An appended entry under a new key is what that key reads. */
  lemma AppendNew(es: seq<Entry>, e: Entry)
    requires !HasKey(es, e.key)
    ensures HasKey(es + [e], e.key) && Lookup(es + [e], e.key) == Some(e.value)
  {
    assert Set(es, e.key, e.value) == es + [e];
  }

  lemma FindAppend(es: seq<Entry>, e: Entry, k: Key)
    requires e.key != k
    ensures Lookup(es + [e], k) == Lookup(es, k)
  {
    if es != [] {
      assert (es + [e])[1..] == es[1..] + [e];
      FindAppend(es[1..], e, k);
    }
  }

  /** Writing a key that sits between P and Q replaces that one entry. */
  lemma SetExisting(p: seq<Entry>, e: Entry, q: seq<Entry>, v: Json)
    requires UniqueKeys(p + [e] + q)
    ensures Set(p + [e] + q, e.key, v) == p + [Entry(e.key, v)] + q
  {
    var es := p + [e] + q;
    assert es[|p|] == e;
    FindFirst(es, e.key, |p|);
    assert es[..|p|] == p && es[|p| + 1..] == q;
  }

  /** Removing a key that only the middle entry carries leaves the rest in order. */
  lemma {:induction false} UnsetSingle(p: seq<Entry>, e: Entry, q: seq<Entry>)
    requires !HasKey(p, e.key) && !HasKey(q, e.key)
    ensures Unset(p + [e] + q, e.key) == p + q
  {
    if p == [] {
      assert p + [e] + q == [e] + q;
      assert ([e] + q)[1..] == q;
    } else {
      assert (p + [e] + q)[1..] == p[1..] + [e] + q;
      assert !HasKey(p[1..], e.key) by {
        forall i | 0 <= i < |p[1..]| ensures p[1..][i].key != e.key {
          assert p[1..][i] == p[i + 1];
        }
      }
      UnsetSingle(p[1..], e, q);
      assert p[0].key != e.key;
      assert p + q == [p[0]] + (p[1..] + q);
    }
  }

  /** PHP truthiness: `(bool) $v`. */
  predicate Truthy(v: Json) {
    match v
    case Null => false
    case Bool(b) => b
    case Int(i) => i != 0
    case Str(s) => s != "" && s != "0"
    case Arr(es) => es != []
  }

  /** PHP 8 loose comparison `null == $v`. Unlike truthiness, the string "0" is not equal to null. */
  predicate LooselyNull(v: Json) {
    match v
    case Null => true
    case Bool(b) => !b
    case Int(i) => i == 0
    case Str(s) => s == ""
    case Arr(es) => es == []
  }

  lemma LooselyNullIsFalsy(v: Json)
    ensures LooselyNull(v) ==> !Truthy(v)
    ensures !Truthy(v) && !LooselyNull(v) <==> v == Str("0")
  {
  }

  /** `array_filter($a)` without a callback: drop falsy values, keep keys and order. */
  function ArrayFilter(es: seq<Entry>): (r: seq<Entry>)
    ensures forall e :: e in r <==> e in es && Truthy(e.value)
    ensures |r| <= |es|
  {
    if es == [] then []
    else (if Truthy(es[0].value) then [es[0]] else []) + ArrayFilter(es[1..])
  }

  /** A lookup in an array that starts with `e` reads `e` or the rest. */
  lemma LookupCons(e: Entry, t: seq<Entry>, k: Key)
    ensures Lookup([e] + t, k) == if e.key == k then Some(e.value) else Lookup(t, k)
  {
    assert ([e] + t)[1..] == t;
  }

  /** `array_filter` keeps exactly the truthy values, each under its own key. */
  lemma {:induction false} ArrayFilterLookup(es: seq<Entry>, k: Key)
    requires UniqueKeys(es)
    ensures Lookup(ArrayFilter(es), k) ==
      if Lookup(es, k).Some? && Truthy(Lookup(es, k).value) then Lookup(es, k) else None
  {
    if es != [] {
      var rest := es[1..];
      TailUnique(es);
      ArrayFilterLookup(rest, k);
      LookupCons(es[0], rest, k);
      assert es == [es[0]] + rest;
      if Truthy(es[0].value) {
        assert ArrayFilter(es) == [es[0]] + ArrayFilter(rest);
        LookupCons(es[0], ArrayFilter(rest), k);
      } else {
        assert ArrayFilter(es) == ArrayFilter(rest);
        if es[0].key == k {
          TailLacksHead(es);
          FilterLacks(rest, k);
        }
      }
    }
  }

  lemma TailUnique(es: seq<Entry>)
    requires es != [] && UniqueKeys(es)
    ensures UniqueKeys(es[1..])
  {
    forall i, j | 0 <= i < j < |es[1..]| ensures es[1..][i].key != es[1..][j].key {
      assert es[1..][i] == es[i + 1] && es[1..][j] == es[j + 1];
    }
  }

  lemma TailLacksHead(es: seq<Entry>)
    requires es != [] && UniqueKeys(es)
    ensures !HasKey(es[1..], es[0].key)
  {
    forall i | 0 <= i < |es[1..]| ensures es[1..][i].key != es[0].key {
      assert es[1..][i] == es[i + 1];
    }
  }

  lemma FilterLacks(es: seq<Entry>, k: Key)
    requires !HasKey(es, k)
    ensures !HasKey(ArrayFilter(es), k)
  {
    forall i | 0 <= i < |ArrayFilter(es)| ensures ArrayFilter(es)[i].key != k {
      assert ArrayFilter(es)[i] in ArrayFilter(es);
    }
  }

  /** A list of values under the keys 0, 1, 2, ...: what `array_values` and a `[...]` literal build. */
  function List(vs: seq<Json>): (r: seq<Entry>)
    ensures |r| == |vs|
    ensures forall i :: 0 <= i < |vs| ==> r[i] == Entry(IntKey(i), vs[i])
  {
    seq(|vs|, i requires 0 <= i < |vs| => Entry(IntKey(i), vs[i]))
  }

  /** The values of an array, in order. */
  function Values(es: seq<Entry>): (vs: seq<Json>)
    ensures |vs| == |es|
    ensures forall i :: 0 <= i < |es| ==> vs[i] == es[i].value
  {
    seq(|es|, i requires 0 <= i < |es| => es[i].value)
  }

  /** Decimal spelling of an integer, as PHP's `(string)` cast writes it. */
  function IntToString(i: int): (s: string)
    ensures |s| > 0
  {
    if i < 0 then "-" + NatToString(-i) else NatToString(i)
  }

  function NatToString(n: nat): (s: string)
    ensures |s| > 0
    ensures forall c :: c in s ==> '0' <= c <= '9'
    decreases n
  {
    var d := ['0' + (n % 10) as char];
    if n < 10 then d else NatToString(n / 10) + d
  }

  /** PHP's `(string)` cast of a scalar; an array casts to "Array". */
  function StringCast(v: Json): string {
    match v
    case Null => ""
    case Bool(b) => if b then "1" else ""
    case Int(i) => IntToString(i)
    case Str(s) => s
    case Arr(_) => "Array"
  }

  /** The string a key compares as in `array_diff_key` and in `ksort` of non-numeric keys. */
  function KeyString(k: Key): string {
    match k
    case IntKey(n) => IntToString(n)
    case StrKey(s) => s
  }

  /** Every array in the value, at any depth, has unique keys. */
  predicate WellFormed(v: Json) {
    match v
    case Arr(es) => UniqueKeys(es) && forall i :: 0 <= i < |es| ==> WellFormed(es[i].value)
    case _ => true
  }

  /** `array_map($f, $a)` with one array: every value mapped under its own key, in
      order. A failing callback stops the map with the first failure. */
  function ArrayMap(es: seq<Entry>, f: Json -> Result<Json>): (r: Result<seq<Entry>>)
    ensures r.Ok? <==> forall i :: 0 <= i < |es| ==> f(es[i].value).Ok?
    ensures r.Ok? ==> |r.value| == |es| &&
                      forall i :: 0 <= i < |es| ==> f(es[i].value).Ok? && r.value[i] == Entry(es[i].key, f(es[i].value).value)
    ensures r.Err? ==> exists i :: (0 <= i < |es| && f(es[i].value) == Err(r.error) &&
                                    forall j :: 0 <= j < i ==> f(es[j].value).Ok?)
  {
    var rs := seq(|es|, i requires 0 <= i < |es| => f(es[i].value));
    assert forall i :: 0 <= i < |es| ==> rs[i] == f(es[i].value);
    CollectCorrect(rs);
    var vs :- Collect(rs);
    Ok(seq(|es|, i requires 0 <= i < |es| => Entry(es[i].key, vs[i])))
  }
}

=== FILE: php_numeric.dfy ===
/** PHP 8 numeric strings, the loose `==` between a string and a scalar, and the
    key a string becomes when it indexes an array.

  A numeric string is optional leading whitespace, an optional sign, a decimal
  integer or decimal fraction (`12`, `1.5`, `1.`, `.5`) with an optional
  exponent (`e3`, `E-2`), and optional trailing whitespace; whitespace is
  " \t\n\r\v\f". PHP 8 compares two numeric strings, or a numeric string and an
  integer, by value, and everything else as text (so `"abc" == 0` is false).

  A number is kept exactly as `mantissa * 10^exponent`. PHP compares as `int`
  when both sides fit and as `double` otherwise, which agrees with the exact
  comparison except beyond double precision or range.
 */
module PhpNumeric {
  import opened Outcomes
  import opened PhpArrays

  predicate IsSpace(c: char) {
    c == ' ' || c == '\t' || c == '\n' || c == '\r' || c == '\U{000B}' || c == '\U{000C}'
  }

  predicate IsDigit(c: char) {
    '0' <= c <= '9'
  }

  predicate AllDigits(s: string) {
    forall i :: 0 <= i < |s| ==> IsDigit(s[i])
  }

  /** The string without its leading whitespace. */
  function DropSpaces(s: string): (r: string)
    ensures |r| <= |s|
    ensures r != [] ==> !IsSpace(r[0])
  {
    if s != [] && IsSpace(s[0]) then DropSpaces(s[1..]) else s
  }

  /** The string without its trailing whitespace. */
  function DropTrailingSpaces(s: string): (r: string)
    ensures |r| <= |s|
    ensures r != [] ==> !IsSpace(r[|r| - 1])
  {
    if s != [] && IsSpace(s[|s| - 1]) then DropTrailingSpaces(s[..|s| - 1]) else s
  }

  /** Length of the run of digits the string starts with. */
  function DigitRun(s: string): (n: nat)
    ensures n <= |s| && AllDigits(s[..n])
    ensures n < |s| ==> !IsDigit(s[n])
  {
    if s != [] && IsDigit(s[0]) then
      var n := 1 + DigitRun(s[1..]);
      assert s[..n] == [s[0]] + s[1..][..n - 1];
      n
    else 0
  }

  /** The value of a string of decimal digits, most significant first. */
  function DigitsValue(d: string): nat
    requires AllDigits(d)
  {
    if d == [] then 0 else 10 * DigitsValue(d[..|d| - 1]) + (d[|d| - 1] as int - '0' as int)
  }

  function Pow10(k: nat): (p: nat)
    ensures p >= 1
  {
    if k == 0 then 1 else 10 * Pow10(k - 1)
  }

  /** The value `mantissa * 10^exponent`. */
  datatype Number = Number(mantissa: int, exponent: int)

  /** Equal values: both sides scaled to the smaller exponent agree. */
  predicate SameNumber(a: Number, b: Number) {
    if a.exponent <= b.exponent then a.mantissa == b.mantissa * Pow10(b.exponent - a.exponent)
    else b.mantissa == a.mantissa * Pow10(a.exponent - b.exponent)
  }

  /** The value of a numeric string, or None when the string is not numeric. */
  function ParseNumeric(s: string): Option<Number> {
    Signed(Trim(s))
  }

  /** The string without its leading and trailing whitespace. */
  function Trim(s: string): (r: string)
    ensures |r| <= |s|
  {
    DropTrailingSpaces(DropSpaces(s))
  }

  /** An optional sign, then an unsigned number. */
  function Signed(t: string): Option<Number> {
    if t != [] && t[0] == '-' then Negated(ParseUnsigned(t[1..]))
    else if t != [] && t[0] == '+' then ParseUnsigned(t[1..])
    else ParseUnsigned(t)
  }

  function Negated(o: Option<Number>): Option<Number> {
    match o
    case Some(n) => Some(Number(-n.mantissa, n.exponent))
    case None => None
  }

  /** An unsigned integer or decimal fraction, then an optional exponent, and nothing else. */
  function ParseUnsigned(s: string): Option<Number> {
    var k := DigitRun(s);
    if k < |s| && s[k] == '.' then
      var frac := s[k + 1..];
      var f := DigitRun(frac);
      if k + f == 0 then None
      else WithExponent(frac[f..], DigitsValue(s[..k]) * Pow10(f) + DigitsValue(frac[..f]), 0 - f)
    else if k == 0 then None
    else WithExponent(s[k..], DigitsValue(s[..k]), 0)
  }

  /** `m * 10^e` when the rest is empty, or `e`/`E`, an optional sign and digits. */
  function WithExponent(s: string, m: int, e: int): Option<Number> {
    if s == [] then Some(Number(m, e))
    else if s[0] != 'e' && s[0] != 'E' then None
    else
      var signed := |s| > 1 && (s[1] == '-' || s[1] == '+');
      var digits := if signed then s[2..] else s[1..];
      if digits == [] || DigitRun(digits) != |digits| then None
      else
        assert digits[..|digits|] == digits;
        var x := DigitsValue(digits);
        Some(Number(m, if signed && s[1] == '-' then e - x else e + x))
  }

  /** PHP 8 `$name == $v` for a string `$name` and a scalar or array `$v`. */
  predicate LooseEqualsString(name: string, v: Json) {
    match v
    case Null => name == ""
    case Bool(b) => Truthy(Str(name)) == b
    case Int(i) =>
      if ParseNumeric(name).Some? then SameNumber(ParseNumeric(name).value, Number(i, 0))
      else IntToString(i) == name
    case Str(s) =>
      if ParseNumeric(name).Some? && ParseNumeric(s).Some? then SameNumber(ParseNumeric(name).value, ParseNumeric(s).value)
      else s == name
    case Arr(_) => false
  }

  // ------------------------------------------------------------------ lemmas

  /** A non-empty string of digits is numeric, with its decimal value. */
  lemma DigitsParse(d: string)
    requires d != [] && AllDigits(d)
    ensures ParseNumeric(d) == Some(Number(DigitsValue(d), 0))
  {
    DigitsUnsigned(d);
    assert IsDigit(d[0]) && IsDigit(d[|d| - 1]);
    Unpadded(d);
    assert Signed(d) == ParseUnsigned(d);
  }

  lemma DigitsUnsigned(d: string)
    requires d != [] && AllDigits(d)
    ensures ParseUnsigned(d) == Some(Number(DigitsValue(d), 0))
  {
    assert d[..|d|] == d;
    assert DigitRun(d) == |d|;
    assert d[|d|..] == [];
  }

  /** The digits `NatToString` writes read back as the same number. */
  lemma {:induction false} NatToStringValue(n: nat)
    ensures AllDigits(NatToString(n)) && DigitsValue(NatToString(n)) == n
    decreases n
  {
    var s := NatToString(n);
    assert forall i :: 0 <= i < |s| ==> s[i] in s;
    if n >= 10 {
      NatToStringValue(n / 10);
      assert s[..|s| - 1] == NatToString(n / 10);
    }
  }

  /** The decimal text of any integer is a numeric string with that value. */
  lemma IntToStringParses(i: int)
    ensures ParseNumeric(IntToString(i)) == Some(Number(i, 0))
  {
    NatToStringValue(if i < 0 then -i else i);
    if i < 0 {
      NegativeParses(NatToString(-i));
    } else {
      DigitsParse(NatToString(i));
    }
  }

  /** A minus sign followed by digits is numeric, with the negated value. */
  lemma NegativeParses(d: string)
    requires d != [] && AllDigits(d)
    ensures ParseNumeric("-" + d) == Some(Number(0 - DigitsValue(d), 0))
  {
    DigitsUnsigned(d);
    assert IsDigit(d[|d| - 1]);
    SignedParse(d, Number(DigitsValue(d), 0));
  }

  /** A minus sign in front of an unsigned number without trailing whitespace negates it. */
  lemma SignedParse(d: string, n: Number)
    requires d != [] && !IsSpace(d[|d| - 1])
    requires ParseUnsigned(d) == Some(n)
    ensures ParseNumeric("-" + d) == Some(Number(-n.mantissa, n.exponent))
  {
    var s := "-" + d;
    assert s[0] == '-' && s[|s| - 1] == d[|d| - 1];
    Unpadded(s);
    MinusSign(s);
    assert s[1..] == d;
  }

  lemma MinusSign(s: string)
    requires s != [] && s[0] == '-'
    ensures Signed(s) == Negated(ParseUnsigned(s[1..]))
  {
  }

  /** Trimming leaves a string alone when it neither starts nor ends with whitespace. */
  lemma Unpadded(s: string)
    requires s != [] && !IsSpace(s[0]) && !IsSpace(s[|s| - 1])
    ensures Trim(s) == s
  {
    assert DropSpaces(s) == s;
  }

  /** An integer equals its own decimal text, and a string of digits with leading
      zeros equals both the integer it spells and that integer's text. */
  lemma DigitsLooseEqual(d: string)
    requires d != [] && AllDigits(d)
    ensures LooseEqualsString(d, Int(DigitsValue(d)))
    ensures LooseEqualsString(d, Str(IntToString(DigitsValue(d))))
  {
    DigitsParse(d);
    IntToStringParses(DigitsValue(d));
  }

  /** PHP 8 never equates a non-numeric string with an integer. */
  lemma NonNumericNeverEqualsInt(name: string, i: int)
    ensures ParseNumeric(name).None? ==> !LooseEqualsString(name, Int(i))
    ensures LooseEqualsString(IntToString(i), Int(i))
  {
    IntToStringParses(i);
    assert Pow10(0) == 1;
  }

  /** Loose equality between two strings does not depend on their order. */
  lemma LooseEqualsSymmetric(a: string, b: string)
    ensures LooseEqualsString(a, Str(b)) <==> LooseEqualsString(b, Str(a))
    ensures LooseEqualsString(a, Str(a))
  {
    if ParseNumeric(a).Some? {
      SameNumberSymmetric(ParseNumeric(a).value, ParseNumeric(a).value);
      if ParseNumeric(b).Some? {
        SameNumberSymmetric(ParseNumeric(a).value, ParseNumeric(b).value);
      }
    }
  }

  lemma SameNumberSymmetric(x: Number, y: Number)
    ensures SameNumber(x, y) <==> SameNumber(y, x)
    ensures SameNumber(x, x)
  {
    assert Pow10(0) == 1;
  }

  /** The inputs that separate loose from textual comparison, on fixed strings. */
  lemma LooseEqualsExamples()
    ensures LooseEqualsString("1", Str("01"))
    ensures LooseEqualsString("01", Int(1))
    ensures !LooseEqualsString("abc", Int(0))
  {
    DigitsLooseEqual("01");
    assert DigitsValue("01") == 1;
    assert IntToString(1) == "1";
    LooseEqualsSymmetric("1", "01");
    NotNumeric("abc");
    NonNumericNeverEqualsInt("abc", 0);
  }

  /** A string starting with a letter is not numeric. */
  lemma NotNumeric(s: string)
    requires s != [] && 'a' <= s[0] <= 'z'
    ensures ParseNumeric(s).None?
  {
    assert DropSpaces(s) == s;
    TrailingKeepsFirst(s);
    NoLeadingDigit(DropTrailingSpaces(s));
  }

  lemma {:induction false} TrailingKeepsFirst(s: string)
    requires s != [] && !IsSpace(s[0])
    ensures DropTrailingSpaces(s) != [] && DropTrailingSpaces(s)[0] == s[0]
    decreases |s|
  {
    if IsSpace(s[|s| - 1]) {
      TrailingKeepsFirst(s[..|s| - 1]);
    }
  }

  lemma NoLeadingDigit(t: string)
    requires t != [] && !IsDigit(t[0]) && t[0] != '.'
    ensures ParseUnsigned(t).None?
  {
    assert DigitRun(t) == 0;
  }

  // ---------------------------------------------------------------- array keys

  const MinLong: int := -0x8000_0000_0000_0000
  const MaxLong: int := 0x7FFF_FFFF_FFFF_FFFF

  /** The integer a string spells in canonical decimal form: no sign other than a
      leading minus, no leading zero, no whitespace, and not "-0". */
  function CanonicalInt(s: string): (r: Option<int>)
    ensures r.Some? ==> IntToString(r.value) == s
  {
    if s != [] && AllDigits(s) && IntToString(DigitsValue(s)) == s then Some(DigitsValue(s))
    else if |s| >= 2 && s[0] == '-' && AllDigits(s[1..]) && IntToString(0 - DigitsValue(s[1..])) == s then
      Some(0 - DigitsValue(s[1..]))
    else None
  }

  /** The key `$a[$s]` uses: a canonical decimal integer within the 64-bit range
      becomes an integer key, any other string stays a string key. */
  function ArrayKey(s: string): (k: Key)
    ensures KeyString(k) == s
    ensures k.IntKey? ==> MinLong <= k.n <= MaxLong
  {
    match CanonicalInt(s)
    case Some(i) => if MinLong <= i <= MaxLong then IntKey(i) else StrKey(s)
    case None => StrKey(s)
  }

  /** The decimal text of a 64-bit integer indexes the array under that integer. */
  lemma ArrayKeyOfInt(i: int)
    requires MinLong <= i <= MaxLong
    ensures ArrayKey(IntToString(i)) == IntKey(i)
  {
    var s := IntToString(i);
    if i < 0 {
      var d := NatToString(-i);
      NatToStringValue(-i);
      assert s[0] == '-' && !IsDigit(s[0]) && s[1..] == d;
    } else {
      NatToStringValue(i);
    }
  }

  /** A string indexes an array under the integer `i` exactly when it is the
      decimal text of `i` and `i` is a 64-bit integer. */
  lemma ArrayKeyIff(s: string, i: int)
    ensures ArrayKey(s) == IntKey(i) <==> IntToString(i) == s && MinLong <= i <= MaxLong
  {
    if IntToString(i) == s && MinLong <= i <= MaxLong {
      ArrayKeyOfInt(i);
    }
  }

  /** On fixed inputs: "1" is the integer key 1, while "01", "+1" and "-0" stay strings. */
  lemma ArrayKeyExamples()
    ensures ArrayKey("1") == IntKey(1)
    ensures ArrayKey("01") == StrKey("01")
    ensures ArrayKey("+1") == StrKey("+1")
    ensures ArrayKey("-0") == StrKey("-0")
  {
    assert IntToString(1) == "1";
    ArrayKeyOfInt(1);
    assert DigitsValue("01") == 1;
    assert !IsDigit("+1"[0]);
    assert "-0"[1..] == "0" && DigitsValue("0") == 0 && IntToString(0) == "0";
  }
}

=== FILE: php_strings.dfy ===
/** The PHP string functions the normalizer calls, restricted to what it needs.

  `strtolower`, `strtoupper`, `lcfirst` and `ucfirst` change ASCII letters only
  (PHP 8.2 made them locale-independent; before, the default "C" locale gave the
  same result). `ksort` compares non-numeric string keys byte by byte; UTF-8
  preserves code-point order, so comparing `char`s gives the same order.
 */
module PhpStrings {

  function LowerChar(c: char): char {
    if 'A' <= c <= 'Z' then (c as int + 32) as char else c
  }

  function UpperChar(c: char): char {
    if 'a' <= c <= 'z' then (c as int - 32) as char else c
  }

  /** `strtolower`. */
  function Lower(s: string): (r: string)
    ensures |r| == |s|
    ensures forall i :: 0 <= i < |s| ==> r[i] == LowerChar(s[i])
  {
    seq(|s|, i requires 0 <= i < |s| => LowerChar(s[i]))
  }

  /** `strtoupper`. */
  function Upper(s: string): (r: string)
    ensures |r| == |s|
    ensures forall i :: 0 <= i < |s| ==> r[i] == UpperChar(s[i])
  {
    seq(|s|, i requires 0 <= i < |s| => UpperChar(s[i]))
  }

  /** `lcfirst`. */
  function LcFirst(s: string): (r: string)
    ensures |r| == |s|
    ensures |s| > 0 ==> r[0] == LowerChar(s[0]) && r[1..] == s[1..]
  {
    if s == [] then s else [LowerChar(s[0])] + s[1..]
  }

  /** `ucfirst`. */
  function UcFirst(s: string): (r: string)
    ensures |r| == |s|
    ensures |s| > 0 ==> r[0] == UpperChar(s[0]) && r[1..] == s[1..]
  {
    if s == [] then s else [UpperChar(s[0])] + s[1..]
  }

  /** `mb_strtolower($s) === 'null'`. The only characters whose Unicode lower case
      is one of `n`, `u`, `l` are those letters and their ASCII capitals. */
  predicate IsNullName(s: string) {
    && |s| == 4
    && s[0] in "nN" && s[1] in "uU" && s[2] in "lL" && s[3] in "lL"
  }

  /** Byte-wise string order: a proper prefix sorts first. */
  predicate LexLess(a: string, b: string) {
    if a == [] then b != []
    else if b == [] then false
    else if a[0] != b[0] then a[0] < b[0]
    else LexLess(a[1..], b[1..])
  }

  lemma {:induction false} LexLessIrreflexive(a: string)
    ensures !LexLess(a, a)
  {
    if a != [] {
      LexLessIrreflexive(a[1..]);
    }
  }

  lemma {:induction false} LexLessTransitive(a: string, b: string, c: string)
    requires LexLess(a, b) && LexLess(b, c)
    ensures LexLess(a, c)
  {
    if a != [] && b != [] && c != [] && a[0] == b[0] == c[0] {
      LexLessTransitive(a[1..], b[1..], c[1..]);
    }
  }

  lemma {:induction false} LexLessTotal(a: string, b: string)
    ensures a == b || LexLess(a, b) || LexLess(b, a)
  {
    if a != [] && b != [] && a[0] == b[0] {
      LexLessTotal(a[1..], b[1..]);
      if a[1..] == b[1..] {
        assert a == [a[0]] + a[1..] && b == [b[0]] + b[1..];
      }
    }
  }

  lemma {:induction false} LexLessAsymmetric(a: string, b: string)
    requires LexLess(a, b)
    ensures !LexLess(b, a)
  {
    if a != [] && b != [] && a[0] == b[0] {
      LexLessAsymmetric(a[1..], b[1..]);
    }
  }
}

=== FILE: property_rename.dfy ===
/** Renaming and converting the entries of `properties` (DocumentationNormalizer.php:418-429).

  The loop runs over a snapshot of the properties. For each name it writes the
  converted schema under `decamilize(name)` (in place if that key exists, else
  appended at the end) and then, when the name changed, unsets the old key.
  `kids[i]` is the conversion of the i-th property schema.
 */
module PropertyRename {
  import opened Outcomes
  import opened PhpArrays

  /** The name is its own decamilized form. */
  predicate Unchanged(snap: seq<Entry>, dec: string -> string, i: int)
    requires 0 <= i < |snap| && snap[i].key.StrKey?
  {
    dec(snap[i].key.s) == snap[i].key.s
  }

  /** The `foreach` at :419-428 from snapshot entry i on, with `cur` the properties so far. */
  function RenameLoop(snap: seq<Entry>, kids: seq<Result<Json>>, dec: string -> string,
                      i: nat, cur: seq<Entry>): Result<seq<Entry>>
    requires |kids| == |snap| && i <= |snap|
    decreases |snap| - i
  {
    if i == |snap| then Ok(cur)
    else match snap[i].key
      case IntKey(_) => Err(IllTyped)   // decamilize takes a string
      case StrKey(name) =>
        var d := dec(name);
        var v :- kids[i];
        var cur' := Set(cur, StrKey(d), v);
        RenameLoop(snap, kids, dec, i + 1, if d == name then cur' else Unset(cur', StrKey(name)))
  }

  /** Every property name is a string and every property schema converted. */
  predicate AllConverted(snap: seq<Entry>, kids: seq<Result<Json>>, from: nat)
    requires |kids| == |snap|
  {
    forall j :: from <= j < |snap| ==> snap[j].key.StrKey? && kids[j].Ok?
  }

  /** The converted properties whose name is unchanged, in their original order. */
  function KeptInPlace(snap: seq<Entry>, kids: seq<Result<Json>>, dec: string -> string, i: nat): seq<Entry>
    requires |kids| == |snap| && i <= |snap| && AllConverted(snap, kids, i)
    decreases |snap| - i
  {
    if i == |snap| then []
    else (if Unchanged(snap, dec, i) then [Entry(snap[i].key, kids[i].value)] else [])
         + KeptInPlace(snap, kids, dec, i + 1)
  }

  /** The converted properties whose name changes, under their new names, in their original order. */
  function Moved(snap: seq<Entry>, kids: seq<Result<Json>>, dec: string -> string, i: nat): seq<Entry>
    requires |kids| == |snap| && i <= |snap| && AllConverted(snap, kids, i)
    decreases |snap| - i
  {
    if i == |snap| then []
    else (if Unchanged(snap, dec, i) then [] else [Entry(StrKey(dec(snap[i].key.s)), kids[i].value)])
         + Moved(snap, kids, dec, i + 1)
  }

  /** No renamed property lands on a key that exists, or on the new name of another one. */
  predicate CollisionFree(snap: seq<Entry>, dec: string -> string, from: nat, keys: seq<Entry>)
    requires forall j :: from <= j < |snap| ==> snap[j].key.StrKey?
  {
    && (forall j :: from <= j < |snap| && !Unchanged(snap, dec, j) ==> !HasKey(keys, StrKey(dec(snap[j].key.s))))
    && (forall j, j' :: from <= j < j' < |snap| && !Unchanged(snap, dec, j) && !Unchanged(snap, dec, j') ==>
          dec(snap[j].key.s) != dec(snap[j'].key.s))
  }

  lemma ConcatShiftLeft<T>(d: seq<T>, x: T, k: seq<T>, a: seq<T>, m: seq<T>)
    ensures d + [x] + k + a + m == d + ([x] + k) + a + m
  {
  }

  lemma ConcatShiftRight<T>(d: seq<T>, k: seq<T>, a: seq<T>, x: T, m: seq<T>)
    ensures d + k + (a + [x]) + m == d + k + a + ([x] + m)
  {
  }

  lemma EmptyWrap<T>(s: seq<T>)
    ensures [] + s[0..] + [] == s
  {
  }

  lemma EmptyEnds<T>(k: seq<T>, m: seq<T>)
    ensures [] + k + [] + m == k + m
  {
  }

  /** Key facts about one unchanged name: it is overwritten where it stands. */
  lemma FixedStep(d: seq<Entry>, e: Entry, m: seq<Entry>, v: Json)
    requires UniqueKeys(d + [e] + m)
    ensures Set(d + [e] + m, e.key, v) == d + [Entry(e.key, v)] + m
    ensures UniqueKeys(d + [Entry(e.key, v)] + m)
    ensures forall k :: HasKey(d + [Entry(e.key, v)] + m, k) <==> HasKey(d + [e] + m, k)
  {
    SetExisting(d, e, m, v);
  }

  /** Key facts about one renamed property: the new key goes to the end, the old one goes. */
  lemma MovedStep(d: seq<Entry>, e: Entry, m: seq<Entry>, ne: Entry)
    requires UniqueKeys(d + [e] + m)
    requires !HasKey(d + [e] + m, ne.key)
    ensures Unset(Set(d + [e] + m, ne.key, ne.value), e.key) == d + m + [ne]
    ensures UniqueKeys(d + m + [ne])
    ensures forall k :: HasKey(d + m + [ne], k) ==> HasKey(d + [e] + m, k) || k == ne.key
  {
    MovedUnset(d, e, m, ne);
    MovedUnique(d, e, m, ne);
    MovedKeys(d, e, m, ne);
  }

  lemma MovedUnset(d: seq<Entry>, e: Entry, m: seq<Entry>, ne: Entry)
    requires UniqueKeys(d + [e] + m)
    requires !HasKey(d + [e] + m, ne.key)
    ensures Unset(Set(d + [e] + m, ne.key, ne.value), e.key) == d + m + [ne]
  {
    var cur := d + [e] + m;
    assert Set(cur, ne.key, ne.value) == cur + [ne];
    assert cur + [ne] == d + [e] + (m + [ne]);
    assert !HasKey(d, e.key) by {
      forall x | 0 <= x < |d| ensures d[x].key != e.key {
        assert cur[x] == d[x] && cur[|d|] == e;
      }
    }
    assert !HasKey(m + [ne], e.key) by {
      forall x | 0 <= x < |m + [ne]| ensures (m + [ne])[x].key != e.key {
        if x < |m| {
          assert cur[|d| + 1 + x] == m[x] && cur[|d|] == e;
        } else {
          assert cur[|d|] == e;
        }
      }
    }
    UnsetSingle(d, e, m + [ne]);
  }

  lemma MovedUnique(d: seq<Entry>, e: Entry, m: seq<Entry>, ne: Entry)
    requires UniqueKeys(d + [e] + m)
    requires !HasKey(d + [e] + m, ne.key)
    ensures UniqueKeys(d + m + [ne])
  {
    var cur := d + [e] + m;
    var r := d + m + [ne];
    // index x of r sits at index x' of cur + [ne]
    forall x, y | 0 <= x < y < |r| ensures r[x].key != r[y].key {
      var x' := if x < |d| then x else x + 1;
      var y' := if y < |d| then y else y + 1;
      assert r[x] == (cur + [ne])[x'] && r[y] == (cur + [ne])[y'];
      if y' == |cur| {
        assert cur[x'].key != ne.key;
      }
    }
  }

  lemma MovedKeys(d: seq<Entry>, e: Entry, m: seq<Entry>, ne: Entry)
    ensures forall k :: HasKey(d + m + [ne], k) ==> HasKey(d + [e] + m, k) || k == ne.key
  {
    var cur := d + [e] + m;
    var r := d + m + [ne];
    forall k | HasKey(r, k) ensures HasKey(cur, k) || k == ne.key {
      var x :| 0 <= x < |r| && r[x].key == k;
      var x' := if x < |d| then x else x + 1;
      assert r[x] == (cur + [ne])[x'];
      if x' < |cur| {
        assert cur[x'].key == k;
      }
    }
  }

  /** The exact outcome when nothing collides: the unchanged names keep their
      places, every renamed property moves to the end under its new name, and
      every value is the converted schema. Entries before the snapshot position
      (`d`) and appended after it (`a`) are the ones already processed. */
  lemma {:induction false} RenameLoopShape(snap: seq<Entry>, kids: seq<Result<Json>>, dec: string -> string,
                                           i: nat, d: seq<Entry>, a: seq<Entry>)
    requires |kids| == |snap| && i <= |snap| && AllConverted(snap, kids, i)
    requires UniqueKeys(d + snap[i..] + a)
    requires CollisionFree(snap, dec, i, d + snap[i..] + a)
    ensures RenameLoop(snap, kids, dec, i, d + snap[i..] + a)
         == Ok(d + KeptInPlace(snap, kids, dec, i) + a + Moved(snap, kids, dec, i))
    decreases |snap| - i, 1
  {
    if i == |snap| {
      assert snap[i..] == [];
      assert d + snap[i..] + a == d + [] + a + [];
    } else if Unchanged(snap, dec, i) {
      ShapeKeepStep(snap, kids, dec, i, d, a);
    } else {
      ShapeMoveStep(snap, kids, dec, i, d, a);
    }
  }

  lemma {:induction false} ShapeKeepStep(snap: seq<Entry>, kids: seq<Result<Json>>, dec: string -> string,
                                         i: nat, d: seq<Entry>, a: seq<Entry>)
    requires |kids| == |snap| && i < |snap| && AllConverted(snap, kids, i)
    requires Unchanged(snap, dec, i)
    requires UniqueKeys(d + snap[i..] + a)
    requires CollisionFree(snap, dec, i, d + snap[i..] + a)
    ensures RenameLoop(snap, kids, dec, i, d + snap[i..] + a)
         == Ok(d + KeptInPlace(snap, kids, dec, i) + a + Moved(snap, kids, dec, i))
    decreases |snap| - i, 0
  {
    var e := snap[i];
    var v := kids[i].value;
    var m := snap[i + 1..] + a;
    assert snap[i..] == [e] + snap[i + 1..];
    assert d + snap[i..] + a == d + [e] + m;
    var d' := d + [Entry(e.key, v)];
    FixedStep(d, e, m, v);
    assert d' + snap[i + 1..] + a == d + [Entry(e.key, v)] + m;
    assert RenameLoop(snap, kids, dec, i, d + snap[i..] + a) == RenameLoop(snap, kids, dec, i + 1, d' + snap[i + 1..] + a);
    RenameLoopShape(snap, kids, dec, i + 1, d', a);
    assert KeptInPlace(snap, kids, dec, i) == [Entry(e.key, v)] + KeptInPlace(snap, kids, dec, i + 1);
    assert Moved(snap, kids, dec, i) == Moved(snap, kids, dec, i + 1);
    ConcatShiftLeft(d, Entry(e.key, v), KeptInPlace(snap, kids, dec, i + 1), a, Moved(snap, kids, dec, i + 1));
  }

  lemma {:induction false} ShapeMoveStep(snap: seq<Entry>, kids: seq<Result<Json>>, dec: string -> string,
                                         i: nat, d: seq<Entry>, a: seq<Entry>)
    requires |kids| == |snap| && i < |snap| && AllConverted(snap, kids, i)
    requires !Unchanged(snap, dec, i)
    requires UniqueKeys(d + snap[i..] + a)
    requires CollisionFree(snap, dec, i, d + snap[i..] + a)
    ensures RenameLoop(snap, kids, dec, i, d + snap[i..] + a)
         == Ok(d + KeptInPlace(snap, kids, dec, i) + a + Moved(snap, kids, dec, i))
    decreases |snap| - i, 0
  {
    var cur := d + snap[i..] + a;
    var ne := Entry(StrKey(dec(snap[i].key.s)), kids[i].value);
    assert !HasKey(cur, ne.key);
    var next := d + snap[i + 1..] + (a + [ne]);
    MoveUnfold(snap, kids, dec, i, d, a, ne);
    MoveKeepsCollisionFree(snap, dec, i, cur, next, ne.key);
    RenameLoopShape(snap, kids, dec, i + 1, d, a + [ne]);
    MoveConclude(snap, kids, dec, i, d, a, ne);
  }

  /** One renaming step on the shaped properties: the new entry goes to the end. */
  lemma MoveUnfold(snap: seq<Entry>, kids: seq<Result<Json>>, dec: string -> string,
                   i: nat, d: seq<Entry>, a: seq<Entry>, ne: Entry)
    requires |kids| == |snap| && i < |snap| && snap[i].key.StrKey? && kids[i].Ok?
    requires !Unchanged(snap, dec, i) && ne == Entry(StrKey(dec(snap[i].key.s)), kids[i].value)
    requires UniqueKeys(d + snap[i..] + a) && !HasKey(d + snap[i..] + a, ne.key)
    ensures RenameLoop(snap, kids, dec, i, d + snap[i..] + a) == RenameLoop(snap, kids, dec, i + 1, d + snap[i + 1..] + (a + [ne]))
    ensures UniqueKeys(d + snap[i + 1..] + (a + [ne]))
    ensures forall k :: HasKey(d + snap[i + 1..] + (a + [ne]), k) ==> HasKey(d + snap[i..] + a, k) || k == ne.key
  {
    var e := snap[i];
    var m := snap[i + 1..] + a;
    assert snap[i..] == [e] + snap[i + 1..];
    assert d + snap[i..] + a == d + [e] + m;
    MovedStep(d, e, m, ne);
    assert d + snap[i + 1..] + (a + [ne]) == d + m + [ne];
    RenameStep(snap, kids, dec, i, d + snap[i..] + a);
  }

  /** The loop body at a renamed name: write the new key, then unset the old one. */
  lemma RenameStep(snap: seq<Entry>, kids: seq<Result<Json>>, dec: string -> string, i: nat, cur: seq<Entry>)
    requires |kids| == |snap| && i < |snap| && snap[i].key.StrKey? && kids[i].Ok?
    requires !Unchanged(snap, dec, i)
    ensures RenameLoop(snap, kids, dec, i, cur)
         == RenameLoop(snap, kids, dec, i + 1, Unset(Set(cur, StrKey(dec(snap[i].key.s)), kids[i].value), snap[i].key))
  {
  }

  lemma MoveConclude(snap: seq<Entry>, kids: seq<Result<Json>>, dec: string -> string, i: nat, d: seq<Entry>, a: seq<Entry>, ne: Entry)
    requires |kids| == |snap| && i < |snap| && AllConverted(snap, kids, i)
    requires !Unchanged(snap, dec, i) && ne == Entry(StrKey(dec(snap[i].key.s)), kids[i].value)
    requires RenameLoop(snap, kids, dec, i, d + snap[i..] + a) == RenameLoop(snap, kids, dec, i + 1, d + snap[i + 1..] + (a + [ne]))
    requires RenameLoop(snap, kids, dec, i + 1, d + snap[i + 1..] + (a + [ne]))
          == Ok(d + KeptInPlace(snap, kids, dec, i + 1) + (a + [ne]) + Moved(snap, kids, dec, i + 1))
    ensures RenameLoop(snap, kids, dec, i, d + snap[i..] + a)
         == Ok(d + KeptInPlace(snap, kids, dec, i) + a + Moved(snap, kids, dec, i))
  {
    var k', m' := KeptInPlace(snap, kids, dec, i + 1), Moved(snap, kids, dec, i + 1);
    assert KeptInPlace(snap, kids, dec, i) == k';
    assert Moved(snap, kids, dec, i) == [ne] + m';
    ConcatShiftRight(d, k', a, ne, m');
  }

  lemma MoveKeepsCollisionFree(snap: seq<Entry>, dec: string -> string, i: nat, cur: seq<Entry>, next: seq<Entry>, nk: Key)
    requires i < |snap| && forall j :: i <= j < |snap| ==> snap[j].key.StrKey?
    requires !Unchanged(snap, dec, i) && nk == StrKey(dec(snap[i].key.s))
    requires CollisionFree(snap, dec, i, cur)
    requires forall k :: HasKey(next, k) ==> HasKey(cur, k) || k == nk
    ensures CollisionFree(snap, dec, i + 1, next)
  {
    forall j | i + 1 <= j < |snap| && !Unchanged(snap, dec, j)
      ensures !HasKey(next, StrKey(dec(snap[j].key.s)))
    {
      assert !HasKey(cur, StrKey(dec(snap[j].key.s)));
    }
  }

  /** convertSchema's handling of `properties`: the loop over a snapshot of the array itself. */
  function RenameProperties(ps: seq<Entry>, kids: seq<Result<Json>>, dec: string -> string): Result<seq<Entry>>
    requires |kids| == |ps|
  {
    RenameLoop(ps, kids, dec, 0, ps)
  }

  /** Entry `e` is property j written under its decamilized name with its converted schema. */
  predicate FromProperty(snap: seq<Entry>, kids: seq<Result<Json>>, dec: string -> string, e: Entry, j: int)
    requires |kids| == |snap|
  {
    0 <= j < |snap| && snap[j].key.StrKey? && kids[j].Ok?
    && e == Entry(StrKey(dec(snap[j].key.s)), kids[j].value)
  }

  /** The loop fails exactly when some remaining name is an integer or some remaining
      schema fails to convert. */
  lemma {:induction false} RenameLoopFails(snap: seq<Entry>, kids: seq<Result<Json>>, dec: string -> string,
                                           i: nat, cur: seq<Entry>)
    requires |kids| == |snap| && i <= |snap|
    ensures RenameLoop(snap, kids, dec, i, cur).Err? <==> !AllConverted(snap, kids, i)
    decreases |snap| - i
  {
    if i < |snap| && snap[i].key.StrKey? && kids[i].Ok? {
      var name := snap[i].key.s;
      var cur' := Set(cur, StrKey(dec(name)), kids[i].value);
      RenameLoopFails(snap, kids, dec, i + 1, if dec(name) == name then cur' else Unset(cur', StrKey(name)));
    }
  }

  /** The loop invariant of `RenameLoopEntries`: before step i every entry is a
      processed property or an untouched one from position i on. */
  ghost predicate EntriesSoFar(snap: seq<Entry>, kids: seq<Result<Json>>, dec: string -> string, i: nat, cur: seq<Entry>)
    requires |kids| == |snap|
  {
    forall e :: e in cur ==>
      (exists j :: 0 <= j < i && FromProperty(snap, kids, dec, e, j)) || (exists j :: i <= j < |snap| && e == snap[j])
  }

  lemma EntriesStep(snap: seq<Entry>, kids: seq<Result<Json>>, dec: string -> string, i: nat, cur: seq<Entry>)
    requires |kids| == |snap| && i < |snap| && UniqueKeys(cur) && EntriesSoFar(snap, kids, dec, i, cur)
    requires snap[i].key.StrKey? && kids[i].Ok?
    ensures var name := snap[i].key.s;
      var cur' := Set(cur, StrKey(dec(name)), kids[i].value);
      EntriesSoFar(snap, kids, dec, i + 1, if dec(name) == name then cur' else Unset(cur', StrKey(name)))
  {
    var name := snap[i].key.s;
    var d := dec(name);
    var v := kids[i].value;
    var cur' := Set(cur, StrKey(d), v);
    var next := if d == name then cur' else Unset(cur', StrKey(name));
    SetEntries(cur, StrKey(d), v);
    forall e | e in next
      ensures (exists j :: 0 <= j < i + 1 && FromProperty(snap, kids, dec, e, j))
           || (exists j :: i + 1 <= j < |snap| && e == snap[j])
    {
      assert e in cur';
      if e == Entry(StrKey(d), v) {
        assert FromProperty(snap, kids, dec, e, i);
      } else {
        assert e in cur && e.key != StrKey(d);
        if d != name {
          assert !HasKey(next, StrKey(name));
          var x :| 0 <= x < |next| && next[x] == e;
          assert e.key != StrKey(name);
        }
        if exists j :: i <= j < |snap| && e == snap[j] {
          var j :| i <= j < |snap| && e == snap[j];
          assert j != i;
        }
      }
    }
  }

  /** Whatever collides, every property that comes out is some input property under
      its decamilized name, holding that property's converted schema. */
  lemma {:induction false} RenameLoopEntries(snap: seq<Entry>, kids: seq<Result<Json>>, dec: string -> string,
                                             i: nat, cur: seq<Entry>)
    requires |kids| == |snap| && i <= |snap| && UniqueKeys(cur)
    requires EntriesSoFar(snap, kids, dec, i, cur)
    ensures RenameLoop(snap, kids, dec, i, cur).Ok? ==>
      forall e :: e in RenameLoop(snap, kids, dec, i, cur).value ==> exists j :: FromProperty(snap, kids, dec, e, j)
    decreases |snap| - i
  {
    if i < |snap| && snap[i].key.StrKey? && kids[i].Ok? {
      var name := snap[i].key.s;
      var cur' := Set(cur, StrKey(dec(name)), kids[i].value);
      EntriesStep(snap, kids, dec, i, cur);
      RenameLoopEntries(snap, kids, dec, i + 1, if dec(name) == name then cur' else Unset(cur', StrKey(name)));
    }
  }

  /** `properties` conversion fails exactly when a property name is an integer or a
      property schema fails to convert. */
  lemma RenamePropertiesFails(ps: seq<Entry>, kids: seq<Result<Json>>, dec: string -> string)
    requires |kids| == |ps|
    ensures RenameProperties(ps, kids, dec).Err? <==> !AllConverted(ps, kids, 0)
  {
    RenameLoopFails(ps, kids, dec, 0, ps);
  }

  /** The loop keeps the keys of the properties distinct. */
  lemma {:induction false} RenameLoopUnique(snap: seq<Entry>, kids: seq<Result<Json>>, dec: string -> string,
                                            i: nat, cur: seq<Entry>)
    requires |kids| == |snap| && i <= |snap| && UniqueKeys(cur)
    ensures RenameLoop(snap, kids, dec, i, cur).Ok? ==> UniqueKeys(RenameLoop(snap, kids, dec, i, cur).value)
    decreases |snap| - i
  {
    if i < |snap| && snap[i].key.StrKey? && kids[i].Ok? {
      var name := snap[i].key.s;
      var cur' := Set(cur, StrKey(dec(name)), kids[i].value);
      RenameLoopUnique(snap, kids, dec, i + 1, if dec(name) == name then cur' else Unset(cur', StrKey(name)));
    }
  }

  /** Every converted property is an input property under its decamilized name, and
      no two share a name. */
  lemma RenamePropertiesEntries(ps: seq<Entry>, kids: seq<Result<Json>>, dec: string -> string)
    requires |kids| == |ps| && UniqueKeys(ps)
    ensures RenameProperties(ps, kids, dec).Ok? ==>
      forall e :: e in RenameProperties(ps, kids, dec).value ==> exists j :: FromProperty(ps, kids, dec, e, j)
    ensures RenameProperties(ps, kids, dec).Ok? ==> UniqueKeys(RenameProperties(ps, kids, dec).value)
  {
    RenameLoopUnique(ps, kids, dec, 0, ps);
    assert EntriesSoFar(ps, kids, dec, 0, ps) by {
      forall e | e in ps ensures exists j :: 0 <= j < |ps| && e == ps[j] {
        var j :| 0 <= j < |ps| && ps[j] == e;
      }
    }
    RenameLoopEntries(ps, kids, dec, 0, ps);
  }

  /** Without collisions: kept names in place, renamed ones appended in order. */
  lemma RenamePropertiesShape(ps: seq<Entry>, kids: seq<Result<Json>>, dec: string -> string)
    requires |kids| == |ps| && UniqueKeys(ps) && AllConverted(ps, kids, 0) && CollisionFree(ps, dec, 0, ps)
    ensures RenameProperties(ps, kids, dec) == Ok(KeptInPlace(ps, kids, dec, 0) + Moved(ps, kids, dec, 0))
  {
    var e: seq<Entry> := [];
    EmptyWrap(ps);
    RenameLoopShape(ps, kids, dec, 0, e, e);
    EmptyEnds(KeptInPlace(ps, kids, dec, 0), Moved(ps, kids, dec, 0));
  }

  /** When every name is already in decamilized form, each property keeps its key
      and its place and only its schema is converted. */
  lemma {:induction false} KeptInPlaceAll(ps: seq<Entry>, kids: seq<Result<Json>>, dec: string -> string, i: nat)
    requires |kids| == |ps| && i <= |ps| && AllConverted(ps, kids, i)
    requires forall j :: i <= j < |ps| ==> Unchanged(ps, dec, j)
    ensures KeptInPlace(ps, kids, dec, i) == seq(|ps| - i, j requires 0 <= j < |ps| - i => Entry(ps[i + j].key, kids[i + j].value))
    ensures Moved(ps, kids, dec, i) == []
    decreases |ps| - i
  {
    if i < |ps| {
      KeptInPlaceAll(ps, kids, dec, i + 1);
      var t := seq(|ps| - (i + 1), j requires 0 <= j < |ps| - (i + 1) => Entry(ps[i + 1 + j].key, kids[i + 1 + j].value));
      assert KeptInPlace(ps, kids, dec, i) == [Entry(ps[i].key, kids[i].value)] + t;
      SeqShift(ps, kids, i, t);
    }
  }

  lemma SeqShift(ps: seq<Entry>, kids: seq<Result<Json>>, i: nat, t: seq<Entry>)
    requires |kids| == |ps| && i < |ps| && kids[i].Ok?
    requires forall j :: i <= j < |ps| ==> kids[j].Ok?
    requires t == seq(|ps| - (i + 1), j requires 0 <= j < |ps| - (i + 1) => Entry(ps[i + 1 + j].key, kids[i + 1 + j].value))
    ensures [Entry(ps[i].key, kids[i].value)] + t
         == seq(|ps| - i, j requires 0 <= j < |ps| - i => Entry(ps[i + j].key, kids[i + j].value))
  {
  }

  lemma RenamePropertiesIdentityNames(ps: seq<Entry>, kids: seq<Result<Json>>, dec: string -> string)
    requires |kids| == |ps| && AllConverted(ps, kids, 0) && UniqueKeys(ps)
    requires forall j :: 0 <= j < |ps| ==> Unchanged(ps, dec, j)
    ensures RenameProperties(ps, kids, dec).Ok?
    ensures var out := RenameProperties(ps, kids, dec).value;
      |out| == |ps| && forall j :: 0 <= j < |ps| ==> out[j] == Entry(ps[j].key, kids[j].value)
  {
    assert CollisionFree(ps, dec, 0, ps);
    RenamePropertiesShape(ps, kids, dec);
    KeptInPlaceAll(ps, kids, dec, 0);
    assert KeptInPlace(ps, kids, dec, 0) + [] == KeptInPlace(ps, kids, dec, 0);
  }
}

=== FILE: ref_rewrite.dfy ===
/** Rewriting of `$ref` pointers (DocumentationNormalizer.php:448-450).

  `str_replace('definitions', 'components/schemas', $ref)` scans left to right
  and replaces every non-overlapping occurrence, not just a leading
  `#/definitions/` prefix.
 */
module RefRewrite {

  const Definitions: string := "definitions"
  const ComponentsSchemas: string := "components/schemas"

  predicate StartsWith(s: string, p: string) {
    |p| <= |s| && s[..|p|] == p
  }

  /** `p` occurs in `s` starting at index `i`. */
  predicate OccursAt(p: string, s: string, i: int) {
    0 <= i <= |s| - |p| && s[i..i + |p|] == p
  }

  /** `p` occurs somewhere in `s`. */
  predicate Occurs(p: string, s: string) {
    exists i :: 0 <= i <= |s| && OccursAt(p, s, i)
  }

  /** An occurrence at or after `k` is an occurrence in the suffix from `k`, and back. */
  lemma OccursInSuffix(p: string, s: string, k: nat, i: int)
    requires k <= |s| && k <= i
    ensures OccursAt(p, s, i) <==> OccursAt(p, s[k..], i - k)
  {
    if 0 <= i <= |s| - |p| {
      assert s[k..][i - k..i - k + |p|] == s[i..i + |p|];
    }
  }

  /** `str_replace('definitions', 'components/schemas', s)`. */
  function RewriteRef(s: string): string
    decreases |s|
  {
    if StartsWith(s, Definitions) then ComponentsSchemas + RewriteRef(s[|Definitions|..])
    else if s == [] then []
    else [s[0]] + RewriteRef(s[1..])
  }

  /** Every occurrence is replaced, wherever it stands: the rewrite distributes
      over an occurrence of `definitions` in the middle of the string. */
  lemma {:induction false} RewriteSplitsAtOccurrence(a: string, b: string)
    ensures RewriteRef(a + Definitions + b) == RewriteRef(a) + ComponentsSchemas + RewriteRef(b)
    decreases |a|
  {
    if a == [] {
      SplitEmpty(b);
    } else if StartsWith(a, Definitions) {
      RewriteSplitsAtOccurrence(a[|Definitions|..], b);
      SplitLead(a, b);
    } else {
      RewriteSplitsAtOccurrence(a[1..], b);
      SplitPlain(a, b);
    }
  }

  lemma SplitEmpty(b: string)
    ensures RewriteRef([] + Definitions + b) == RewriteRef([]) + ComponentsSchemas + RewriteRef(b)
  {
    assert [] + Definitions + b == Definitions + b;
    RewriteLead(b);
  }

  lemma SplitLead(a: string, b: string)
    requires StartsWith(a, Definitions)
    requires RewriteRef(a[|Definitions|..] + Definitions + b)
          == RewriteRef(a[|Definitions|..]) + ComponentsSchemas + RewriteRef(b)
    ensures RewriteRef(a + Definitions + b) == RewriteRef(a) + ComponentsSchemas + RewriteRef(b)
  {
    var a' := a[|Definitions|..];
    assert a == Definitions + a';
    Regroup(Definitions, a', Definitions, b);
    RewriteLead(a' + Definitions + b);
    RewriteLead(a');
    Regroup(ComponentsSchemas, RewriteRef(a'), ComponentsSchemas, RewriteRef(b));
  }

  lemma SplitPlain(a: string, b: string)
    requires a != [] && !StartsWith(a, Definitions)
    requires RewriteRef(a[1..] + Definitions + b) == RewriteRef(a[1..]) + ComponentsSchemas + RewriteRef(b)
    ensures RewriteRef(a + Definitions + b) == RewriteRef(a) + ComponentsSchemas + RewriteRef(b)
  {
    NoLeadInMiddle(a, b);
    assert a == [a[0]] + a[1..];
    Regroup([a[0]], a[1..], Definitions, b);
    RewritePlain(a[0], a[1..] + Definitions + b);
    RewritePlain(a[0], a[1..]);
    Regroup([a[0]], RewriteRef(a[1..]), ComponentsSchemas, RewriteRef(b));
  }

  lemma Regroup<T>(p: seq<T>, q: seq<T>, r: seq<T>, t: seq<T>)
    ensures p + (q + r + t) == p + q + r + t
  {
  }

  /** A leading `definitions` is replaced and the rest rewritten. */
  lemma RewriteLead(b: string)
    ensures RewriteRef(Definitions + b) == ComponentsSchemas + RewriteRef(b)
  {
    var s := Definitions + b;
    assert s[..|Definitions|] == Definitions;
    assert s[|Definitions|..] == b;
  }

  /** A character that does not start `definitions` is copied and the rest rewritten. */
  lemma RewritePlain(x: char, rest: string)
    requires !StartsWith([x] + rest, Definitions)
    ensures RewriteRef([x] + rest) == [x] + RewriteRef(rest)
  {
    assert ([x] + rest)[1..] == rest;
  }

  /** A string that does not start with `definitions` does not start with it
      once `definitions` is put after it either. */
  lemma NoLeadInMiddle(a: string, b: string)
    requires a != [] && !StartsWith(a, Definitions)
    ensures !StartsWith(a + Definitions + b, Definitions)
  {
    var s := a + Definitions + b;
    if |a| < |Definitions| {
      assert s[|a|] == 'd';
      assert Definitions[|a|] != 'd';
    } else {
      assert s[..|Definitions|] == a[..|Definitions|];
    }
  }

  /** A string without `definitions` is left alone. */
  lemma {:induction false} RewriteIdentity(s: string)
    requires !Occurs(Definitions, s)
    ensures RewriteRef(s) == s
    decreases |s|
  {
    assert !OccursAt(Definitions, s, 0);
    assert !StartsWith(s, Definitions);
    if s != [] {
      forall i | 0 <= i <= |s[1..]|
        ensures !OccursAt(Definitions, s[1..], i)
      {
        OccursInSuffix(Definitions, s, 1, i + 1);
        assert !OccursAt(Definitions, s, i + 1);
      }
      RewriteIdentity(s[1..]);
    }
  }

  /** A prefix free of `c` of a rewritten string is already a prefix of the original:
      every replacement starts with `c`. */
  lemma {:induction false} PrefixWithoutC(t: string, q: string)
    requires 'c' !in q
    ensures StartsWith(RewriteRef(t), q) ==> StartsWith(t, q)
    decreases |t|
  {
    if q != [] && !StartsWith(t, Definitions) && t != [] {
      var r := RewriteRef(t[1..]);
      assert RewriteRef(t) == [t[0]] + r;
      assert forall x :: x in q[1..] ==> x in q;
      PrefixWithoutC(t[1..], q[1..]);
      ConsStartsWith(t[0], r, q);
      assert t == [t[0]] + t[1..];
      ConsStartsWith(t[0], t[1..], q);
    } else if q != [] && StartsWith(t, Definitions) {
      assert RewriteRef(t)[0] == 'c';
    }
  }

  /** A string that starts with `x` starts with `q` when `q` starts with `x` and goes on like the rest. */
  lemma ConsStartsWith(x: char, r: string, q: string)
    requires q != []
    ensures StartsWith([x] + r, q) <==> q[0] == x && StartsWith(r, q[1..])
  {
    if |q| <= |r| + 1 {
      assert ([x] + r)[..|q|] == [x] + r[..|q| - 1];
      assert q == [q[0]] + q[1..];
    }
  }

  /** After the rewrite no `definitions` is left. */
  lemma {:induction false} RewriteRemovesAll(s: string)
    ensures !Occurs(Definitions, RewriteRef(s))
    decreases |s|
  {
    var n := |Definitions|;
    if StartsWith(s, Definitions) {
      var rest := RewriteRef(s[n..]);
      RewriteRemovesAll(s[n..]);
      var r := ComponentsSchemas + rest;
      assert RewriteRef(s) == r;
      forall i | 0 <= i <= |r|
        ensures !OccursAt(Definitions, r, i)
      {
        if i < |ComponentsSchemas| {
          if i <= |r| - n {
            assert r[i..i + n][0] == ComponentsSchemas[i];
            assert 'd' !in ComponentsSchemas;
          }
        } else {
          OccursInSuffix(Definitions, r, |ComponentsSchemas|, i);
          assert r[|ComponentsSchemas|..] == rest;
        }
      }
    } else if s != [] {
      var rest := RewriteRef(s[1..]);
      RewriteRemovesAll(s[1..]);
      var r := [s[0]] + rest;
      assert RewriteRef(s) == r;
      forall i | 0 <= i <= |r|
        ensures !OccursAt(Definitions, r, i)
      {
        if i == 0 {
          var tail := Definitions[1..];
          assert 'c' !in tail;
          PrefixWithoutC(s[1..], tail);
          assert StartsWith(r, Definitions) ==> StartsWith(rest, tail) by {
            assert StartsWith(r, Definitions) ==> rest[..|tail|] == r[..n][1..];
          }
          assert StartsWith(s[1..], tail) ==> s[..n] == [s[0]] + s[1..][..|tail|];
        } else {
          OccursInSuffix(Definitions, r, 1, i);
          assert r[1..] == rest;
        }
      }
    }
  }

  /** Rewriting a rewritten pointer changes nothing. */
  lemma RewriteIdempotent(s: string)
    ensures RewriteRef(RewriteRef(s)) == RewriteRef(s)
  {
    RewriteRemovesAll(s);
    RewriteIdentity(RewriteRef(s));
  }

  /** The usual pointer `#/definitions/X` becomes `#/components/schemas/X`. */
  lemma RewriteDefinitionPointer(name: string)
    requires !Occurs(Definitions, name)
    ensures RewriteRef("#/" + Definitions + "/" + name) == "#/" + ComponentsSchemas + "/" + name
  {
    var tail := "/" + name;
    assert "#/" + Definitions + "/" + name == "#/" + Definitions + tail;
    RewriteSplitsAtOccurrence("#/", tail);
    RewriteIdentity("#/");
    forall i | 0 <= i <= |tail|
      ensures !OccursAt(Definitions, tail, i)
    {
      if i > 0 {
        OccursInSuffix(Definitions, tail, 1, i);
        assert tail[1..] == name;
        assert !OccursAt(Definitions, name, i - 1);
      } else if |Definitions| <= |tail| {
        assert tail[0..|Definitions|][0] == '/';
      }
    }
    RewriteIdentity(tail);
  }
}

=== FILE: schema_stages.dfy ===
/** The stages of convertSchema after the type collapse
    (DocumentationNormalizer.php:418-468).

  Each stage rewrites one key of the schema and leaves every other key as it
  was. The stages that recurse (`properties`, `oneOf`, `items`) receive the
  conversions of the child schemas as arguments; `Convert` computes them.
 */
module SchemaStages {
  import opened Outcomes
  import opened PhpArrays
  import opened RefRewrite
  import opened Vocabulary
  import opened PropertyRename

  /** The entries of the array stored under `k`, or none when `k` holds no array. */
  function Children(es: seq<Entry>, k: Key): (r: seq<Entry>)
    ensures r != [] ==> Lookup(es, k) == Some(Arr(r))
  {
    match Lookup(es, k)
    case Some(Arr(cs)) => cs
    case _ => []
  }

  /** `isset($a[$k]) && is_array($a[$k])`. */
  predicate HoldsArray(es: seq<Entry>, k: Key) {
    Lookup(es, k).Some? && Lookup(es, k).value.Arr?
  }

  // ---------------------------------------------------------------- properties

  /** :418-429: convert every property schema and decamilize its name. */
  function ConvertProperties(es: seq<Entry>, kids: seq<Result<Json>>, dec: string -> string): (r: Result<seq<Entry>>)
    requires |kids| == |Children(es, PropertiesKey)|
    ensures r.Ok? ==> forall k :: k != PropertiesKey ==> Lookup(r.value, k) == Lookup(es, k)
    ensures r.Ok? && UniqueKeys(es) ==> UniqueKeys(r.value)
    ensures !HoldsArray(es, PropertiesKey) ==> r == Ok(es)
  {
    match Lookup(es, PropertiesKey)
    case Some(Arr(ps)) =>
      var ps' :- RenameProperties(ps, kids, dec);
      Ok(Set(es, PropertiesKey, Arr(ps')))
    case _ => Ok(es)
  }

  /** The stage fails exactly when the rename loop does, and otherwise stores its result. */
  lemma ConvertPropertiesCorrect(es: seq<Entry>, kids: seq<Result<Json>>, dec: string -> string)
    requires HoldsArray(es, PropertiesKey) && |kids| == |Children(es, PropertiesKey)|
    ensures var ps := Lookup(es, PropertiesKey).value.entries;
      && (ConvertProperties(es, kids, dec).Err? <==> !AllConverted(ps, kids, 0))
      && (ConvertProperties(es, kids, dec).Ok? ==>
            Lookup(ConvertProperties(es, kids, dec).value, PropertiesKey) == Some(Arr(RenameProperties(ps, kids, dec).value)))
  {
    var ps := Lookup(es, PropertiesKey).value.entries;
    RenamePropertiesFails(ps, kids, dec);
  }

  // --------------------------------------------------------------------- oneOf

  /** Every alternative from `from` on converted without error. */
  predicate AllOk(kids: seq<Result<Json>>, from: nat) {
    forall j :: from <= j < |kids| ==> kids[j].Ok?
  }

  /** `AllOk` one alternative at a time, the way the loop meets them. */
  predicate OkFrom(kids: seq<Result<Json>>, from: nat)
    decreases |kids| - from
  {
    from >= |kids| || (kids[from].Ok? && OkFrom(kids, from + 1))
  }

  lemma {:induction false} OkFromAllOk(kids: seq<Result<Json>>, from: nat)
    ensures OkFrom(kids, from) <==> AllOk(kids, from)
    decreases |kids| - from
  {
    if from < |kids| {
      OkFromAllOk(kids, from + 1);
    }
  }

  /** The first `n` alternatives, each under its own key with its converted schema. */
  function ConvertedPrefix(snap: seq<Entry>, kids: seq<Result<Json>>, n: nat): (r: seq<Entry>)
    requires |kids| == |snap| && n <= |snap|
    requires forall j :: 0 <= j < n ==> kids[j].Ok?
    ensures |r| == n
    ensures forall j :: 0 <= j < n ==> r[j] == Entry(snap[j].key, kids[j].value)
  {
    seq(n, j requires 0 <= j < n => Entry(snap[j].key, kids[j].value))
  }

  /** The `foreach` at :438-440 from alternative i on: overwrite each value in place. */
  function OneOfLoop(snap: seq<Entry>, kids: seq<Result<Json>>, i: nat, cur: seq<Entry>): (r: Result<seq<Entry>>)
    requires |kids| == |snap| && i <= |snap|
    ensures r.Err? <==> !OkFrom(kids, i)
    decreases |snap| - i
  {
    if i == |snap| then Ok(cur)
    else match kids[i]
      case Err(e) => Err(e)
      case Ok(v) => OneOfLoop(snap, kids, i + 1, Set(cur, snap[i].key, v))
  }

  /** The converted prefix followed by the untouched rest has the snapshot's keys. */
  lemma PrefixKeys(snap: seq<Entry>, kids: seq<Result<Json>>, i: nat)
    requires |kids| == |snap| && i < |snap| && UniqueKeys(snap) && AllOk(kids, 0)
    ensures ConvertedPrefix(snap, kids, i) + snap[i..] == ConvertedPrefix(snap, kids, i) + [snap[i]] + snap[i + 1..]
    ensures UniqueKeys(ConvertedPrefix(snap, kids, i) + [snap[i]] + snap[i + 1..])
    ensures ConvertedPrefix(snap, kids, i) + [Entry(snap[i].key, kids[i].value)] + snap[i + 1..]
         == ConvertedPrefix(snap, kids, i + 1) + snap[i + 1..]
  {
    var p := ConvertedPrefix(snap, kids, i);
    var cur := p + [snap[i]] + snap[i + 1..];
    assert snap[i..] == [snap[i]] + snap[i + 1..];
    forall x, y | 0 <= x < y < |cur| ensures cur[x].key != cur[y].key {
      assert cur[x].key == snap[x].key && cur[y].key == snap[y].key;
    }
    assert p + [Entry(snap[i].key, kids[i].value)] == ConvertedPrefix(snap, kids, i + 1);
  }

  /** Each key keeps its place and gets its converted schema. */
  lemma {:induction false} OneOfLoopInPlace(snap: seq<Entry>, kids: seq<Result<Json>>, i: nat)
    requires |kids| == |snap| && i <= |snap| && UniqueKeys(snap) && AllOk(kids, 0)
    ensures OneOfLoop(snap, kids, i, ConvertedPrefix(snap, kids, i) + snap[i..])
         == Ok(ConvertedPrefix(snap, kids, |snap|))
    decreases |snap| - i
  {
    if i == |snap| {
      assert ConvertedPrefix(snap, kids, i) + snap[i..] == ConvertedPrefix(snap, kids, |snap|);
    } else {
      var p := ConvertedPrefix(snap, kids, i);
      PrefixKeys(snap, kids, i);
      SetExisting(p, snap[i], snap[i + 1..], kids[i].value);
      OneOfLoopInPlace(snap, kids, i + 1);
    }
  }

  /** :431-441: convert every alternative in place. */
  function ConvertOneOf(es: seq<Entry>, kids: seq<Result<Json>>): (r: Result<seq<Entry>>)
    requires |kids| == |Children(es, OneOfKey)|
    ensures r.Ok? ==> forall k :: k != OneOfKey ==> Lookup(r.value, k) == Lookup(es, k)
    ensures r.Ok? && UniqueKeys(es) ==> UniqueKeys(r.value)
    ensures !HoldsArray(es, OneOfKey) ==> r == Ok(es)
  {
    match Lookup(es, OneOfKey)
    case Some(Arr(os)) =>
      var os' :- OneOfLoop(os, kids, 0, os);
      Ok(Set(es, OneOfKey, Arr(os')))
    case _ => Ok(es)
  }

  /** The alternatives come out under the same keys, in the same order, converted;
      the stage fails exactly when one of them does. */
  lemma ConvertOneOfCorrect(es: seq<Entry>, kids: seq<Result<Json>>)
    requires |kids| == |Children(es, OneOfKey)| && HoldsArray(es, OneOfKey)
    requires UniqueKeys(Lookup(es, OneOfKey).value.entries)
    ensures ConvertOneOf(es, kids).Err? <==> !AllOk(kids, 0)
    ensures ConvertOneOf(es, kids).Ok? ==>
      var os := Lookup(es, OneOfKey).value.entries;
      Lookup(ConvertOneOf(es, kids).value, OneOfKey) == Some(Arr(ConvertedPrefix(os, kids, |os|)))
  {
    var os := Lookup(es, OneOfKey).value.entries;
    OkFromAllOk(kids, 0);
    if AllOk(kids, 0) {
      assert ConvertedPrefix(os, kids, 0) + os[0..] == os;
      OneOfLoopInPlace(os, kids, 0);
    }
  }

  // --------------------------------------------------------------------- items

  /** :443-445: a single `items` schema is replaced by its conversion `kid`. */
  function ConvertItems(es: seq<Entry>, kid: Result<Json>): (r: Result<seq<Entry>>)
    ensures r.Ok? ==> forall k :: k != ItemsKey ==> Lookup(r.value, k) == Lookup(es, k)
    ensures r.Ok? && UniqueKeys(es) ==> UniqueKeys(r.value)
    ensures !HoldsArray(es, ItemsKey) ==> r == Ok(es)
    ensures HoldsArray(es, ItemsKey) ==> (r.Err? <==> kid.Err?)
    ensures HoldsArray(es, ItemsKey) && r.Ok? ==> Lookup(r.value, ItemsKey) == Some(kid.value)
  {
    match Lookup(es, ItemsKey)
    case Some(Arr(_)) =>
      var v :- kid;
      Ok(Set(es, ItemsKey, v))
    case _ => Ok(es)
  }

  // ---------------------------------------------------------------------- $ref

  /** A `$ref` value that the rewrite leaves alone: a string, or an array of strings and
      arrays, with no `definitions` left in any string. */
  predicate RefRewritten(v: Json) {
    match v
    case Str(s) => !Occurs(Definitions, s)
    case Arr(es) => forall i :: 0 <= i < |es| ==> es[i].value.Arr? || (es[i].value.Str? && !Occurs(Definitions, es[i].value.s))
    case _ => false
  }

  /** `str_replace` over an array subject: each scalar is cast to string and rewritten,
      nested arrays are copied as they are. */
  function RewriteEach(es: seq<Entry>): (r: seq<Entry>)
    ensures |r| == |es|
    ensures forall i :: 0 <= i < |es| ==> r[i].key == es[i].key
    ensures forall i :: 0 <= i < |es| && es[i].value.Arr? ==> r[i] == es[i]
    ensures forall i :: 0 <= i < |es| && !es[i].value.Arr? ==>
      r[i].value.Str? && !Occurs(Definitions, r[i].value.s)
      && (!Occurs(Definitions, StringCast(es[i].value)) ==> r[i].value == Str(StringCast(es[i].value)))
  {
    seq(|es|, i requires 0 <= i < |es| =>
      if es[i].value.Arr? then es[i] else Entry(es[i].key, RewriteScalar(es[i].value)))
  }

  /** One scalar element of an array subject, cast to string and rewritten. */
  function RewriteScalar(v: Json): (r: Json)
    ensures r.Str? && !Occurs(Definitions, r.s)
    ensures !Occurs(Definitions, StringCast(v)) ==> r == Str(StringCast(v))
  {
    var s := StringCast(v);
    RewriteRemovesAll(s);
    RewriteIdentityWhenFree(s);
    Str(RewriteRef(s))
  }

  lemma RewriteIdentityWhenFree(s: string)
    ensures !Occurs(Definitions, s) ==> RewriteRef(s) == s
  {
    if !Occurs(Definitions, s) {
      RewriteIdentity(s);
    }
  }

  /** `str_replace('definitions', 'components/schemas', $ref)` on whatever `$ref` holds;
      under strict types a boolean or an integer subject is a type error. */
  function RewriteRefValue(v: Json): (r: Result<Json>)
    ensures r.Ok? <==> v.Str? || v.Arr?
    ensures r.Ok? ==> RefRewritten(r.value)
    ensures RefRewritten(v) ==> r == Ok(v)
  {
    match v
    case Str(s) =>
      RewriteRemovesAll(s);
      RewriteIdentityWhenFree(s);
      Ok(Str(RewriteRef(s)))
    case Arr(es) =>
      var r := RewriteEach(es);
      assert RefRewritten(v) ==> r == es by {
        if RefRewritten(v) {
          forall i | 0 <= i < |es| ensures r[i] == es[i] {
            if !es[i].value.Arr? {
              assert StringCast(es[i].value) == es[i].value.s;
            }
          }
        }
      }
      Ok(Arr(r))
    case _ => Err(IllTyped)
  }

  /** :447-449. */
  function ConvertRef(es: seq<Entry>): (r: Result<seq<Entry>>)
    ensures r.Ok? ==> forall k :: k != RefKey ==> Lookup(r.value, k) == Lookup(es, k)
    ensures r.Ok? && UniqueKeys(es) ==> UniqueKeys(r.value)
    ensures r.Err? <==> IsSet(es, RefKey) && !(GetOrNull(es, RefKey).Str? || GetOrNull(es, RefKey).Arr?)
    ensures r.Ok? && IsSet(es, RefKey) ==> IsSet(r.value, RefKey) && RefRewritten(GetOrNull(r.value, RefKey))
    ensures !IsSet(es, RefKey) ==> r == Ok(es)
  {
    if IsSet(es, RefKey) then
      var v :- RewriteRefValue(GetOrNull(es, RefKey));
      Ok(Set(es, RefKey, v))
    else Ok(es)
  }

  // ---------------------------------------------------------------------- enum

  /** Some enum value equals null under PHP's loose comparison: `in_array(null, $enum)`. */
  predicate HasLooseNull(vs: seq<Entry>) {
    exists i :: 0 <= i < |vs| && LooselyNull(vs[i].value)
  }

  /** The enum filter applies: both keys set and the type is exactly "string". */
  predicate EnumApplies(es: seq<Entry>) {
    IsSet(es, EnumKey) && IsSet(es, TypeKey) && GetOrNull(es, TypeKey) == Str("string")
  }

  /** :451-457: a string enum that admits null loses all its falsy values. */
  function ConvertEnum(es: seq<Entry>): (r: Result<seq<Entry>>)
    ensures r.Ok? ==> forall k :: k != EnumKey ==> Lookup(r.value, k) == Lookup(es, k)
    ensures r.Ok? && UniqueKeys(es) ==> UniqueKeys(r.value)
    ensures r.Err? <==> EnumApplies(es) && !GetOrNull(es, EnumKey).Arr?
    ensures !EnumApplies(es) ==> r == Ok(es)
    ensures GetOrNull(es, EnumKey).Arr? && !HasLooseNull(GetOrNull(es, EnumKey).entries) ==> r == Ok(es)
    ensures r.Ok? && EnumApplies(es) ==>
      var vs := GetOrNull(es, EnumKey).entries;
      var vs' := GetOrNull(r.value, EnumKey);
      && vs'.Arr? && !HasLooseNull(vs'.entries)
      && (forall e :: e in vs && Truthy(e.value) ==> e in vs'.entries)
      && (forall e :: e in vs'.entries ==> e in vs)
      && (!HasLooseNull(vs) ==> vs'.entries == vs)
  {
    if EnumApplies(es) then
      match GetOrNull(es, EnumKey)
      case Arr(vs) =>
        if HasLooseNull(vs) then
          var f := ArrayFilter(vs);
          assert !HasLooseNull(f) by {
            forall i | 0 <= i < |f| ensures !LooselyNull(f[i].value) {
              assert f[i] in f;
              LooselyNullIsFalsy(f[i].value);
            }
          }
          Ok(Set(es, EnumKey, Arr(f)))
        else Ok(es)
      case _ => Err(IllTyped)   // in_array on a non-array
    else Ok(es)
  }

  // ------------------------------------------------------------------ examples

  /** `reset($a)`: the first value, or false for an empty array. */
  function First(xs: seq<Entry>): (r: Json)
    ensures xs != [] ==> r == xs[0].value
    ensures xs == [] ==> r == Bool(false)
  {
    if xs == [] then Bool(false) else xs[0].value
  }

  /** :459-463: the `examples` list gives way to a single `example`. */
  function ConvertExamples(es: seq<Entry>): (r: Result<seq<Entry>>)
    ensures r.Ok? ==> forall k :: k != ExamplesKey && k != ExampleKey ==> Lookup(r.value, k) == Lookup(es, k)
    ensures r.Ok? && UniqueKeys(es) ==> UniqueKeys(r.value)
    ensures r.Err? <==> IsSet(es, ExamplesKey) && !GetOrNull(es, ExamplesKey).Arr?
    ensures r.Ok? ==> !IsSet(r.value, ExamplesKey)
    ensures r.Ok? && IsSet(es, ExamplesKey) ==>
      !HasKey(r.value, ExamplesKey) && Lookup(r.value, ExampleKey) == Some(First(GetOrNull(es, ExamplesKey).entries))
    ensures !IsSet(es, ExamplesKey) ==> r == Ok(es)
  {
    if IsSet(es, ExamplesKey) then
      match GetOrNull(es, ExamplesKey)
      case Arr(xs) => Ok(Unset(Set(es, ExampleKey, First(xs)), ExamplesKey))
      case _ => Err(IllTyped)   // reset on a non-array
    else Ok(es)
  }

  // ------------------------------------------------------------------ required

  /** :465-467: an empty `required` list is dropped. */
  function ConvertRequired(es: seq<Entry>): (r: Result<seq<Entry>>)
    ensures r.Ok? ==> forall k :: k != RequiredKey ==> Lookup(r.value, k) == Lookup(es, k)
    ensures r.Ok? && UniqueKeys(es) ==> UniqueKeys(r.value)
    ensures r.Err? <==> IsSet(es, RequiredKey) && !GetOrNull(es, RequiredKey).Arr?
    ensures r.Ok? ==> Lookup(r.value, RequiredKey) != Some(Arr([]))
    ensures r.Ok? && IsSet(r.value, RequiredKey) ==> GetOrNull(r.value, RequiredKey).Arr?
    ensures r.Ok? && Lookup(es, RequiredKey) != Some(Arr([])) ==> r.value == es
  {
    if IsSet(es, RequiredKey) then
      match GetOrNull(es, RequiredKey)
      case Arr(rs) => if rs == [] then Ok(Unset(es, RequiredKey)) else Ok(es)
      case _ => Err(IllTyped)   // count on a non-array
    else Ok(es)
  }
}

=== FILE: sorting.dfy ===
/** Stable insertion sort under a strict "sorts before" relation.

  PHP 8's `ksort` and `uksort` are stable. Both uses in the normalizer are
  sorts of a PHP array by its keys: `ksort` orders the paths, `uksort` the
  methods of one path. The element is placed before the first element that
  does not sort strictly before it, so elements the relation cannot tell apart
  keep their order.
 */
module Sorting {

  /** `x` followed by `t` when `t` starts with an element that does not come before `x`. */
  function Insert<T>(x: T, t: seq<T>, before: (T, T) -> bool): (r: seq<T>)
    ensures |r| == |t| + 1
    ensures multiset(r) == multiset(t) + multiset{x}
  {
    if t == [] || !before(t[0], x) then [x] + t
    else
      assert t == [t[0]] + t[1..];
      [t[0]] + Insert(x, t[1..], before)
  }

  /** Insertion sort, inserting from the back so that earlier elements stay in front. */
  function Sort<T>(s: seq<T>, before: (T, T) -> bool): (r: seq<T>)
    ensures |r| == |s|
    ensures multiset(r) == multiset(s)
  {
    if s == [] then []
    else
      assert s == [s[0]] + s[1..];
      Insert(s[0], Sort(s[1..], before), before)
  }

  /** No element comes before an element in front of it. */
  predicate Sorted<T>(s: seq<T>, before: (T, T) -> bool) {
    forall i, j :: 0 <= i < j < |s| ==> !before(s[j], s[i])
  }

  /** "Does not come before" is transitive: what a strict weak order guarantees. */
  ghost predicate NotBeforeTransitive<T(!new)>(before: (T, T) -> bool) {
    forall a, b, c :: !before(b, a) && !before(c, b) ==> !before(c, a)
  }

  /** No two elements each come before the other. */
  ghost predicate Asymmetric<T(!new)>(before: (T, T) -> bool) {
    forall a, b :: before(a, b) ==> !before(b, a)
  }

  lemma {:induction false} InsertSorted<T(!new)>(x: T, t: seq<T>, before: (T, T) -> bool)
    requires NotBeforeTransitive(before) && Asymmetric(before)
    requires Sorted(t, before)
    ensures Sorted(Insert(x, t, before), before)
  {
    if t == [] || !before(t[0], x) {
      var r := [x] + t;
      forall i, j | 0 <= i < j < |r| ensures !before(r[j], r[i]) {
        if i == 0 {
          assert r[j] == t[j - 1];
          if j > 1 {
            assert !before(t[j - 1], t[0]);
          }
        } else {
          assert r[i] == t[i - 1] && r[j] == t[j - 1];
        }
      }
    } else {
      var rest := t[1..];
      assert Sorted(rest, before) by {
        forall i, j | 0 <= i < j < |rest| ensures !before(rest[j], rest[i]) {
          assert rest[i] == t[i + 1] && rest[j] == t[j + 1];
        }
      }
      InsertSorted(x, rest, before);
      var ins := Insert(x, rest, before);
      var r := [t[0]] + ins;
      assert multiset(ins) == multiset(rest) + multiset{x};
      forall j | 0 <= j < |ins| ensures !before(ins[j], t[0]) {
        assert ins[j] in multiset(ins);
        if ins[j] != x {
          assert ins[j] in multiset(rest);
          var k :| 0 <= k < |rest| && rest[k] == ins[j];
          assert t[k + 1] == rest[k];
        }
      }
      forall i, j | 0 <= i < j < |r| ensures !before(r[j], r[i]) {
        if i == 0 {
          assert r[j] == ins[j - 1];
        } else {
          assert r[i] == ins[i - 1] && r[j] == ins[j - 1];
        }
      }
    }
  }

  lemma {:induction false} SortSorted<T(!new)>(s: seq<T>, before: (T, T) -> bool)
    requires NotBeforeTransitive(before) && Asymmetric(before)
    ensures Sorted(Sort(s, before), before)
  {
    if s != [] {
      SortSorted(s[1..], before);
      InsertSorted(s[0], Sort(s[1..], before), before);
    }
  }

  /** Sorting a sorted sequence changes nothing. */
  lemma {:induction false} SortOfSorted<T>(s: seq<T>, before: (T, T) -> bool)
    requires Sorted(s, before)
    ensures Sort(s, before) == s
  {
    if s != [] {
      var rest := s[1..];
      assert Sorted(rest, before) by {
        forall i, j | 0 <= i < j < |rest| ensures !before(rest[j], rest[i]) {
          assert rest[i] == s[i + 1] && rest[j] == s[j + 1];
        }
      }
      SortOfSorted(rest, before);
      if rest != [] {
        assert !before(rest[0], s[0]) by {
          assert rest[0] == s[1];
        }
      }
      assert s == [s[0]] + rest;
    }
  }

  // ------------------------------------------------------------ sort by rank

  /** The order "a smaller rank first"; equal ranks are not told apart. */
  function ByRank<T>(rank: T -> nat): (T, T) -> bool {
    (a: T, b: T) => rank(a) < rank(b)
  }

  lemma ByRankOrder<T(!new)>(rank: T -> nat)
    ensures NotBeforeTransitive(ByRank(rank)) && Asymmetric(ByRank(rank))
  {
  }

  /** The elements of `s` of rank `r`, in order. */
  function RankFilter<T>(s: seq<T>, rank: T -> nat, r: nat): (f: seq<T>)
    ensures forall i :: 0 <= i < |f| ==> f[i] in s && rank(f[i]) == r
    ensures forall i :: 0 <= i < |s| && rank(s[i]) == r ==> s[i] in f
  {
    if s == [] then []
    else (if rank(s[0]) == r then [s[0]] else []) + RankFilter(s[1..], rank, r)
  }

  /** The elements of ranks `lo` up to `hi - 1`, rank by rank, each rank in order. */
  function Buckets<T>(s: seq<T>, rank: T -> nat, lo: nat, hi: nat): seq<T>
    decreases hi - lo
  {
    if lo >= hi then [] else RankFilter(s, rank, lo) + Buckets(s, rank, lo + 1, hi)
  }

  lemma {:induction false} RankFilterCons<T>(x: T, t: seq<T>, rank: T -> nat, r: nat)
    ensures RankFilter([x] + t, rank, r) == (if rank(x) == r then [x] else []) + RankFilter(t, rank, r)
  {
    assert ([x] + t)[1..] == t;
  }

  lemma EmptyCommutes<T>(a: seq<T>, b: seq<T>, c: seq<T>)
    requires a == [] || b == []
    ensures a + (b + c) == b + (a + c)
  {
    if a == [] {
      assert a + (b + c) == b + c;
      assert a + c == c;
    } else {
      assert b + (a + c) == a + c;
      assert b + c == c;
    }
  }

  /** Inserting keeps the order within every rank: the inserted element goes in
      front of the elements of its own rank. */
  lemma {:induction false} InsertRankFilter<T>(x: T, t: seq<T>, rank: T -> nat, r: nat)
    ensures RankFilter(Insert(x, t, ByRank(rank)), rank, r) == RankFilter([x] + t, rank, r)
  {
    if t != [] && ByRank(rank)(t[0], x) {
      var rest := t[1..];
      var h0 := if rank(t[0]) == r then [t[0]] else [];
      var hx := if rank(x) == r then [x] else [];
      assert Insert(x, t, ByRank(rank)) == [t[0]] + Insert(x, rest, ByRank(rank));
      InsertRankFilter(x, rest, rank, r);
      RankFilterCons(t[0], Insert(x, rest, ByRank(rank)), rank, r);
      RankFilterCons(x, rest, rank, r);
      assert RankFilter(Insert(x, t, ByRank(rank)), rank, r) == h0 + (hx + RankFilter(rest, rank, r));
      RankFilterTwo(x, t, rank, r);
      EmptyCommutes(h0, hx, RankFilter(rest, rank, r));
    }
  }

  lemma RankFilterTwo<T>(x: T, t: seq<T>, rank: T -> nat, r: nat)
    requires t != []
    ensures RankFilter([x] + t, rank, r) ==
      (if rank(x) == r then [x] else []) + ((if rank(t[0]) == r then [t[0]] else []) + RankFilter(t[1..], rank, r))
  {
    RankFilterCons(x, t, rank, r);
    assert t == [t[0]] + t[1..];
    RankFilterCons(t[0], t[1..], rank, r);
  }

  /** Sorting by rank is stable: the elements of each rank keep their order. */
  lemma {:induction false} SortStable<T>(s: seq<T>, rank: T -> nat, r: nat)
    ensures RankFilter(Sort(s, ByRank(rank)), rank, r) == RankFilter(s, rank, r)
  {
    if s != [] {
      SortStable(s[1..], rank, r);
      InsertRankFilter(s[0], Sort(s[1..], ByRank(rank)), rank, r);
      RankFilterCons(s[0], Sort(s[1..], ByRank(rank)), rank, r);
      RankFilterCons(s[0], s[1..], rank, r);
      assert s == [s[0]] + s[1..];
    }
  }

  lemma {:induction false} BucketsCons<T>(x: T, t: seq<T>, rank: T -> nat, lo: nat, hi: nat)
    requires rank(x) < lo
    ensures Buckets([x] + t, rank, lo, hi) == Buckets(t, rank, lo, hi)
    decreases hi - lo
  {
    if lo < hi {
      RankFilterCons(x, t, rank, lo);
      EmptyFront(RankFilter(t, rank, lo));
      BucketsCons(x, t, rank, lo + 1, hi);
      assert Buckets([x] + t, rank, lo, hi) == RankFilter([x] + t, rank, lo) + Buckets([x] + t, rank, lo + 1, hi);
    }
  }

  lemma EmptyFront<T>(s: seq<T>)
    ensures [] + s == s
  {
  }

  lemma {:induction false} BucketsEmpty<T>(rank: T -> nat, lo: nat, hi: nat)
    ensures Buckets([], rank, lo, hi) == []
    decreases hi - lo
  {
    if lo < hi {
      BucketsEmpty(rank, lo + 1, hi);
    }
  }

  lemma TailSorted<T>(t: seq<T>, before: (T, T) -> bool)
    requires t != [] && Sorted(t, before)
    ensures Sorted(t[1..], before)
  {
    forall i, j | 0 <= i < j < |t[1..]| ensures !before(t[1..][j], t[1..][i]) {
      assert t[1..][i] == t[i + 1] && t[1..][j] == t[j + 1];
    }
  }

  /** A sequence sorted by rank, with every rank from `lo` up to `hi - 1`, is its buckets. */
  lemma {:induction false} SortedIsBuckets<T>(t: seq<T>, rank: T -> nat, lo: nat, hi: nat)
    requires Sorted(t, ByRank(rank))
    requires forall i :: 0 <= i < |t| ==> lo <= rank(t[i]) < hi
    ensures t == Buckets(t, rank, lo, hi)
    decreases |t|, hi - lo
  {
    if t == [] {
      BucketsEmpty(rank, lo, hi);
    } else if rank(t[0]) > lo {
      NoSmallerRank(t, rank, lo);
      SortedIsBuckets(t, rank, lo + 1, hi);
    } else {
      var rest := t[1..];
      TailSorted(t, ByRank(rank));
      assert forall i :: 0 <= i < |rest| ==> lo <= rank(rest[i]) < hi by {
        forall i | 0 <= i < |rest| ensures lo <= rank(rest[i]) < hi {
          assert rest[i] == t[i + 1];
        }
      }
      SortedIsBuckets(rest, rank, lo, hi);
      HeadBucket(t, rank, lo, hi);
    }
  }

  /** A sorted sequence whose first element ranks above `lo` has nothing of rank `lo`. */
  lemma NoSmallerRank<T>(t: seq<T>, rank: T -> nat, lo: nat)
    requires t != [] && Sorted(t, ByRank(rank)) && rank(t[0]) > lo
    ensures RankFilter(t, rank, lo) == []
  {
  }

  /** Putting the first element of rank `lo` back in front of its bucket. */
  lemma HeadBucket<T>(t: seq<T>, rank: T -> nat, lo: nat, hi: nat)
    requires t != [] && rank(t[0]) == lo < hi
    requires t[1..] == Buckets(t[1..], rank, lo, hi)
    ensures t == Buckets(t, rank, lo, hi)
  {
    var rest := t[1..];
    var a := RankFilter(rest, rank, lo);
    var b := Buckets(rest, rank, lo + 1, hi);
    assert t == [t[0]] + rest;
    RankFilterCons(t[0], rest, rank, lo);
    BucketsCons(t[0], rest, rank, lo + 1, hi);
    assert rest == a + b;
    assert Buckets(t, rank, lo, hi) == ([t[0]] + a) + b;
    Associative([t[0]], a, b);
  }

  lemma Associative<T>(x: seq<T>, y: seq<T>, z: seq<T>)
    ensures x + (y + z) == (x + y) + z
  {
  }

  /** Sorting by rank groups the elements by rank, smallest first, each group in
      its original order. */
  lemma SortIsBuckets<T(!new)>(s: seq<T>, rank: T -> nat, hi: nat)
    requires forall i :: 0 <= i < |s| ==> rank(s[i]) < hi
    ensures Sort(s, ByRank(rank)) == Buckets(s, rank, 0, hi)
  {
    var t := Sort(s, ByRank(rank));
    ByRankOrder(rank);
    SortSorted(s, ByRank(rank));
    forall i | 0 <= i < |t| ensures rank(t[i]) < hi {
      assert t[i] in multiset(s);
    }
    SortedIsBuckets(t, rank, 0, hi);
    BucketsStable(s, rank, 0, hi);
  }

  lemma {:induction false} BucketsStable<T>(s: seq<T>, rank: T -> nat, lo: nat, hi: nat)
    ensures Buckets(Sort(s, ByRank(rank)), rank, lo, hi) == Buckets(s, rank, lo, hi)
    decreases hi - lo
  {
    if lo < hi {
      SortStable(s, rank, lo);
      BucketsStable(s, rank, lo + 1, hi);
    }
  }
}

=== FILE: type_union.dfy ===
/** Collapsing a list-valued `type` into one type plus `nullable`
    (DocumentationNormalizer.php:401-416).

  The loop remembers the last non-null entry in `$type` and throws when it meets
  another non-null entry while `$type` is truthy. PHP truthiness makes the
  entries "" and "0" falsy, so such an entry followed by another non-null entry
  does not throw: the later entry silently replaces it.
 */
module TypeUnion {
  import opened Outcomes
  import opened PhpArrays
  import opened PhpStrings
  import opened Vocabulary

  /** Entry i of the type list names a non-null type. */
  predicate NonNullAt(ts: seq<Entry>, i: int)
    requires 0 <= i < |ts|
  {
    ts[i].value.Str? && !IsNullName(ts[i].value.s)
  }

  /** Entry i of the type list is "null" in some letter case. */
  predicate NullAt(ts: seq<Entry>, i: int)
    requires 0 <= i < |ts|
  {
    ts[i].value.Str? && IsNullName(ts[i].value.s)
  }

  predicate AllStrings(ts: seq<Entry>) {
    forall i :: 0 <= i < |ts| ==> ts[i].value.Str?
  }

  /** Two non-null entries, the earlier of which is truthy: what makes the loop throw. */
  predicate Clash(ts: seq<Entry>) {
    exists i, j :: 0 <= i < j < |ts| && NonNullAt(ts, i) && Truthy(ts[i].value) && NonNullAt(ts, j)
  }

  /** `t` is the type the loop keeps: the last non-null entry, or null when there is none. */
  predicate IsLastNonNull(ts: seq<Entry>, t: Json) {
    if forall i :: 0 <= i < |ts| ==> !NonNullAt(ts, i) then t == Null
    else exists k :: 0 <= k < |ts| && NonNullAt(ts, k) && t == ts[k].value
                     && forall j :: k < j < |ts| ==> !NonNullAt(ts, j)
  }

  /** The `foreach` at :403-413 from entry i on; `typ` is `$type`, `es` the schema. */
  function TypeLoop(ts: seq<Entry>, i: nat, typ: Json, es: seq<Entry>): Result<(Json, seq<Entry>)>
    requires i <= |ts|
    decreases |ts| - i
  {
    if i == |ts| then Ok((typ, es))
    else match ts[i].value
      case Str(t) =>
        if !IsNullName(t) then
          if Truthy(typ) then Err(MoreThanOneNullType)
          else TypeLoop(ts, i + 1, Str(t), es)
        else TypeLoop(ts, i + 1, typ, Set(es, NullableKey, Bool(true)))
      case _ => Err(IllTyped)   // mb_strtolower of a non-string
  }

  /** Stage one of convertSchema: only `type` and `nullable` can change. */
  function CollapseType(es: seq<Entry>): (r: Result<seq<Entry>>)
    ensures r.Ok? ==> forall k :: k != TypeKey && k != NullableKey ==> Lookup(r.value, k) == Lookup(es, k)
    ensures r.Ok? && UniqueKeys(es) ==> UniqueKeys(r.value)
    ensures r.Err? ==> Lookup(es, TypeKey).Some? && Lookup(es, TypeKey).value.Arr?
    ensures r.Ok? ==> !(Lookup(r.value, TypeKey).Some? && Lookup(r.value, TypeKey).value.Arr?)
    ensures (match Lookup(es, TypeKey) case Some(Arr(_)) => false case _ => true) ==> r == Ok(es)
  {
    match Lookup(es, TypeKey)
    case Some(Arr(ts)) =>
      TypeLoopFrame(ts, 0, Null, es);
      var (typ, es') :- TypeLoop(ts, 0, Null, es);
      Ok(Set(es', TypeKey, typ))
    case _ => Ok(es)
  }

  /** The loop only ever writes `nullable`. */
  lemma {:induction false} TypeLoopFrame(ts: seq<Entry>, i: nat, typ: Json, es: seq<Entry>)
    requires i <= |ts|
    ensures TypeLoop(ts, i, typ, es).Ok? ==>
      var es' := TypeLoop(ts, i, typ, es).value.1;
      (forall k :: k != NullableKey ==> Lookup(es', k) == Lookup(es, k))
      && (UniqueKeys(es) ==> UniqueKeys(es'))
      && (!typ.Arr? ==> !TypeLoop(ts, i, typ, es).value.0.Arr?)
    decreases |ts| - i
  {
    if i < |ts| && ts[i].value.Str? {
      if !IsNullName(ts[i].value.s) {
        TypeLoopFrame(ts, i + 1, ts[i].value, es);
      } else {
        TypeLoopFrame(ts, i + 1, typ, Set(es, NullableKey, Bool(true)));
      }
    }
  }

  /** The loop invariant: no clash among entries before i, and `typ` is the last
      non-null entry before i (`last`, or -1 when there is none). */
  ghost predicate TypeInvariant(ts: seq<Entry>, i: nat, typ: Json, last: int)
    requires i <= |ts|
  {
    && (forall a, b :: 0 <= a < b < i && NonNullAt(ts, a) && Truthy(ts[a].value) ==> !NonNullAt(ts, b))
    && -1 <= last < i
    && (last == -1 ==> typ == Null)
    && (last >= 0 ==> NonNullAt(ts, last) && typ == ts[last].value)
    && (forall j :: last < j < i ==> !NonNullAt(ts, j))
  }

  /** Some entry from i on is "null" in some letter case. */
  ghost predicate NullFrom(ts: seq<Entry>, i: nat) {
    exists j :: i <= j < |ts| && NullAt(ts, j)
  }

  /** What the loop from entry i on, started on the schema `es`, comes to. */
  ghost predicate TypeOutcome(ts: seq<Entry>, i: nat, es: seq<Entry>, r: Result<(Json, seq<Entry>)>) {
    && (r.Err? <==> Clash(ts))
    && (r.Err? ==> r.error == MoreThanOneNullType)
    && (r.Ok? ==> IsLastNonNull(ts, r.value.0))
    && (r.Ok? ==> Lookup(r.value.1, NullableKey) == if NullFrom(ts, i) then Some(Bool(true)) else Lookup(es, NullableKey))
  }

  /** From the invariant on, the loop keeps the last non-null entry, sets `nullable`
      when it meets a "null", and fails exactly on a clash. */
  lemma {:induction false} TypeLoopCorrect(ts: seq<Entry>, i: nat, typ: Json, es: seq<Entry>, last: int)
    requires i <= |ts| && AllStrings(ts) && TypeInvariant(ts, i, typ, last)
    ensures TypeOutcome(ts, i, es, TypeLoop(ts, i, typ, es))
    decreases |ts| - i
  {
    if i == |ts| {
      TypeEnd(ts, typ, es, last);
    } else if NonNullAt(ts, i) {
      if Truthy(typ) {
        TypeClash(ts, i, typ, es, last);
      } else {
        TypeKeepInvariant(ts, i, typ, last);
        TypeLoopCorrect(ts, i + 1, ts[i].value, es, i);
        TypeNonNullStep(ts, i, typ, es);
        OutcomeNonNull(ts, i, es, TypeLoop(ts, i, typ, es));
      }
    } else {
      var es' := Set(es, NullableKey, Bool(true));
      TypeNullInvariant(ts, i, typ, last);
      TypeLoopCorrect(ts, i + 1, typ, es', last);
      TypeNullStep(ts, i, typ, es);
      OutcomeNull(ts, i, es, es', TypeLoop(ts, i, typ, es));
    }
  }

  lemma TypeEnd(ts: seq<Entry>, typ: Json, es: seq<Entry>, last: int)
    requires TypeInvariant(ts, |ts|, typ, last)
    ensures TypeOutcome(ts, |ts|, es, TypeLoop(ts, |ts|, typ, es))
  {
    assert TypeLoop(ts, |ts|, typ, es) == Ok((typ, es));
    assert !Clash(ts);
    assert !NullFrom(ts, |ts|);
    if last == -1 {
      assert forall j :: 0 <= j < |ts| ==> !NonNullAt(ts, j);
    } else {
      assert NonNullAt(ts, last) && forall j :: last < j < |ts| ==> !NonNullAt(ts, j);
    }
  }

  lemma TypeClash(ts: seq<Entry>, i: nat, typ: Json, es: seq<Entry>, last: int)
    requires i < |ts| && NonNullAt(ts, i) && Truthy(typ) && TypeInvariant(ts, i, typ, last)
    ensures TypeOutcome(ts, i, es, TypeLoop(ts, i, typ, es))
  {
    assert TypeLoop(ts, i, typ, es) == Err(MoreThanOneNullType);
    assert last >= 0 && NonNullAt(ts, last) && Truthy(ts[last].value);
    assert Clash(ts);
  }

  lemma TypeKeepInvariant(ts: seq<Entry>, i: nat, typ: Json, last: int)
    requires i < |ts| && NonNullAt(ts, i) && !Truthy(typ) && TypeInvariant(ts, i, typ, last)
    ensures TypeInvariant(ts, i + 1, ts[i].value, i)
  {
    forall a, b | 0 <= a < b < i + 1
      ensures NonNullAt(ts, a) && Truthy(ts[a].value) ==> !NonNullAt(ts, b)
    {
      if b == i {
        assert NonNullAt(ts, a) ==> a <= last;
      }
    }
  }

  lemma TypeNullInvariant(ts: seq<Entry>, i: nat, typ: Json, last: int)
    requires i < |ts| && !NonNullAt(ts, i) && TypeInvariant(ts, i, typ, last)
    ensures TypeInvariant(ts, i + 1, typ, last)
  {
  }

  lemma TypeNonNullStep(ts: seq<Entry>, i: nat, typ: Json, es: seq<Entry>)
    requires i < |ts| && NonNullAt(ts, i) && !Truthy(typ)
    ensures TypeLoop(ts, i, typ, es) == TypeLoop(ts, i + 1, ts[i].value, es)
  {
  }

  lemma TypeNullStep(ts: seq<Entry>, i: nat, typ: Json, es: seq<Entry>)
    requires i < |ts| && NullAt(ts, i)
    ensures TypeLoop(ts, i, typ, es) == TypeLoop(ts, i + 1, typ, Set(es, NullableKey, Bool(true)))
  {
  }

  lemma OutcomeNonNull(ts: seq<Entry>, i: nat, es: seq<Entry>, r: Result<(Json, seq<Entry>)>)
    requires i < |ts| && NonNullAt(ts, i) && TypeOutcome(ts, i + 1, es, r)
    ensures TypeOutcome(ts, i, es, r)
  {
    if NullFrom(ts, i) {
      var j :| i <= j < |ts| && NullAt(ts, j);
      assert j != i;
    }
  }

  lemma OutcomeNull(ts: seq<Entry>, i: nat, es: seq<Entry>, es': seq<Entry>, r: Result<(Json, seq<Entry>)>)
    requires i < |ts| && NullAt(ts, i) && Lookup(es', NullableKey) == Some(Bool(true))
    requires TypeOutcome(ts, i + 1, es', r)
    ensures TypeOutcome(ts, i, es, r)
  {
    assert NullFrom(ts, i);
  }

  /** The list-valued `type` collapses to its last non-null entry (null when there
      is none), `nullable` becomes true exactly when some entry is "null" in any
      case, and the conversion fails exactly on a clash. */
  lemma CollapseTypeCorrect(es: seq<Entry>, ts: seq<Entry>)
    requires Lookup(es, TypeKey) == Some(Arr(ts))
    requires AllStrings(ts)
    ensures CollapseType(es).Err? <==> Clash(ts)
    ensures CollapseType(es).Err? ==> CollapseType(es).error == MoreThanOneNullType
    ensures CollapseType(es).Ok? ==>
      var out := CollapseType(es).value;
      && Lookup(out, TypeKey).Some? && IsLastNonNull(ts, Lookup(out, TypeKey).value)
      && Lookup(out, NullableKey) ==
           (if exists j :: 0 <= j < |ts| && NullAt(ts, j) then Some(Bool(true)) else Lookup(es, NullableKey))
  {
    TypeLoopCorrect(ts, 0, Null, es, -1);
  }

  /** With proper type names (none of them "" or "0"), two non-null entries are
      exactly what makes the conversion fail. */
  lemma MoreThanOneNullTypeIff(es: seq<Entry>, ts: seq<Entry>)
    requires Lookup(es, TypeKey) == Some(Arr(ts))
    requires AllStrings(ts)
    requires forall i :: 0 <= i < |ts| ==> Truthy(ts[i].value)
    ensures CollapseType(es) == Err(MoreThanOneNullType) <==>
      exists i, j :: 0 <= i < j < |ts| && NonNullAt(ts, i) && NonNullAt(ts, j)
  {
    CollapseTypeCorrect(es, ts);
  }

  /** A list entry that is not a string always ends the conversion with an error. */
  lemma {:induction false} NonStringTypeFails(ts: seq<Entry>, i: nat, typ: Json, es: seq<Entry>)
    requires i <= |ts|
    requires exists j :: i <= j < |ts| && !ts[j].value.Str?
    ensures TypeLoop(ts, i, typ, es).Err?
    decreases |ts| - i
  {
    if ts[i].value.Str? {
      var j :| i <= j < |ts| && !ts[j].value.Str?;
      assert j > i;
      if !IsNullName(ts[i].value.s) {
        if !Truthy(typ) {
          NonStringTypeFails(ts, i + 1, ts[i].value, es);
        }
      } else {
        NonStringTypeFails(ts, i + 1, typ, Set(es, NullableKey, Bool(true)));
      }
    }
  }
}

=== FILE: vocabulary.dfy ===
/** The schema keys the normalizer reads and writes. */
module Vocabulary {
  import opened PhpArrays

  const TypeKey := StrKey("type")
  const NullableKey := StrKey("nullable")
  const PropertiesKey := StrKey("properties")
  const OneOfKey := StrKey("oneOf")
  const ItemsKey := StrKey("items")
  const RefKey := StrKey("$ref")
  const EnumKey := StrKey("enum")
  const ExamplesKey := StrKey("examples")
  const ExampleKey := StrKey("example")
  const RequiredKey := StrKey("required")
}
